=== FILE: README.md ===
# Paperboy route planning, modelled in Dafny

Paperboy plans a walking delivery route through a set of flyer points. This
project models the sequential algorithms at its core and proves properties
of them:

- the TSP solvers of `public/js/solveTSP.js` (greedy nearest neighbour,
  whole-route 2-opt, route length with missing entries as infinity) and of
  `public/solveTSP.js` (greedy, brute force over all permutations,
  delta-based 2-opt);
- the decision logic of the two clustered planners,
  `public/js/route_solver_valhalla_leaflet.js` and
  `public/clustered_route_solver.js`: coordinate validity, grid clustering,
  centroids, first-occurrence deduplication, the fallbacks to the identity
  order, index remapping, the chained legs, the detour rule, segment
  direction normalisation, the final line, arrows and U-turn markers, and
  the `polyline6` decoder;
- the footpath router of `public/pathRouter.js`: the undirected adjacency
  graph, coordinate interning in `loadPathGraph`, Dijkstra with set-based
  extraction and predecessor reconstruction, nearest-node snapping and the
  multi-stop `routePathAware`;
- the address deduplication script `scripts/dedupe_address_points.py`.

Coordinates are fixed-point integers (micro-degrees). A JavaScript value in
coordinate position is a `Coord`: a pair of numbers, each finite or not, or
something else. Cost matrices hold `Option<int>` entries. For the solvers of
`public/js/solveTSP.js`, `None` is a missing, non-numeric or non-finite
entry. For those of `public/solveTSP.js`, which read OSRM `durations` tables,
`None` is JSON `null` (OSRM's unroutable pair), and a row too short for an
index is the `undefined` entry JavaScript reads there. Arithmetic follows
JavaScript: `null` counts as 0, and an `undefined` entry makes a sum NaN,
which fails every comparison. The routing-engine answers, the turf.js
distances and the trigonometry the programs use are parameters:

- duration matrices;
- route geometries with their distances;
- metric and planar distances;
- bearings;
- the address normaliser.

turf.js `lineIntersect`, which the Valhalla planner uses to drop segments
that cross buildings, is not modelled (see "Left out"). An encoded polyline
is a `seq<char>` of Unicode scalar values; JavaScript reads it as UTF-16 code
units, which agree on the ASCII alphabet the encoding uses.

Modules follow the source files:

| module | models |
|---|---|
| `TspCommon` | cost matrices and `calculateRouteLength` |
| `SolveTsp` | the solvers of `public/js/solveTSP.js` |
| `SolveTspOsrm`, `Permutations` | the solvers of `public/solveTSP.js` |
| `Geometry`, `Grid`, `Dedup`, `Polyline`, `Legs` | helpers the two planners share |
| `RouteSolverValhalla` | `planRouteWithValhalla` |
| `ClusteredRouteSolver` | `planFullRouteFromUnsnapped` |
| `PathGraph` | the footpath graph and its builder |
| `PathRouter` | Dijkstra, snapping and path-aware routing |
| `DedupeAddressPoints` | the address deduplication script |
| `Wrappers`, `Seqs` | generic helpers |

## Model

| member | source | states |
|---|---|---|
| TspCommon.RouteLengthIsLegSum | public/js/solveTSP.js:176-191 | the route length is finite exactly when the order has at least two stops and every leg's entry is finite, and it is then the sum of the legs |
| TspCommon.EdgeSumIsLegSum | public/js/solveTSP.js:181-190 | the accumulated sum is finite exactly when every leg is, and then equals the sum of the legs |
| TspCommon.OpenLengthAppend | public/solveTSP.js:146-153 | the length of a concatenation is the two lengths plus the joining leg |
| TspCommon.OpenLengthSplit | public/solveTSP.js:146-153 | the length of a three-part route is the parts plus the two joining legs |
| TspCommon.OpenLengthReverse | public/solveTSP.js:150-152 | on a symmetric matrix a reversed stretch has the same length |
| SolveTsp.NearestUnvisited | public/js/solveTSP.js:94-99 | the candidate found is the unvisited index of least finite cost from the last stop, lowest index among equals; none is found only when no unvisited index has a finite cost |
| SolveTsp.GreedyTour | public/js/solveTSP.js:75-116 | a null matrix gives the empty order; a matrix failing the shape check gives the identity order of its length; otherwise the result is a permutation starting at 0, each step the nearest unvisited index, and once stuck the rest in index order |
| SolveTsp.AppendUnvisited | public/js/solveTSP.js:100-110 | appending the unvisited indices in index order completes a permutation that is still a greedy tour |
| SolveTsp.GreedyAfterStuck | public/js/solveTSP.js:100-110 | a greedy prefix that is stuck, followed by an ascending rest, is a greedy tour |
| SolveTsp.SwapShape | public/js/solveTSP.js:169-174 | `try2OptSwap` keeps the prefix up to `i`, reverses `i+1..k`, keeps the suffix after `k`, and keeps the multiset of elements |
| SolveTsp.OverrideIsIgnored | public/js/solveTSP.js:127-129 | the pass budget does not depend on the override's value: with a configured count that count is used, and with a truthy override and no configured count no pass runs |
| SolveTsp.ScanRow | public/js/solveTSP.js:154-162 | the scan for one `i` keeps length, elements and the first stop; an improvement is a strictly shorter route, and no improvement means no swap with that `i` is shorter |
| SolveTsp.TwoOptPass | public/js/solveTSP.js:153-163 | one pass keeps length, elements and the first stop; an improvement is strictly shorter, and no improvement means the order is 2-opt locally optimal |
| SolveTsp.Solve2Opt | public/js/solveTSP.js:126-167 | with fewer than 3 stops, a bad matrix or a size mismatch the input comes back with no pass run; otherwise the result is a rearrangement with the same first stop, equal to the input or strictly shorter; passes stay within the budget, and stopping before the budget means local optimality |
| SolveTspOsrm.GreedyTour | public/solveTSP.js:80-101 | the table is read as JavaScript reads it (`null` as 0, a missing entry as `NaN`); the tour starts at 0, has no repeated stop, one stop per row, and follows the nearest unvisited row by strict `<` at every step; a walk with no candidate at its last step ends in `-1`, and the walk throws exactly when it gets stuck earlier; over a complete table it is a permutation; an empty table gives `[0]` |
| SolveTspOsrm.GreedyPrefixesAgree | public/solveTSP.js:86-98 | line 91 leaves one choice per step, so two greedy walks over one table agree as far as both go |
| SolveTspOsrm.ThrowsOrReturns | public/solveTSP.js:80-101 | a table whose walk returns a result is not one whose walk throws |
| SolveTspOsrm.StuckNotFull | public/solveTSP.js:88-97 | over a complete table a walk that has not visited every row always has a candidate |
| Permutations.PermuteSound | public/solveTSP.js:105-115 | every result of `permute` is a rearrangement of its input |
| Permutations.PermuteComplete | public/solveTSP.js:105-115 | every rearrangement of a non-empty input is among the results |
| Permutations.PermuteCount | public/solveTSP.js:105-115 | a non-empty input of length n has n! results |
| Permutations.PermuteDistinct | public/solveTSP.js:105-115 | the results of a duplicate-free input are pairwise different, so each rearrangement appears exactly once |
| SolveTspOsrm.SolveBruteForce | public/solveTSP.js:104-136 | `[]` for an empty table, and otherwise exactly when no permutation's closed tour has a numeric length, which a complete table rules out; any other result is a permutation whose closed-tour length, return leg included, is a number no more than that of any permutation, the first such in enumeration order |
| SolveTspOsrm.Enumerated | public/solveTSP.js:105-116 | a sequence is a permutation of `0..n-1` exactly when the enumeration lists it |
| SolveTspOsrm.FullTourFinite | public/solveTSP.js:120-128 | over a complete table every closed tour has a numeric length |
| SolveTspOsrm.EnumeratedMinimumIsOptimal | public/solveTSP.js:118-133 | a tour no longer than every enumerated tour is a permutation no longer than any permutation |
| SolveTspOsrm.ReversalChange | public/solveTSP.js:150-152 | on a symmetric matrix, reversing `order[i..j]` changes the route length by exactly the delta of line 150 |
| SolveTspOsrm.ReversalStep | public/solveTSP.js:146-153 | a reversal keeps length, elements, the first and the last stop |
| SolveTspOsrm.ScanReversals | public/solveTSP.js:147-155 | the scan for one `i` keeps elements and both ends; an adopted reversal shortens a symmetric route, and none adopted means no reversal with that `i` has a negative delta |
| SolveTspOsrm.SolveDelta2Opt | public/solveTSP.js:138-161 | throws exactly when a pass over four or more stops meets a stop before the last that is not a row of the table; otherwise the result keeps length, elements and both ends; passes stay within `maxPasses`; stopping early means no reversal has a negative delta; on a symmetric table the result is the input or strictly shorter |
| Geometry.ValidPoints | public/clustered_route_solver.js:16-20 | the points kept are exactly those whose coordinate is valid |
| Geometry.ValidPointsOfPoints | public/clustered_route_solver.js:16-20 | filtering coordinates that are all valid gives them back unchanged |
| Geometry.Centroid | public/js/route_solver_valhalla_leaflet.js:27 | the centroid is absent exactly when no coordinate is valid |
| Geometry.CentroidInBox | public/clustered_route_solver.js:37-43 | each centroid component lies between the least and greatest of the valid points' components |
| Geometry.CentroidOfCoincident | public/js/route_solver_valhalla_leaflet.js:27 | the centroid of copies of one point is that point |
| Grid.FloorDiv | public/clustered_route_solver.js:58 | `Math.floor(a / b)`: the quotient is the integer whose cell contains `a` |
| Grid.ClusterByGridPartition | public/clustered_route_solver.js:54-63 | the groups have distinct cells; a point is in a group exactly when it is a valid input point of that group's cell; every valid point is in exactly one group; no group is empty |
| Grid.GroupPoints | public/js/route_solver_valhalla_leaflet.js:28 | each group holds its cell's points in input order |
| Grid.ValidPointClustered | public/js/route_solver_valhalla_leaflet.js:28 | every valid point lands in some group |
| Grid.ClusterMemberValid | public/js/route_solver_valhalla_leaflet.js:28 | every grouped point is a valid input point |
| Grid.Centroids | public/clustered_route_solver.js:154 | for non-empty clusters, one centroid per cluster, each that cluster's centroid |
| Grid.PickPermutation | public/clustered_route_solver.js:188 | taking the points in a permutation order keeps the multiset of points |
| Grid.PickIdentity | public/clustered_route_solver.js:188 | taking the points in identity order gives them back |
| Dedup.DedupUnique | public/js/route_solver_valhalla_leaflet.js:102-110 | no two kept elements share a key |
| Dedup.DedupKeys | public/js/route_solver_valhalla_leaflet.js:102-110 | every key of the input is kept, and every kept element is from the input |
| Dedup.DedupOrder | public/js/route_solver_valhalla_leaflet.js:102-110 | kept elements are first occurrences, in input order |
| Dedup.DedupIdempotent | public/js/route_solver_valhalla_leaflet.js:102-110 | deduplicating twice is deduplicating once |
| Dedup.UniquePoints | public/clustered_route_solver.js:69-71 | the unique points are duplicate-free and hold exactly the input's points |
| DedupeAddressPoints.DedupeAddresses | scripts/dedupe_address_points.py:7-16 | the output is no longer than the input, has at most one record per normalised address, keeps every normalised address present, and keeps only input records |
| DedupeAddressPoints.KeepsFirstInOrder | scripts/dedupe_address_points.py:10-14 | each kept record is the first with its address, and kept records are in input order |
| DedupeAddressPoints.RerunChangesNothing | scripts/dedupe_address_points.py:10-19 | running the script again on its own output changes nothing |
| Polyline.Decode | public/js/route_solver_valhalla_leaflet.js:25 | decoding yields valid points, no more than the characters read |
| Polyline.ZigzagRoundTrip | public/js/route_solver_valhalla_leaflet.js:25 | the zig-zag sign decoding is a bijection between integers and naturals |
| Polyline.ReadEncodedVarint | public/js/route_solver_valhalla_leaflet.js:25 | reading the 5-bit chunks of an encoded value gives the value back and leaves the rest of the string |
| Polyline.DecodeEncode | public/js/route_solver_valhalla_leaflet.js:25 | decoding the encoding of any point list gives that list back |
| Polyline.TruncatedLongitude | public/js/route_solver_valhalla_leaflet.js:25 | a string that stops after a latitude still yields a point, with the previous longitude |
| Legs.ChooseLegPath | public/js/route_solver_valhalla_leaflet.js:175-191 | the leg is `[A,B]` or the route geometry; straight when the route is absent or shorter than 2 points; the geometry when the detour check is off or the direct distance is unknown or at most the minimum; a geometry kept under an active check is within factor times the direct distance |
| RouteSolverValhalla.SolveClusterTspWithValhalla | public/js/route_solver_valhalla_leaflet.js:32 | the result is an order `ValhallaTspOrder` admits: a permutation; the identity when the matrix is missing, of the wrong size or greedy is unavailable; otherwise it starts at 0, is the greedy tour when the 2-opt does not run, and is always the greedy tour or strictly shorter than it |
| RouteSolverValhalla.OrderClusters | public/js/route_solver_valhalla_leaflet.js:57-79 | the identity with fewer than two centroids, no matrix or no greedy; the identity of the matrix's size when it fails the shape check; otherwise the greedy tour over the centroid matrix, or, when the 2-opt may run, that tour or a strictly shorter refinement of it; a permutation of the clusters when the matrix matches |
| RouteSolverValhalla.HierarchicalOrder | public/js/route_solver_valhalla_leaflet.js:80-100 | the result is the concatenation, in cluster order, of one block per entry: a rearrangement of that cluster's points that starts with its first point, the cluster itself when it has at most one point, nothing for a missing cluster, and for a larger cluster its points taken in an order `solveClusterTSPWithValhalla` admits over that cluster's matrix; so it holds exactly the points of the clusters visited, and with a permutation of clusters every clustered point |
| RouteSolverValhalla.ClusterBlock | public/js/route_solver_valhalla_leaflet.js:82-97 | a cluster's block is a rearrangement of its points starting with its first point, and the cluster itself when it has at most one point; a larger cluster's block is its points taken in `intra`, an order `solveClusterTSPWithValhalla` admits over that cluster's matrix (greedy, or strictly shorter than greedy) |
| RouteSolverValhalla.BlocksRearrangeClusters | public/js/route_solver_valhalla_leaflet.js:80-100 | blocks that each rearrange their cluster together rearrange the concatenated clusters |
| RouteSolverValhalla.GlobalTwoOpt | public/js/route_solver_valhalla_leaflet.js:113-133 | the result takes the points in `order`, a permutation keeping the first point; outside the gate, or with no matrix, it is the identity and nothing changes; otherwise `order` is the identity or strictly shorter than it under the matrix, it admits no improving swap when the passes stopped before the limit, and the passes stay within the budget |
| RouteSolverValhalla.BlueLine | public/js/route_solver_valhalla_leaflet.js:45-133 | fewer than two inputs give no line; otherwise the line is the first occurrences of the concatenated cluster blocks, in block order, when the global 2-opt does not run, and a rearrangement of them keeping the first point when it does; each block of more than one point is in an order `solveClusterTSPWithValhalla` admits; the clusters are visited in a permutation order when the engine answers; the line is duplicate-free and made of valid input points, and when the engine answers for every centroid set it holds every valid input point |
| RouteSolverValhalla.StreetWaypoints | public/js/route_solver_valhalla_leaflet.js:151-158 | the waypoints throw exactly when there are clusters and some index of the order names none; no clusters give none; otherwise, for non-empty clusters, one waypoint per visited cluster, its centroid |
| RouteSolverValhalla.WaypointsInClusterBox | public/js/route_solver_valhalla_leaflet.js:151-158 | each waypoint lies within its cluster's bounding box |
| RouteSolverValhalla.RedSegment | public/js/route_solver_valhalla_leaflet.js:175-191 | the path is `[A,B]` or the engine's road; straight when there is no road of two points; with a road, straight exactly under an active detour check with a known direct distance above the minimum and a road more than the factor longer, and the road otherwise |
| RouteSolverValhalla.RedLine | public/js/route_solver_valhalla_leaflet.js:162-191 | one path per consecutive pair of waypoints, path `j` being the one drawn from waypoint `j` to waypoint `j + 1` |
| RouteSolverValhalla.StraightRedLine | public/js/route_solver_valhalla_leaflet.js:162-191 | when the engine has no road for any pair, the paths' ends are exactly the consecutive waypoint pairs, each path starts where the previous one ended, and stitching them gives the waypoints back |
| RouteSolverValhalla.MidArrow | public/js/route_solver_valhalla_leaflet.js:215-229 | an arrow is drawn exactly when the middle edge joins two different points, and it is that edge |
| RouteSolverValhalla.MiddleEdgeUnique | public/js/route_solver_valhalla_leaflet.js:215-218 | a segment has one middle edge |
| RouteSolverValhalla.UTurnWindow | public/js/route_solver_valhalla_leaflet.js:246-251 | the folded turn angle lies in 0..180, and the marker fires exactly when it exceeds 150, which is exactly when the raw difference is strictly between 150 and 210 |
| RouteSolverValhalla.UTurnIndices | public/js/route_solver_valhalla_leaflet.js:235-266 | the markers are at exactly the interior waypoints that turn back, in ascending order |
| ClusteredRouteSolver.NormalizeSegmentDirection | public/clustered_route_solver.js:22-35 | with an invalid end the line, or nothing, is returned; with a missing, invalid or one-point line `[A,B]`; otherwise the line or its reverse, whichever fits the ends no worse, the original on a tie |
| ClusteredRouteSolver.NormalizeIdempotent | public/clustered_route_solver.js:22-35 | normalising a normalised segment changes nothing |
| ClusteredRouteSolver.Remap | public/clustered_route_solver.js:99-102 | each ordered unique point becomes the index of its first occurrence in the cluster |
| ClusteredRouteSolver.RemapDistinct | public/clustered_route_solver.js:99-108 | distinct unique points remap to distinct indices |
| ClusteredRouteSolver.RemapCovers | public/clustered_route_solver.js:99-108 | a tour over all unique points remaps to indices reaching every point of the cluster |
| ClusteredRouteSolver.ClusterTour | public/clustered_route_solver.js:86-97 | none exactly when the greedy walk over the durations throws; otherwise the greedy result, and, when the 2-opt runs, a rearrangement of it with both ends kept that is the same tour or strictly shorter over a symmetric distance table; the tour starts at 0, has no repeated stop, one stop per row, only its last stop may be `-1`, and over a complete table matching the unique points it is a permutation of them |
| ClusteredRouteSolver.Rearranged | public/clustered_route_solver.js:92-94 | an accepted 2-opt order, a rearrangement with the same last stop, keeps the greedy tour's shape: no repeats, in range, only a trailing `-1` |
| ClusteredRouteSolver.SolveClusterTsp | public/clustered_route_solver.js:65-113 | the result is an order `ClusterTspOrder` admits: indices in range and distinct; the identity whenever no tour was computed, the greedy walk throws, or a stop of the tour is not a unique point; otherwise the tour of `ClusterTour` remapped to first occurrences, one per unique point over a complete table matching them; every point of the cluster is reached whenever the table has a row per unique point |
| ClusteredRouteSolver.OrderClusters | public/clustered_route_solver.js:152-176 | one entry per cluster, starting at the first and with no repeated cluster; the identity with fewer than two centroids, a failed request, a row-count mismatch, no greedy, or a greedy walk that throws; otherwise the greedy tour over the centroid durations, refined as in `ClusterTour`; only the last entry may be `-1`, which a complete table rules out, and without it the order is a permutation of the clusters |
| ClusteredRouteSolver.OrderCluster | public/clustered_route_solver.js:184-189 | a cluster's ordered points are the cluster's points at the indices `tspOrder`, an order `solveClusterTSP` admits for that cluster's tables; so they are its own, and all of them when the engine answers in full |
| ClusteredRouteSolver.ChainClusters | public/clustered_route_solver.js:178-202 | throws exactly when some entry of the cluster order is not a cluster; otherwise the stops are the concatenation, in that order, of one block per entry: that cluster's points in an order `solveClusterTSP` admits, holding all of them when the engine answers in full; the legs are the consecutive pairs of the stops |
| ClusteredRouteSolver.PlanStops | public/clustered_route_solver.js:134-202 | fewer than two inputs give no stops; otherwise the clusters are visited in a permutation order starting at the first cluster, the stops are their blocks concatenated in that order, each block its cluster's points in an order `solveClusterTSP` admits, and the plan fails only when the order ends in the `-1` of a stuck greedy walk, which complete tables rule out; legs chain the stops; stops are valid input points, and every valid input point is a stop when the engine answers in full |
| ClusteredRouteSolver.SnapLegs | public/clustered_route_solver.js:202-222 | one segment per leg, segment `k` being leg `k` snapped with the engine's answers for its two stops; each is usable by the final line |
| ClusteredRouteSolver.SnapLeg | public/clustered_route_solver.js:211-222 | the segment is usable, is the straight leg or the road either way round, and fits the leg no worse than its reverse; it is the road (either way round) whenever the road has two points and is no detour by the factor-3, 50 m rule; with no road and a distance-like metric it is the straight leg from the first stop |
| ClusteredRouteSolver.SnappedLegsDrawn | public/clustered_route_solver.js:202-232 | every point of every snapped segment is on the final line |
| ClusteredRouteSolver.FinalLine | public/clustered_route_solver.js:227-232 | a point is on the line exactly when it is in some usable segment |
| ClusteredRouteSolver.FinalLineSingle | public/clustered_route_solver.js:227-232 | a lone segment contributes its valid points when usable, and nothing otherwise |
| ClusteredRouteSolver.FinalLineAppend | public/clustered_route_solver.js:227-232 | the line of two runs of segments is the first run's line followed by the second's |
| ClusteredRouteSolver.FinalLineFlattens | public/clustered_route_solver.js:227-232 | the line is every segment's contribution, concatenated in segment order |
| ClusteredRouteSolver.EdgeArrows | public/clustered_route_solver.js:276-287 | at most one arrow per edge, and an arrow exactly for each edge between two different points |
| ClusteredRouteSolver.Arrows | public/clustered_route_solver.js:273-288 | the arrow count is at most the total number of edges, and the arrows are exactly those of the segments |
| PathGraph.AddNode | public/pathRouter.js:20-22 | a new id gets a node with no edges and joins the insertion order; an existing id, and every other node, is left unchanged |
| PathGraph.AddEdge | public/pathRouter.js:24-27 | both directions are appended, the existing edges and coordinates are kept, and nothing else is added |
| PathGraph.AddEdgeKeeps | public/pathRouter.js:24-27 | adding an edge keeps the graph keyed, symmetric, and non-negative for a non-negative weight |
| PathGraph.GetId | public/pathRouter.js:73-81 | a known position keeps its id and changes nothing; a new one gets the next counter value and a node; the interning stays a bijection onto the nodes |
| PathGraph.AddSegment | public/pathRouter.js:85-90 | both ends are interned and joined by an edge of the given weight, and no other edge is added |
| PathGraph.AddLine | public/pathRouter.js:85-90 | every consecutive pair of a feature is joined, exactly the feature's positions are added, and every new edge is one of the feature's segments in one direction or the other |
| PathGraph.ExtendLine | public/pathRouter.js:86-89 | one loop step joins the next pair and keeps every earlier edge a segment of the feature |
| PathGraph.LoadPathGraph | public/pathRouter.js:65-94 | the graph is keyed, symmetric, joins every consecutive pair of every feature and has no edge but those, interns exactly the positions on the features, and has non-negative weights for a non-negative distance |
| PathRouter.LastMin | public/pathRouter.js:38 | the reduce picks a least distance, the last among equals |
| PathRouter.RemoveAt | public/pathRouter.js:39 | deleting from the queue removes exactly that node |
| PathRouter.Extract | public/pathRouter.js:37-41 | extracting a least node keeps the search invariant, and with non-negative weights its distance is final |
| PathRouter.WalkBound | public/pathRouter.js:37-51 | with non-negative weights no walk to a queued node weighs less than the least queued distance |
| PathRouter.RelaxEdge | public/pathRouter.js:43-49 | only a queued target changes, only on a strict improvement, taking the distance through the settled node and it as predecessor |
| PathRouter.Relax | public/pathRouter.js:43-50 | relaxing all edges of the settled node keeps the invariant and lowers distances only; afterwards every queued neighbour is no farther than through it |
| PathRouter.RunSearch | public/pathRouter.js:30-51 | the loop runs at most once per node, settles the end when it is a node and empties the queue otherwise; the start stays at distance zero with no predecessor; with non-negative weights every settled distance is a lower bound on all walks |
| PathRouter.Reconstruct | public/pathRouter.js:53-61 | the path lists the coordinates along a walk from the start, so it opens with the start's coordinate; it reaches the end (closing with the end's coordinate) when the end has a predecessor or is the start, with the end's distance as weight; otherwise it is the start alone |
| PathRouter.Dijkstra | public/pathRouter.js:29-62 | the path follows a walk from the start that, if it moves, ends at the end; an unreachable end gives the start's coordinate alone; with non-negative weights a reachable end is reached by a walk no heavier than any other |
| PathRouter.SnapToGraph | public/pathRouter.js:96-107 | none exactly for an empty graph; otherwise the first node in insertion order at the least distance: nearest, and every node inserted before it strictly farther |
| PathRouter.FirstNearestUnique | public/pathRouter.js:99-104 | the strict comparison makes the first nearest node unique |
| PathRouter.RoutePathAware | public/pathRouter.js:109-125 | each point snaps to the first nearest node in insertion order; the line is the concatenation, in order, of the Dijkstra paths between consecutive snapped nodes |

## Left out

- Network requests: OSRM and Valhalla matrices, routes, and `fetch` of the footpath layer. Their results are parameters.
- Drawing, layers, markers, popups and console output. The model ends where the planners hand coordinates to Leaflet or MapLibre.
- Floating point:
  - coordinates are integer micro-degrees;
  - the `/1e6` scaling of the decoder, centroid division and rounding are not modelled; the centroid divides with floor division;
  - turf.js distances, the planar `sqrt` distance and trigonometric bearings are given functions or values.
- `getBearing`: bearings are given real numbers in 0..360.
- `buildDistanceMatrix`, `buildDistanceMatrixValhalla`, `buildDistanceMatrixOSRM`: foreign or network code; their matrices are parameters.
- The `setTimeout` dispatch of `solveTSP`, `solveRouteToggle`, `drawClusteredRoutes` and `getFlyerCoords`: UI glue.
- The `routePathAware` stub at public/pathRouter.js:1-7: it is shadowed by the definition at line 109.
- `loadPathGraph`: only `LineString` features are modelled, as coordinate lists. Coordinate keys (`coord.join(',')`) are taken to be injective on positions.
- Polyline.Decode: JavaScript's 32-bit bit operators are modelled with unbounded integers; they agree for values of up to six 5-bit chunks.
- ClusteredRouteSolver.SolveClusterTsp: the mismatch fallback of lines 104-107 cannot trigger, since the remapped order always has the tour's length.
- ClusteredRouteSolver.SnapLegs: the invalid-pair branch of lines 207-209 cannot trigger, because every stop is a valid point.
- ClusteredRouteSolver.EdgeArrows: the 1e-6 degree threshold equals one micro-degree, so an edge gets an arrow exactly when its ends differ.
- RouteSolverValhalla.MidArrow: the turf.js `lineIntersect` test of lines 193-213, which skips a segment, and with it its arrow, when it crosses a building, is not modelled; the arrow is stated for every segment.
- RouteSolverValhalla.RedLine: every pair keeps its path; the building test of lines 193-213 that skips a path is not modelled.
- RouteSolverValhalla.MidArrow: the fallback of line 218 is unreachable, since the middle index always has a successor.
- PathRouter.Dijkstra: `startId` must be a node of the graph. The source throws on reconstruction otherwise, and `routePathAware` only passes snapped nodes.
- PathRouter.RoutePathAware: requires a non-empty graph when there are two or more points, because the source throws on `this.nodes.get(null).coord` then.
- PathRouter.SnapToGraph: distances are real numbers, so the `NaN` case where every comparison fails is not modelled.
- ClusteredRouteSolver.PlanStops: every valid input point is promised to be a stop only when a plan comes back; a cluster order ending in the `-1` of a stuck greedy walk makes line 184 throw, and only complete tables rule that out.
- `planFullRouteFromUnsnapped` with a single point only draws that point (lines 145-149); ClusteredRouteSolver.PlanStops then returns no stops.
- The Valhalla planner calls the solvers of public/js/solveTSP.js. Their `window.*` availability is the `Solvers` flags, and a solver that throws is not modelled.
- RouteSolverValhalla.GlobalTwoOpt: the `TSP_2OPT_PASSES + 2` override is ignored, as the source's operator precedence makes it, so the bound is `TSP_2OPT_PASSES` passes.
- DedupeAddressPoints.DedupeAddresses: `strip().lower()` is a given normaliser. Reading and rewriting the JSON file and the summary line are not modelled.
- Concurrency and `async`/`await`: every stage is modelled as a sequential function or method.

=== FILE: clustered_route_solver.dfy ===
/** The single-line planner of public/clustered_route_solver.js
    (`planFullRouteFromUnsnapped`): points are grouped by grid cell, the
    groups ordered by a TSP over their centroids, each group's distinct
    positions ordered by a TSP over OSRM durations; consecutive stops,
    across group boundaries too, become legs routed by OSRM with a detour
    check and turned to run from their first stop to their second; the legs
    are concatenated into one line with an arrow on every edge of non-zero
    length.

    OSRM is a parameter: `durations(points)` is the `durations` table of a
    table request for those points (`None` when the request fails or the
    answer has no array), `twoOptMatrix(points)` is what
    `buildDistanceMatrixOSRM` of public/solveTSP.js resolves to, and road
    routes, straight-line distances and planar distances are given. */
module ClusteredRouteSolver {
  import opened Wrappers
  import opened Seqs
  import opened Geometry
  import opened Grid
  import opened Dedup
  import opened TspCommon
  import opened Legs
  import SolveTspOsrm

  /** Lines 12-14. */
  const DetourToleranceFactor: real := 3.0
  const MinDirectDistanceForDetourCheck: real := 50.0
  const TwoOptPasses: int := 5

  /** `clusterByGrid`'s default cell, 0.002 degrees (line 54). */
  const DefaultCellSize: int := 2000

  /** The cell the planner asks for, 0.0015 degrees (line 152). */
  const PlannerCellSize: int := 1500

  /** Which solver entry points the page has. */
  datatype Solvers = Solvers(greedy: bool, twoOpt: bool)

  /** OSRM answers a table request for `n` positions with `n` rows. */
  ghost predicate AnswersInFull(durations: seq<Point> -> Option<Matrix>) {
    forall ps :: durations(ps).None? || |durations(ps).value| == |ps|
  }

  // ---------------------------------------------------------------------------
  // Segment direction
  // ---------------------------------------------------------------------------

  predicate AllValid(cs: seq<Coord>) {
    forall i :: 0 <= i < |cs| ==> IsValid(cs[i])
  }

  /** A line `normalizeSegmentDirection` may turn around: an array of at
      least two valid coordinates. */
  predicate Turnable(line: Option<seq<Coord>>) {
    line.Some? && |line.value| >= 2 && AllValid(line.value)
  }

  /** How badly `line` fits the leg from `a` to `b`: the distance from its
      start to `a` plus the distance from its end to `b` (`d1` of line 32). */
  function Misfit(line: seq<Coord>, a: Point, b: Point, dist: (Point, Point) -> real): real
    requires |line| > 0 && IsValid(line[0]) && IsValid(line[|line| - 1])
  {
    dist(ToPoint(line[0]), a) + dist(ToPoint(line[|line| - 1]), b)
  }

  /** `normalizeSegmentDirection(osrmLine, pointA, pointB)` (lines 22-35), the
      planar distance of line 30 being `dist`; `None` is a value that is not
      an array. With an invalid end the line comes back as it is (or empty);
      a line that cannot be turned becomes the straight leg; otherwise the
      line is laid the way round that fits the leg at least as well as the
      other way, the original winning a tie. */
  function NormalizeSegmentDirection(line: Option<seq<Coord>>, a: Coord, b: Coord, dist: (Point, Point) -> real)
    : (r: seq<Coord>)
    ensures !IsValid(a) || !IsValid(b) ==> r == if line.Some? then line.value else []
    ensures IsValid(a) && IsValid(b) && !Turnable(line) ==> r == [a, b]
    ensures IsValid(a) && IsValid(b) && Turnable(line) ==>
              && (r == line.value || r == Reverse(line.value))
              && |r| == |line.value| && AllValid(r) && |Reverse(r)| > 0
              && Misfit(r, ToPoint(a), ToPoint(b), dist) <= Misfit(Reverse(r), ToPoint(a), ToPoint(b), dist)
    ensures IsValid(a) && IsValid(b) && Turnable(line) && |Reverse(line.value)| > 0
            && Misfit(line.value, ToPoint(a), ToPoint(b), dist) <= Misfit(Reverse(line.value), ToPoint(a), ToPoint(b), dist) ==>
              r == line.value
  {
    if !IsValid(a) || !IsValid(b) then
      if line.Some? then line.value else []
    else if !Turnable(line) then
      [a, b]
    else
      var s := line.value;
      var pa, pb := ToPoint(a), ToPoint(b);
      var rev := Reverse(s);
      assert rev[0] == s[|s| - 1] && rev[|rev| - 1] == s[0];
      assert Reverse(rev)[0] == rev[|rev| - 1] && Reverse(rev)[|rev| - 1] == rev[0];
      var d1 := Misfit(s, pa, pb, dist);
      var d2 := dist(ToPoint(s[0]), pb) + dist(ToPoint(s[|s| - 1]), pa);
      if d1 <= d2 then s else rev
  }

  /** `dist` behaves like the planar distance of line 30: no distance from a
      point to itself, none below zero. */
  ghost predicate PlanarLike(dist: (Point, Point) -> real) {
    && (forall p :: dist(p, p) == 0.0)
    && (forall p, q :: dist(p, q) >= 0.0)
  }

  /** Turning a line that is already turned the right way changes nothing. */
  lemma {:induction false} NormalizeIdempotent(line: Option<seq<Coord>>, a: Coord, b: Coord, dist: (Point, Point) -> real)
    requires IsValid(a) && IsValid(b) && PlanarLike(dist)
    ensures var r := NormalizeSegmentDirection(line, a, b, dist);
            NormalizeSegmentDirection(Some(r), a, b, dist) == r
  {
    var r := NormalizeSegmentDirection(line, a, b, dist);
    if Turnable(line) {
      assert Turnable(Some(r));
      var rev := Reverse(r);
      assert rev[0] == r[|r| - 1] && rev[|rev| - 1] == r[0];
    } else {
      assert AllValid([a, b]);
      assert dist(ToPoint(a), ToPoint(a)) == 0.0 && dist(ToPoint(b), ToPoint(b)) == 0.0;
    }
  }

  // ---------------------------------------------------------------------------
  // Ordering within a cluster
  // ---------------------------------------------------------------------------

  /** `validPointsInCluster.findIndex(p => p[0] === q[0] && p[1] === q[1])`
      for a position that occurs. */
  function FirstIndex(points: seq<Point>, q: Point): (t: nat)
    requires q in points
    ensures t < |points| && points[t] == q
    ensures forall s :: 0 <= s < t ==> points[s] != q
  {
    if points[0] == q then 0 else 1 + FirstIndex(points[1..], q)
  }

  /** Lines 99-102: each ordered unique position, as the index of its first
      occurrence in the cluster. */
  function Remap(points: seq<Point>, unique: seq<Point>, tour: seq<nat>): (r: seq<nat>)
    requires forall k :: 0 <= k < |unique| ==> unique[k] in points
    requires forall t :: 0 <= t < |tour| ==> tour[t] < |unique|
    ensures |r| == |tour|
    ensures forall t :: 0 <= t < |r| ==> r[t] < |points| && points[r[t]] == unique[tour[t]]
    ensures forall t :: 0 <= t < |r| ==> IsFirst(points, PointKey(), r[t])
  {
    seq(|tour|, t requires 0 <= t < |tour| => FirstIndex(points, unique[tour[t]]))
  }

  /** Distinct unique positions at distinct places of the tour get distinct
      first indices. */
  lemma {:induction false} RemapDistinct(points: seq<Point>, unique: seq<Point>, tour: seq<nat>)
    requires forall k :: 0 <= k < |unique| ==> unique[k] in points
    requires forall t :: 0 <= t < |tour| ==> tour[t] < |unique|
    requires Distinct(unique) && Distinct(tour)
    ensures Distinct(Remap(points, unique, tour))
  {
    var r := Remap(points, unique, tour);
    forall i, j | 0 <= i < j < |r|
      ensures r[i] != r[j]
    {
      assert unique[tour[i]] != unique[tour[j]];
    }
  }

  /** The conditions under which lines 69-86 reach the greedy solver: enough
      distinct positions, a table request answered with an array, a greedy
      solver on the page. */
  predicate TourComputed(points: seq<Point>, durations: Option<Matrix>, solvers: Solvers) {
    && |points| >= 2
    && |UniquePoints(points)| >= 2
    && durations.Some?
    && solvers.greedy
  }

  /** Every stop of `tour` is one of `u` positions. */
  predicate StopsIn(tour: seq<int>, u: nat) {
    forall t :: 0 <= t < |tour| ==> 0 <= tour[t] < u
  }

  /** A rearrangement keeps the stops' bounds, and keeps a `-1` last. */
  lemma {:induction false} Rearranged(a: seq<int>, b: seq<int>, n: nat)
    requires multiset(b) == multiset(a) && |a| == |b| > 0 && a[|a| - 1] == b[|b| - 1]
    requires Distinct(a)
    requires forall t :: 0 <= t < |a| ==> -1 <= a[t] < n
    requires forall t :: 0 <= t < |a| - 1 ==> a[t] >= 0
    ensures Distinct(b)
    ensures forall t :: 0 <= t < |b| ==> -1 <= b[t] < n
    ensures forall t :: 0 <= t < |b| - 1 ==> b[t] >= 0
    ensures SolveTspOsrm.Positions(a) <==> SolveTspOsrm.Positions(b)
  {
    DistinctRearranged(a, b);
    forall t | 0 <= t < |b|
      ensures -1 <= b[t] < n && (b[t] < 0 ==> a[|a| - 1] == b[t])
    {
      assert b[t] in multiset(a);
      var u :| 0 <= u < |a| && a[u] == b[t];
    }
    forall t | 0 <= t < |a|
      ensures a[t] in b
    {
      assert a[t] in multiset(b);
    }
  }

  /** `tour` is `g` or what the delta 2-opt of public/solveTSP.js may make
      of it over the distance table `tm`: the same stops rearranged with
      both ends kept, and, when `tm` is symmetric and every stop is one of
      its rows, `g` itself or strictly shorter. */
  ghost predicate RefinesTour(tm: Matrix, g: seq<int>, tour: seq<int>) {
    && |tour| == |g| && multiset(tour) == multiset(g)
    && (|g| > 0 ==> tour[0] == g[0] && tour[|g| - 1] == g[|g| - 1])
    && (Symmetric(SolveTspOsrm.Js(tm)) && InRange(g, tm) ==>
          tour == g || OpenLength(tour, SolveTspOsrm.Js(tm)) < OpenLength(g, SolveTspOsrm.Js(tm)))
  }

  /** `tour` is what lines 86-97 settle on when the greedy walk over `m`
      returns: that walk's result, refined by the 2-opt when it runs (a
      2-opt solver and more than `2` positions). */
  ghost predicate TourFrom(m: Matrix, tm: Matrix, u: nat, solvers: Solvers, tour: seq<int>) {
    exists g :: SolveTspOsrm.GreedyResult(m, g) &&
      if solvers.twoOpt && u > 2 then RefinesTour(tm, g, tour) else tour == g
  }

  /** Lines 85-97, and lines 166-171 for the centroids: the greedy tour over
      the duration table, replaced by the delta 2-opt's refinement (over
      `twoOptMatrix`) for more than two (`u`) positions. `None` is a greedy
      walk that throws, which the callers' `catch` turns into the identity
      order; a 2-opt that throws leaves the greedy tour. The tour starts at
      the first row, never repeats a stop, has a stop per row, and only its
      last stop can be the `-1` of a walk stuck at its final step; it is a
      permutation of the `u` positions when the table has a row for each and
      no `-1`, and has no `-1` when every row is complete. */
  method ClusterTour(m: Matrix, twoOptMatrix: Matrix, u: nat, solvers: Solvers) returns (tour: Option<seq<int>>)
    ensures tour.Some? ==> |tour.value| > 0 && tour.value[0] == 0 && Distinct(tour.value)
    ensures tour.Some? && |m| > 0 ==>
              |tour.value| == |m| && forall t :: 0 <= t < |tour.value| ==> -1 <= tour.value[t] < |m|
    ensures tour.Some? ==> forall t :: 0 <= t < |tour.value| - 1 ==> tour.value[t] >= 0
    ensures tour.Some? && |m| == u && u > 0 && SolveTspOsrm.Positions(tour.value) ==>
              forall t :: 0 <= t < |tour.value| ==> 0 <= tour.value[t] < u
    ensures |m| == u && u > 0 && SolveTspOsrm.Full(m) ==> tour.Some? && SolveTspOsrm.Positions(tour.value)
    ensures tour.None? <==> SolveTspOsrm.GreedyThrows(m)
    ensures tour.Some? ==> TourFrom(m, twoOptMatrix, u, solvers, tour.value)
  {
    hide SolveTspOsrm.GreedyResult, SolveTspOsrm.GreedyThrows, SolveTspOsrm.Full, SolveTspOsrm.Js,
         SolveTspOsrm.EndsStuck, SolveTspOsrm.GreedyPrefix, Symmetric, OpenLength, InRange;
    var greedy := SolveTspOsrm.GreedyTour(m);
    if greedy.None? {
      return None;
    }
    tour := greedy;
    if solvers.twoOpt && u > 2 {
      var refined, passes := SolveTspOsrm.SolveDelta2Opt(twoOptMatrix, greedy.value, TwoOptPasses);
      assert RefinesTour(twoOptMatrix, greedy.value, greedy.value);
      if refined.Some? {
        assert RefinesTour(twoOptMatrix, greedy.value, refined.value);
        if |m| > 0 {
          Rearranged(greedy.value, refined.value, |m|);
        } else {
          DistinctRearranged(greedy.value, refined.value);
        }
        tour := refined;
      }
    }
  }

  /** A tour covering every distinct position reaches every position of the
      cluster through the remapping. */
  lemma {:induction false} RemapCovers(points: seq<Point>, tour: seq<nat>)
    requires IsPermutation(tour, |UniquePoints(points)|)
    ensures forall p :: p in points ==>
              exists t :: 0 <= t < |tour| && points[Remap(points, UniquePoints(points), tour)[t]] == p
  {
    var unique := UniquePoints(points);
    var order := Remap(points, unique, tour);
    PermutationCovers(tour, |unique|);
    forall p | p in points
      ensures exists t :: 0 <= t < |tour| && points[order[t]] == p
    {
      assert p in unique;
      var k :| 0 <= k < |unique| && unique[k] == p;
      assert k in tour;
      var t :| 0 <= t < |tour| && tour[t] == k;
      assert points[order[t]] == p;
    }
  }

  /** `order` is what `solveClusterTSP` (lines 65-113) can return for a
      cluster's valid points: indices into `points`. Fewer than two points
      or distinct positions, a failed table request, a missing greedy
      solver, a greedy walk that throws, or a tour stop with no unique
      position (the `-1` of a stuck walk, or a row beyond the positions: the
      remapping of lines 99-102 reads a field of `undefined` and throws)
      give the identity order. Otherwise it is the greedy tour over the
      distinct positions, refined by the delta 2-opt for more than two of
      them, each position given as the index of its first occurrence. The
      indices are always distinct. When OSRM answered with a complete row
      for every distinct position, every distinct position is ordered once;
      when it answered with a row for each, every position of the cluster is
      reached. */
  ghost predicate ClusterTspOrder(points: seq<Point>, durations: Option<Matrix>, twoOptMatrix: Matrix,
                                  solvers: Solvers, order: seq<nat>) {
    && (forall t :: 0 <= t < |order| ==> order[t] < |points|)
    && Distinct(order)
    && (!TourComputed(points, durations, solvers) ==> order == Range(|points|))
    && (order == Range(|points|) || forall t :: 0 <= t < |order| ==> IsFirst(points, PointKey(), order[t]))
    && (TourComputed(points, durations, solvers) && |durations.value| == |UniquePoints(points)|
        && SolveTspOsrm.Full(durations.value) ==>
          |order| == |UniquePoints(points)| && forall t :: 0 <= t < |order| ==> IsFirst(points, PointKey(), order[t]))
    && (durations.None? || |durations.value| == |UniquePoints(points)| ==>
          forall p :: p in points ==> exists t :: 0 <= t < |order| && points[order[t]] == p)
    && (TourComputed(points, durations, solvers) && SolveTspOsrm.GreedyThrows(durations.value) ==>
          order == Range(|points|))
    && (TourComputed(points, durations, solvers) && !SolveTspOsrm.GreedyThrows(durations.value) ==>
          var unique := UniquePoints(points);
          exists tour :: TourFrom(durations.value, twoOptMatrix, |unique|, solvers, tour) &&
            if StopsIn(tour, |unique|) then order == Remap(points, unique, tour) else order == Range(|points|))
  }

  /** `solveClusterTSP` (lines 65-113) on a cluster's valid points. The
      mismatch fallback of lines 104-107 cannot fire: every unique position
      occurs in the cluster. */
  method SolveClusterTsp(points: seq<Point>, durations: Option<Matrix>, twoOptMatrix: Matrix, solvers: Solvers)
    returns (order: seq<nat>)
    ensures ClusterTspOrder(points, durations, twoOptMatrix, solvers, order)
  {
    order := Range(|points|);
    RangeCovers(points);
    if !TourComputed(points, durations, solvers) {
      return;
    }
    var unique := UniquePoints(points);
    var tour := ClusterTour(durations.value, twoOptMatrix, |unique|, solvers);
    if tour.None? {
      return;
    }
    if !StopsIn(tour.value, |unique|) {
      assert TourFrom(durations.value, twoOptMatrix, |unique|, solvers, tour.value);
      return;
    }
    var stops: seq<nat> := tour.value;
    RemapDistinct(points, unique, stops);
    if |durations.value| == |unique| {
      assert IsPermutation(stops, |unique|);
      RemapCovers(points, stops);
    }
    order := Remap(points, unique, stops);
    assert TourFrom(durations.value, twoOptMatrix, |unique|, solvers, tour.value);
  }

  lemma {:induction false} RangeCovers(points: seq<Point>)
    ensures forall p :: p in points ==> exists t :: 0 <= t < |Range(|points|)| && points[Range(|points|)[t]] == p
    ensures Distinct(Range(|points|))
  {
    forall p | p in points
      ensures exists t :: 0 <= t < |Range(|points|)| && points[Range(|points|)[t]] == p
    {
      var t :| 0 <= t < |points| && points[t] == p;
      assert points[Range(|points|)[t]] == p;
    }
  }

  // ---------------------------------------------------------------------------
  // Ordering the clusters
  // ---------------------------------------------------------------------------

  /** Lines 152-176: the order of the clusters, all non-empty after the filter
      of line 153. With fewer than two centroids, a failed request, a table
      whose row count differs from the centroid count, or no greedy solver,
      the clusters keep their order, as they do when the greedy walk throws
      (caught at line 175). Otherwise the greedy tour over the centroids'
      durations, refined by the delta 2-opt for more than two; a 2-opt that
      throws leaves the greedy tour, which line 166 already adopted. The
      order starts at the first cluster and never repeats one; only its last
      stop can be the `-1` of a greedy walk stuck at its final step, which
      complete rows rule out, and without it the order is a permutation of
      the clusters. */
  method OrderClusters(clusters: seq<seq<Point>>, durations: seq<Point> -> Option<Matrix>,
                       twoOptMatrix: seq<Point> -> Matrix, solvers: Solvers)
    returns (order: seq<int>)
    requires forall k :: 0 <= k < |clusters| ==> |clusters[k]| > 0
    ensures |order| == |clusters| && Distinct(order)
    ensures forall t :: 0 <= t < |order| ==> -1 <= order[t] < |clusters|
    ensures forall t :: 0 <= t < |order| - 1 ==> order[t] >= 0
    ensures SolveTspOsrm.Positions(order) ==> IsPermutation(order, |clusters|)
    ensures var cs := Centroids(clusters);
            |cs| < 2 || durations(cs).None? || |durations(cs).value| != |cs| || !solvers.greedy ==>
              order == Range(|clusters|)
    ensures var cs := Centroids(clusters);
            durations(cs).Some? && SolveTspOsrm.Full(durations(cs).value) ==> SolveTspOsrm.Positions(order)
    ensures |clusters| > 0 ==> order[0] == 0
    ensures var cs := Centroids(clusters);
            |cs| >= 2 && durations(cs).Some? && |durations(cs).value| == |cs| && solvers.greedy ==>
              if SolveTspOsrm.GreedyThrows(durations(cs).value) then order == Range(|clusters|)
              else TourFrom(durations(cs).value, twoOptMatrix(cs), |cs|, solvers, order)
  {
    var centroids := Centroids(clusters);
    var n := |clusters|;
    order := Range(n);
    if |centroids| < 2 || durations(centroids).None? || |durations(centroids).value| != |centroids|
       || !solvers.greedy {
      return;
    }
    var tour := ClusterTour(durations(centroids).value, twoOptMatrix(centroids), |centroids|, solvers);
    if tour.Some? {
      order := tour.value;
    }
  }

  // ---------------------------------------------------------------------------
  // Chaining the legs
  // ---------------------------------------------------------------------------

  /** `part` is the cluster `c`'s points taken at indices `solveClusterTSP`
      can return for it, over the tables for its distinct positions. */
  ghost predicate OrderedCluster(c: seq<Point>, durations: seq<Point> -> Option<Matrix>,
                                 twoOptMatrix: seq<Point> -> Matrix, solvers: Solvers, part: seq<Point>) {
    var unique := UniquePoints(c);
    exists tspOrder: seq<nat> ::
      && ClusterTspOrder(c, durations(unique), twoOptMatrix(unique), solvers, tspOrder)
      && |part| == |tspOrder|
      && forall t :: 0 <= t < |part| ==> part[t] == c[tspOrder[t]]
  }

  /** The positions a cluster contributes, in order: the points at the indices
      `tspOrder` that `solveClusterTSP` returned (line 188). */
  method OrderCluster(c: seq<Point>, durations: seq<Point> -> Option<Matrix>,
                      twoOptMatrix: seq<Point> -> Matrix, solvers: Solvers)
    returns (ordered: seq<Point>, ghost tspOrder: seq<nat>)
    ensures ClusterTspOrder(c, durations(UniquePoints(c)), twoOptMatrix(UniquePoints(c)), solvers, tspOrder)
    ensures |ordered| == |tspOrder| && forall t :: 0 <= t < |ordered| ==> ordered[t] == c[tspOrder[t]]
    ensures OrderedCluster(c, durations, twoOptMatrix, solvers, ordered)
    ensures forall p :: p in ordered ==> p in c
    ensures AnswersInFull(durations) ==> forall p :: p in c ==> p in ordered
  {
    var unique := UniquePoints(c);
    var order := SolveClusterTsp(c, durations(unique), twoOptMatrix(unique), solvers);
    tspOrder := order;
    ordered := seq(|order|, t requires 0 <= t < |order| => c[order[t]]);
    if AnswersInFull(durations) {
      assert durations(unique).None? || |durations(unique).value| == |unique|;
      forall p | p in c
        ensures p in ordered
      {
        var t :| 0 <= t < |tspOrder| && c[tspOrder[t]] == p;
        assert ordered[t] == p;
      }
    }
  }

  /** What `ChainClusters` keeps of each part: it comes from the cluster `c`,
      in an order `solveClusterTSP` can give, and holds all of `c` when OSRM
      answers in full. */
  ghost predicate ChainedPart(c: seq<Point>, durations: seq<Point> -> Option<Matrix>,
                              twoOptMatrix: seq<Point> -> Matrix, solvers: Solvers, part: seq<Point>) {
    && (forall p :: p in part ==> p in c)
    && (AnswersInFull(durations) ==> forall p :: p in c ==> p in part)
    && OrderedCluster(c, durations, twoOptMatrix, solvers, part)
  }

  lemma {:induction false} PartChained(c: seq<Point>, durations: seq<Point> -> Option<Matrix>,
                                       twoOptMatrix: seq<Point> -> Matrix, solvers: Solvers, part: seq<Point>)
    requires forall p :: p in part ==> p in c
    requires AnswersInFull(durations) ==> forall p :: p in c ==> p in part
    requires OrderedCluster(c, durations, twoOptMatrix, solvers, part)
    ensures ChainedPart(c, durations, twoOptMatrix, solvers, part)
  {
  }

  /** Lines 188-199 for one cluster: its ordered positions join the stops,
      with a leg from the last stop so far to the first of them and legs
      between them; a cluster with no positions adds nothing. */
  method AppendStops(stops: seq<Point>, legs: seq<(Point, Point)>, last: Option<Point>, ordered: seq<Point>)
    returns (stops': seq<Point>, legs': seq<(Point, Point)>, last': Option<Point>)
    requires legs == ConsecutivePairs(stops)
    requires last == if stops == [] then None else Some(stops[|stops| - 1])
    ensures stops' == stops + ordered && legs' == ConsecutivePairs(stops')
    ensures last' == if stops' == [] then None else Some(stops'[|stops'| - 1])
  {
    if |ordered| == 0 {
      assert stops + ordered == stops;
      return stops, legs, last;
    }
    var joined := stops + ordered;
    legs' := legs;
    if last.Some? {
      PairsAppend(stops, ordered);
      legs' := legs' + [(last.value, ordered[0])];
    } else {
      assert joined == ordered;
    }
    legs' := legs' + ConsecutivePairs(ordered);
    stops' := joined;
    last' := Some(ordered[|ordered| - 1]);
  }

  /** No parts make no stops, and no stops no legs. */
  lemma {:induction false} NothingChained()
    ensures Flatten<Point>([]) == [] && ConsecutivePairs<Point>([]) == []
  {
  }

  /** The stops of the planned route and the legs between them. */
  datatype Chain = Chain(stops: seq<Point>, legs: seq<(Point, Point)>)

  /** Lines 178-202: each cluster's ordered positions, the clusters taken in
      `clusterOrder`, make the stops, and consecutive stops the legs,
      including the leg from the last stop of one cluster to the first of
      the next. `parts[t]` is what the cluster at `clusterOrder[t]`
      contributes: the stops are those parts concatenated in that order, so
      the legs form one chain with one fewer leg than stops; each part is
      its cluster's points in an order `solveClusterTSP` can give them. A
      stop of `clusterOrder` that is not a cluster (the `-1` of a stuck
      greedy walk) makes `.filter` of line 184 read `undefined` and throw,
      outside any `try`: that is `None`, and nothing is drawn. */
  method ChainClusters(clusters: seq<seq<Point>>, clusterOrder: seq<int>, durations: seq<Point> -> Option<Matrix>,
                       twoOptMatrix: seq<Point> -> Matrix, solvers: Solvers)
    returns (r: Option<Chain>, ghost parts: seq<seq<Point>>)
    ensures r.None? <==> exists t :: 0 <= t < |clusterOrder| && !(0 <= clusterOrder[t] < |clusters|)
    ensures r.Some? ==> r.value.legs == ConsecutivePairs(r.value.stops)
    ensures r.Some? ==> |parts| == |clusterOrder| && r.value.stops == Flatten(parts)
    ensures r.Some? ==> forall t, p :: 0 <= t < |parts| && p in parts[t] ==> p in clusters[clusterOrder[t]]
    ensures r.Some? && AnswersInFull(durations) ==>
              forall t, p :: 0 <= t < |clusterOrder| && p in clusters[clusterOrder[t]] ==> p in parts[t]
    ensures r.Some? ==>
              forall t :: 0 <= t < |parts| ==> OrderedCluster(clusters[clusterOrder[t]], durations, twoOptMatrix, solvers, parts[t])
  {
    hide OrderedCluster, ClusterTspOrder, UniquePoints, Flatten, ConsecutivePairs, AnswersInFull;
    var stops: seq<Point>, legs: seq<(Point, Point)> := [], [];
    parts := [];
    var last: Option<Point> := None;
    NothingChained();
    {
      hide ChainedPart;
      for i := 0 to |clusterOrder|
        invariant forall t :: 0 <= t < i ==> 0 <= clusterOrder[t] < |clusters|
        invariant |parts| == i && stops == Flatten(parts)
        invariant legs == ConsecutivePairs(stops)
        invariant last == if stops == [] then None else Some(stops[|stops| - 1])
        invariant forall t :: 0 <= t < i ==> ChainedPart(clusters[clusterOrder[t]], durations, twoOptMatrix, solvers, parts[t])
      {
        if !(0 <= clusterOrder[i] < |clusters|) {
          return None, parts;
        }
        var c := clusters[clusterOrder[i]];
        var ordered, _ := OrderCluster(c, durations, twoOptMatrix, solvers);
        PartChained(c, durations, twoOptMatrix, solvers, ordered);
        FlattenSnoc(parts, ordered);
        ghost var before := parts;
        parts := parts + [ordered];
        assert forall t :: 0 <= t < i ==> parts[t] == before[t];
        stops, legs, last := AppendStops(stops, legs, last, ordered);
      }
    }
    r := Some(Chain(stops, legs));
  }

  /** Every table OSRM answers has a complete row for every position. */
  ghost predicate TablesFull(durations: seq<Point> -> Option<Matrix>) {
    forall ps :: durations(ps).None? || SolveTspOsrm.Full(durations(ps).value)
  }

  /** `planFullRouteFromUnsnapped` up to line 202 for the points it is given
      (already valid, by `solveRouteToggle`): with fewer than two nothing is
      routed. Otherwise the stops are the grid clusters' ordered positions,
      cluster after cluster in `clusterOrder`, a permutation of the clusters
      that starts at the first, each cluster's in an order `solveClusterTSP`
      can give them, unless the cluster order ends in the `-1` of
      a stuck greedy walk, on which line 184 throws (`None`); complete table
      rows rule that out. Every stop is a given position; when OSRM answers
      every table request with a row per position, every given position is
      a stop. */
  method PlanStops(coords: seq<Coord>, durations: seq<Point> -> Option<Matrix>,
                   twoOptMatrix: seq<Point> -> Matrix, solvers: Solvers)
    returns (r: Option<Chain>, ghost clusterOrder: seq<int>, ghost parts: seq<seq<Point>>)
    ensures |coords| < 2 ==> r == Some(Chain([], []))
    ensures r.Some? ==> r.value.legs == ConsecutivePairs(r.value.stops)
    ensures r.Some? ==> forall p :: p in r.value.stops ==> p in ValidPoints(coords)
    ensures |coords| >= 2 && r.Some? ==>
              var clusters := ClusterByGrid(coords, PlannerCellSize);
              && SolveTspOsrm.Positions(clusterOrder) && IsPermutation(clusterOrder, |clusters|)
              && (|clusters| > 0 ==> clusterOrder[0] == 0)
              && |parts| == |clusterOrder| && r.value.stops == Flatten(parts)
              && (forall t, p :: 0 <= t < |parts| && p in parts[t] ==> p in clusters[clusterOrder[t]])
              && forall t :: 0 <= t < |parts| ==>
                   OrderedCluster(clusters[clusterOrder[t]], durations, twoOptMatrix, solvers, parts[t])
    ensures |coords| >= 2 && r.None? ==> |clusterOrder| > 0 && clusterOrder[|clusterOrder| - 1] == -1
    ensures |coords| >= 2 && TablesFull(durations) ==> r.Some?
    ensures |coords| >= 2 && r.Some? && AnswersInFull(durations) ==> forall p :: p in ValidPoints(coords) ==> p in r.value.stops
  {
    hide ClusterByGrid, Centroids, ValidPoints, Flatten, ConsecutivePairs, SolveTspOsrm.Full, OrderedCluster;
    clusterOrder, parts := [], [];
    if |coords| < 2 {
      return Some(Chain([], [])), clusterOrder, parts;
    }
    var clusters := ClusterByGrid(coords, PlannerCellSize);
    ClustersNonEmpty(coords, PlannerCellSize);
    var order := OrderClusters(clusters, durations, twoOptMatrix, solvers);
    clusterOrder := order;
    r, parts := ChainClusters(clusters, order, durations, twoOptMatrix, solvers);
    if r.None? {
      return;
    }
    assert SolveTspOsrm.Positions(order);
    var visits: seq<nat> := order;
    StopsWithinInput(coords, visits, parts);
    if AnswersInFull(durations) {
      StopsCoverInput(coords, visits, parts);
    }
  }

  /** A stop taken from a cluster is a valid input position. */
  lemma {:induction false} StopsWithinInput(coords: seq<Coord>, clusterOrder: seq<nat>, parts: seq<seq<Point>>)
    requires |parts| == |clusterOrder|
    requires forall t :: 0 <= t < |clusterOrder| ==> clusterOrder[t] < |ClusterByGrid(coords, PlannerCellSize)|
    requires forall t, p :: 0 <= t < |parts| && p in parts[t] ==> p in ClusterByGrid(coords, PlannerCellSize)[clusterOrder[t]]
    ensures forall p :: p in Flatten(parts) ==> p in ValidPoints(coords)
  {
    forall p | p in Flatten(parts)
      ensures p in ValidPoints(coords)
    {
      var t := FlattenIndex(parts, p);
      ClusterMemberValid(coords, PlannerCellSize, clusterOrder[t], p);
    }
  }

  /** Visiting every cluster, and every member of each, visits every valid
      input position. */
  lemma {:induction false} StopsCoverInput(coords: seq<Coord>, clusterOrder: seq<nat>, parts: seq<seq<Point>>)
    requires IsPermutation(clusterOrder, |ClusterByGrid(coords, PlannerCellSize)|) && |parts| == |clusterOrder|
    requires forall t, p :: 0 <= t < |clusterOrder| && p in ClusterByGrid(coords, PlannerCellSize)[clusterOrder[t]] ==>
               p in parts[t]
    ensures forall p :: p in ValidPoints(coords) ==> p in Flatten(parts)
  {
    var clusters := ClusterByGrid(coords, PlannerCellSize);
    PermutationCovers(clusterOrder, |clusters|);
    forall p | p in ValidPoints(coords)
      ensures p in Flatten(parts)
    {
      var k := ValidPointClustered(coords, PlannerCellSize, p);
      assert k in clusterOrder;
      var t :| 0 <= t < |clusterOrder| && clusterOrder[t] == k;
      FlattenMember(parts, t, p);
    }
  }

  // ---------------------------------------------------------------------------
  // The drawn line and its arrows
  // ---------------------------------------------------------------------------

  /** Lines 211-222 for one leg between valid stops: the road geometry with
      the detour check (always on here, factor 3, minimum 50 m), laid the
      right way round. The result is the straight leg or the road, either
      way round, and fits the leg at least as well as its reverse; the road
      whenever it has two positions and is no unreasonable detour, and the
      straight leg from the first stop when there is no road and `dist`
      behaves like a distance. */
  function SnapLeg(leg: (Point, Point), route: Option<RouteResult>, direct: Option<real>,
                   dist: (Point, Point) -> real): (r: seq<Coord>)
    ensures Usable(r)
    ensures var straight := [AsCoord(leg.0), AsCoord(leg.1)];
            || r == straight || r == Reverse(straight)
            || (route.Some? && (r == AsCoords(route.value.geometry) || r == Reverse(AsCoords(route.value.geometry))))
    ensures Misfit(r, leg.0, leg.1, dist) <= Misfit(Reverse(r), leg.0, leg.1, dist)
    ensures route.Some? && |route.value.geometry| >= 2
            && (direct.None? || direct.value <= MinDirectDistanceForDetourCheck
                || route.value.distance <= direct.value * DetourToleranceFactor) ==>
              r == AsCoords(route.value.geometry) || r == Reverse(AsCoords(route.value.geometry))
    ensures PlanarLike(dist) && (route.None? || |route.value.geometry| < 2) ==> r == [AsCoord(leg.0), AsCoord(leg.1)]
  {
    var path := ChooseLegPath(leg.0, leg.1, route, direct, true, DetourToleranceFactor, MinDirectDistanceForDetourCheck);
    var a, b := AsCoord(leg.0), AsCoord(leg.1);
    assert IsValid(a) && IsValid(b) && ToPoint(a) == leg.0 && ToPoint(b) == leg.1;
    assert Turnable(Some(AsCoords(path)));
    assert path == [leg.0, leg.1] ==> AsCoords(path) == [a, b];
    NormalizeSegmentDirection(Some(AsCoords(path)), a, b, dist)
  }

  /** Lines 202-222: every leg snapped, in order; the stops are valid, so the
      branch of lines 207-209 is never taken. Segment `k` is leg `k` snapped
      with the engine's answer for its two stops, and every snapped segment
      can be drawn. */
  function SnapLegs(legs: seq<(Point, Point)>, route: (Point, Point) -> Option<RouteResult>,
                    direct: (Point, Point) -> Option<real>, dist: (Point, Point) -> real): (r: seq<seq<Coord>>)
    ensures |r| == |legs|
    ensures forall k :: 0 <= k < |r| ==> Usable(r[k])
    ensures forall k :: 0 <= k < |r| ==>
              r[k] == SnapLeg(legs[k], route(legs[k].0, legs[k].1), direct(legs[k].0, legs[k].1), dist)
  {
    if legs == [] then []
    else
      var leg := legs[0];
      [SnapLeg(leg, route(leg.0, leg.1), direct(leg.0, leg.1), dist)] + SnapLegs(legs[1..], route, direct, dist)
  }

  /** Every position of every snapped leg is on the drawn line. */
  lemma {:induction false} SnappedLegsDrawn(legs: seq<(Point, Point)>, route: (Point, Point) -> Option<RouteResult>,
                         direct: (Point, Point) -> Option<real>, dist: (Point, Point) -> real)
    ensures var segments := SnapLegs(legs, route, direct, dist);
            forall k, i :: 0 <= k < |segments| && 0 <= i < |segments[k]| ==> ToPoint(segments[k][i]) in FinalLine(segments)
  {
    var segments := SnapLegs(legs, route, direct, dist);
    forall k, i | 0 <= k < |segments| && 0 <= i < |segments[k]|
      ensures ToPoint(segments[k][i]) in FinalLine(segments)
    {
      assert AsCoord(ToPoint(segments[k][i])) in segments[k];
    }
  }

  /** A segment the final line takes (line 229). */
  predicate Usable(s: seq<Coord>) {
    |s| >= 2 && AllValid(s)
  }

  /** Lines 227-232: the usable segments, concatenated in order. */
  function FinalLine(segments: seq<seq<Coord>>): (r: seq<Point>)
    ensures forall p :: p in r <==> exists k :: 0 <= k < |segments| && Usable(segments[k]) && AsCoord(p) in segments[k]
  {
    if segments == [] then []
    else
      var rest := FinalLine(segments[1..]);
      assert forall k :: 1 <= k < |segments| ==> segments[k] == segments[1..][k - 1];
      if Usable(segments[0]) then
        var s := segments[0];
        ValidPointsSpec(s);
        ValidPoints(s) + rest
      else rest
  }

  /** A lone segment gives its valid positions when it is usable, and
      nothing otherwise. */
  lemma {:induction false} FinalLineSingle(s: seq<Coord>)
    ensures FinalLine([s]) == if Usable(s) then ValidPoints(s) else []
  {
    assert [s][1..] == [];
  }

  /** The final line of two runs of segments is the first run's line
      followed by the second's. */
  lemma {:induction false} FinalLineAppend(a: seq<seq<Coord>>, b: seq<seq<Coord>>)
    ensures FinalLine(a + b) == FinalLine(a) + FinalLine(b)
    decreases |a|
  {
    if a == [] {
      assert a + b == b;
    } else {
      assert (a + b)[1..] == a[1..] + b;
      FinalLineAppend(a[1..], b);
    }
  }

  /** What each segment gives the final line: its valid positions when it is
      usable, nothing otherwise. */
  function Contributions(segments: seq<seq<Coord>>): seq<seq<Point>> {
    seq(|segments|, k requires 0 <= k < |segments| => if Usable(segments[k]) then ValidPoints(segments[k]) else [])
  }

  /** The final line is every segment's contribution, concatenated in order. */
  lemma {:induction false} FinalLineFlattens(segments: seq<seq<Coord>>)
    ensures FinalLine(segments) == Flatten(Contributions(segments))
    decreases |segments|
  {
    if segments != [] {
      FinalLineFlattens(segments[1..]);
      assert Contributions(segments)[1..] == Contributions(segments[1..]);
    }
  }

  lemma {:induction false} ValidPointsSpec(s: seq<Coord>)
    requires AllValid(s)
    ensures forall p :: p in ValidPoints(s) <==> AsCoord(p) in s
  {
  }

  /** The arrows of one segment (lines 276-287): one per edge between two
      valid, different positions. A micro-degree grid makes a planar length
      below 1e-6 degrees the same as a zero length. */
  function EdgeArrows(s: seq<Coord>): (r: seq<Arrow>)
    ensures |r| <= if |s| == 0 then 0 else |s| - 1
    ensures forall a :: a in r <==>
              exists i :: 0 <= i < |s| - 1 && s[i] == AsCoord(a.from) && s[i + 1] == AsCoord(a.to) && a.from != a.to
    decreases |s|
  {
    if |s| < 2 then []
    else
      var rest := EdgeArrows(s[1..]);
      assert forall i :: 1 <= i < |s| ==> s[i] == s[1..][i - 1];
      (if IsValid(s[0]) && IsValid(s[1]) && ToPoint(s[0]) != ToPoint(s[1])
       then [Arrow(ToPoint(s[0]), ToPoint(s[1]))] else []) + rest
  }

  /** The number of edges of the segments with at least two positions. */
  function EdgeTotal(segments: seq<seq<Coord>>): nat {
    if segments == [] then 0
    else (if |segments[0]| >= 2 then |segments[0]| - 1 else 0) + EdgeTotal(segments[1..])
  }

  /** Lines 273-288: the arrows of all segments, at most one per edge. */
  function Arrows(segments: seq<seq<Coord>>): (r: seq<Arrow>)
    ensures |r| <= EdgeTotal(segments)
    ensures forall a :: a in r <==> exists k :: 0 <= k < |segments| && a in EdgeArrows(segments[k])
  {
    if segments == [] then []
    else
      var rest := Arrows(segments[1..]);
      assert forall k :: 1 <= k < |segments| ==> segments[k] == segments[1..][k - 1];
      (if |segments[0]| < 2 then [] else EdgeArrows(segments[0])) + rest
  }
}

=== FILE: dedup.dfy ===
/** First-occurrence deduplication by a key, the loop shared by the planners
    (a `Set` of seen keys and an output array) and by the address script:
    each element is kept when no kept element has its key yet. */
module Dedup {
  import opened Seqs
  import opened Geometry

  /** The keys of `xs`, in order. */
  function KeysOf<T, K>(xs: seq<T>, key: T -> K): (r: seq<K>)
    ensures |r| == |xs| && forall i {:trigger KeysOf(xs, key)[i]} :: 0 <= i < |xs| ==> r[i] == key(xs[i])
  {
    seq(|xs|, i requires 0 <= i < |xs| => key(xs[i]))
  }

  /** The loop: walk `xs` in order and keep an element whose key is not among
      the keys already kept. */
  function DedupBy<T, K(==)>(xs: seq<T>, key: T -> K): (r: seq<T>)
    ensures |r| <= |xs|
    decreases |xs|
  {
    if xs == [] then []
    else
      var kept := DedupBy(xs[..|xs| - 1], key);
      var x := xs[|xs| - 1];
      if key(x) in KeysOf(kept, key) then kept else kept + [x]
  }

  /** `xs[t]` is the first element of `xs` with its key. */
  ghost predicate IsFirst<T, K>(xs: seq<T>, key: T -> K, t: nat)
    requires t < |xs|
  {
    forall s :: 0 <= s < t ==> key(xs[s]) != key(xs[t])
  }

  /** The reference definition: the elements of `xs[..n]` that are the first of
      their key in `xs`, in their input order. */
  ghost function Firsts<T, K>(xs: seq<T>, key: T -> K, n: nat): seq<T>
    requires n <= |xs|
  {
    if n == 0 then []
    else if IsFirst(xs, key, n - 1) then Firsts(xs, key, n - 1) + [xs[n - 1]]
    else Firsts(xs, key, n - 1)
  }

  /** No two elements share a key. */
  ghost predicate UniqueKeys<T, K>(xs: seq<T>, key: T -> K) {
    forall i, j :: 0 <= i < j < |xs| ==> key(xs[i]) != key(xs[j])
  }

  /** Each element kept by `Firsts` is an input element that is the first of
      its key; `t` is where it sits in the input. */
  lemma {:induction false} FirstsFromAt<T, K>(xs: seq<T>, key: T -> K, n: nat, i: nat) returns (t: nat)
    requires n <= |xs| && i < |Firsts(xs, key, n)|
    ensures t < n && Firsts(xs, key, n)[i] == xs[t] && IsFirst(xs, key, t)
  {
    var prev := Firsts(xs, key, n - 1);
    var cur := Firsts(xs, key, n);
    if i < |prev| {
      t := FirstsFromAt(xs, key, n - 1, i);
      assert cur[i] == prev[i];
    } else {
      t := n - 1;
    }
  }

  /** Each key met in `xs[..n]` is the key of an element `Firsts` kept; `i`
      is where that element sits. */
  lemma {:induction false} FirstsCoverAt<T, K>(xs: seq<T>, key: T -> K, n: nat, t: nat) returns (i: nat)
    requires t < n <= |xs|
    ensures i < |Firsts(xs, key, n)| && key(Firsts(xs, key, n)[i]) == key(xs[t])
  {
    var prev := Firsts(xs, key, n - 1);
    var cur := Firsts(xs, key, n);
    if t < n - 1 {
      i := FirstsCoverAt(xs, key, n - 1, t);
      assert cur[i] == prev[i];
    } else if IsFirst(xs, key, n - 1) {
      i := |cur| - 1;
    } else {
      var s :| 0 <= s < n - 1 && key(xs[s]) == key(xs[n - 1]);
      i := FirstsCoverAt(xs, key, n - 1, s);
      assert cur[i] == prev[i];
    }
  }

  /** The loop computes the reference definition: an element is kept exactly
      when it is the first of its key in the input. */
  lemma {:induction false} DedupIsFirsts<T, K>(xs: seq<T>, key: T -> K)
    ensures DedupBy(xs, key) == Firsts(xs, key, |xs|)
    decreases |xs|
  {
    if xs != [] {
      var n := |xs|;
      var init := xs[..n - 1];
      var x := xs[n - 1];
      DedupIsFirsts(init, key);
      FirstsPrefix(xs, key, n - 1);
      var kept := Firsts(xs, key, n - 1);
      assert DedupBy(xs, key) == if key(x) in KeysOf(kept, key) then kept else kept + [x];
      assert Firsts(xs, key, n) == kept + (if IsFirst(xs, key, n - 1) then [x] else []);
      FirstIffNewKey(xs, key);
    }
  }

  /** The last element is the first of its key exactly when no element before
      it has that key. */
  lemma {:induction false} FirstIffNewKey<T, K>(xs: seq<T>, key: T -> K)
    requires xs != []
    ensures IsFirst(xs, key, |xs| - 1) <==> key(xs[|xs| - 1]) !in KeysOf(Firsts(xs, key, |xs| - 1), key)
  {
    var n := |xs|;
    var kept := Firsts(xs, key, n - 1);
    if key(xs[n - 1]) in KeysOf(kept, key) {
      KeptKeyRepeats(xs, key);
    } else {
      NewKeyIsFirst(xs, key);
    }
  }

  lemma {:induction false} KeptKeyRepeats<T, K>(xs: seq<T>, key: T -> K)
    requires xs != []
    requires key(xs[|xs| - 1]) in KeysOf(Firsts(xs, key, |xs| - 1), key)
    ensures !IsFirst(xs, key, |xs| - 1)
  {
    var i := KeyPosition(Firsts(xs, key, |xs| - 1), key, key(xs[|xs| - 1]));
    KeptIndexRepeats(xs, key, i);
  }

  /** A key among the keys of `xs` is the key of some element of `xs`. */
  lemma {:induction false} KeyPosition<T, K>(xs: seq<T>, key: T -> K, k: K) returns (i: nat)
    requires k in KeysOf(xs, key)
    ensures i < |xs| && key(xs[i]) == k
  {
    var ks := KeysOf(xs, key);
    i :| 0 <= i < |ks| && ks[i] == k;
  }

  /** The kept element at `i` comes before the last element and shares its key. */
  lemma {:induction false} KeptIndexRepeats<T, K>(xs: seq<T>, key: T -> K, i: nat)
    requires xs != [] && i < |Firsts(xs, key, |xs| - 1)|
    requires key(Firsts(xs, key, |xs| - 1)[i]) == key(xs[|xs| - 1])
    ensures !IsFirst(xs, key, |xs| - 1)
  {
    var t := FirstsFromAt(xs, key, |xs| - 1, i);
    assert key(xs[t]) == key(xs[|xs| - 1]);
  }

  lemma {:induction false} NewKeyIsFirst<T, K>(xs: seq<T>, key: T -> K)
    requires xs != []
    requires key(xs[|xs| - 1]) !in KeysOf(Firsts(xs, key, |xs| - 1), key)
    ensures IsFirst(xs, key, |xs| - 1)
  {
    var n := |xs|;
    if !IsFirst(xs, key, n - 1) {
      var s :| 0 <= s < n - 1 && key(xs[s]) == key(xs[n - 1]);
      RepeatedKeyKept(xs, key, s);
    }
  }

  /** An element whose key already appeared earlier finds that key kept. */
  lemma {:induction false} RepeatedKeyKept<T, K>(xs: seq<T>, key: T -> K, s: nat)
    requires s < |xs| - 1 && key(xs[s]) == key(xs[|xs| - 1])
    ensures key(xs[|xs| - 1]) in KeysOf(Firsts(xs, key, |xs| - 1), key)
  {
    var n := |xs|;
    var i := FirstsCoverAt(xs, key, n - 1, s);
    assert KeysOf(Firsts(xs, key, n - 1), key)[i] == key(xs[n - 1]);
  }

  /** `Firsts` only looks at the prefix it is given. */
  lemma {:induction false} FirstsPrefix<T, K>(xs: seq<T>, key: T -> K, n: nat)
    requires n < |xs|
    ensures Firsts(xs[..n], key, n) == Firsts(xs, key, n)
  {
    var ys := xs[..n];
    forall k | 0 <= k <= n
      ensures Firsts(ys, key, k) == Firsts(xs, key, k)
    {
      FirstsPrefixUpTo(xs, ys, key, k);
    }
  }

  lemma {:induction false} FirstsPrefixUpTo<T, K>(xs: seq<T>, ys: seq<T>, key: T -> K, k: nat)
    requires k <= |ys| <= |xs| && ys == xs[..|ys|]
    ensures Firsts(ys, key, k) == Firsts(xs, key, k)
  {
    if k > 0 {
      FirstsPrefixUpTo(xs, ys, key, k - 1);
      assert IsFirst(ys, key, k - 1) == IsFirst(xs, key, k - 1) by {
        assert forall s :: 0 <= s < k ==> ys[s] == xs[s];
      }
    }
  }

  /** The output holds at most one element per key. */
  lemma {:induction false} DedupUnique<T, K>(xs: seq<T>, key: T -> K)
    ensures UniqueKeys(DedupBy(xs, key), key)
    decreases |xs|
  {
    if xs != [] {
      var kept := DedupBy(xs[..|xs| - 1], key);
      DedupUnique(xs[..|xs| - 1], key);
      var x := xs[|xs| - 1];
      if key(x) !in KeysOf(kept, key) {
        var r := kept + [x];
        forall i, j | 0 <= i < j < |r|
          ensures key(r[i]) != key(r[j])
        {
          if j == |kept| {
            assert KeysOf(kept, key)[i] == key(r[i]);
          }
        }
      }
    }
  }

  /** Every key present in the input is present in the output, and every
      output element comes from the input. */
  lemma {:induction false} DedupKeys<T, K>(xs: seq<T>, key: T -> K)
    ensures forall t :: 0 <= t < |xs| ==> key(xs[t]) in KeysOf(DedupBy(xs, key), key)
    ensures forall i :: 0 <= i < |DedupBy(xs, key)| ==> DedupBy(xs, key)[i] in xs
  {
    DedupIsFirsts(xs, key);
    var r := DedupBy(xs, key);
    forall t | 0 <= t < |xs|
      ensures key(xs[t]) in KeysOf(r, key)
    {
      var i := FirstsCoverAt(xs, key, |xs|, t);
      assert KeysOf(r, key)[i] == key(xs[t]);
    }
    forall i | 0 <= i < |r|
      ensures r[i] in xs
    {
      var t := FirstsFromAt(xs, key, |xs|, i);
    }
  }

  /** The output keeps the input's relative order: it is the input with some
      elements removed, each kept element being the first of its key. */
  lemma {:induction false} DedupOrder<T, K>(xs: seq<T>, key: T -> K, i: nat, j: nat)
    requires i < j < |DedupBy(xs, key)|
    ensures exists s, t :: 0 <= s < t < |xs| && DedupBy(xs, key)[i] == xs[s] && DedupBy(xs, key)[j] == xs[t]
                           && IsFirst(xs, key, s) && IsFirst(xs, key, t)
  {
    DedupIsFirsts(xs, key);
    FirstsOrder(xs, key, |xs|, i, j);
  }

  lemma {:induction false} FirstsOrder<T, K>(xs: seq<T>, key: T -> K, n: nat, i: nat, j: nat)
    requires n <= |xs| && i < j < |Firsts(xs, key, n)|
    ensures exists s, t :: 0 <= s < t < n && Firsts(xs, key, n)[i] == xs[s] && Firsts(xs, key, n)[j] == xs[t]
                           && IsFirst(xs, key, s) && IsFirst(xs, key, t)
  {
    var prev := Firsts(xs, key, n - 1);
    var cur := Firsts(xs, key, n);
    if j < |prev| {
      FirstsOrder(xs, key, n - 1, i, j);
      var s, t :| 0 <= s < t < n - 1 && prev[i] == xs[s] && prev[j] == xs[t] && IsFirst(xs, key, s) && IsFirst(xs, key, t);
      assert cur[i] == xs[s] && cur[j] == xs[t];
    } else {
      var s := FirstsFromAt(xs, key, n - 1, i);
      assert cur[i] == xs[s];
      assert cur[j] == xs[n - 1] && IsFirst(xs, key, n - 1);
    }
  }

  /** Input that already has unique keys passes through unchanged. */
  lemma {:induction false} DedupOfUnique<T, K>(xs: seq<T>, key: T -> K)
    requires UniqueKeys(xs, key)
    ensures DedupBy(xs, key) == xs
    decreases |xs|
  {
    if xs != [] {
      var init := xs[..|xs| - 1];
      assert UniqueKeys(init, key);
      DedupOfUnique(init, key);
      var x := xs[|xs| - 1];
      forall i | 0 <= i < |init|
        ensures KeysOf(init, key)[i] != key(x)
      {
        assert init[i] == xs[i];
      }
    }
  }

  /** Deduplicating twice is deduplicating once. */
  lemma {:induction false} DedupIdempotent<T, K>(xs: seq<T>, key: T -> K)
    ensures DedupBy(DedupBy(xs, key), key) == DedupBy(xs, key)
  {
    DedupUnique(xs, key);
    DedupOfUnique(DedupBy(xs, key), key);
  }

  /** A position as its own key, as `JSON.stringify` or `${lng},${lat}` of a
      valid position is: equal exactly for equal positions. */
  function PointKey(): Point -> Point {
    (p: Point) => p
  }

  /** The first occurrence of each position, in order. */
  function UniquePoints(points: seq<Point>): (r: seq<Point>)
    ensures Distinct(r)
    ensures forall p :: p in r <==> p in points
  {
    var key := PointKey();
    DedupUnique(points, key);
    DedupKeys(points, key);
    assert forall i :: 0 <= i < |DedupBy(points, key)| ==> KeysOf(DedupBy(points, key), key)[i] == DedupBy(points, key)[i];
    DedupBy(points, key)
  }
}

=== FILE: dedupe_address_points.dfy ===
/** scripts/dedupe_address_points.py: keep the first record per normalised
    address. The normalisation (`strip().lower()`) is a parameter; reading
    and rewriting the JSON file is not modelled. */
module DedupeAddressPoints {
  import opened Dedup

  /** One record of the raw address file: its address and its position. */
  datatype AddressPoint = AddressPoint(address: string, lng: int, lat: int)

  /** The key of line 11: the record's address, normalised. */
  function AddressKey(normalize: string -> string): AddressPoint -> string {
    (p: AddressPoint) => normalize(p.address)
  }

  /** Lines 7-14: the records whose normalised address was not seen before, in
      input order. */
  function DedupeAddresses(points: seq<AddressPoint>, normalize: string -> string): (r: seq<AddressPoint>)
    ensures |r| <= |points|
    ensures UniqueKeys(r, AddressKey(normalize))
    ensures forall t :: 0 <= t < |points| ==> normalize(points[t].address) in KeysOf(r, AddressKey(normalize))
    ensures forall i :: 0 <= i < |r| ==> r[i] in points
  {
    var key := AddressKey(normalize);
    DedupUnique(points, key);
    DedupKeys(points, key);
    DedupBy(points, key)
  }

  /** The kept record is the first with its address, and kept records stay in
      input order. */
  lemma {:induction false} KeepsFirstInOrder(points: seq<AddressPoint>, normalize: string -> string, i: nat, j: nat)
    requires i < j < |DedupeAddresses(points, normalize)|
    ensures exists s, t ::
              && 0 <= s < t < |points|
              && DedupeAddresses(points, normalize)[i] == points[s]
              && DedupeAddresses(points, normalize)[j] == points[t]
              && (forall u :: 0 <= u < s ==> normalize(points[u].address) != normalize(points[s].address))
              && (forall u :: 0 <= u < t ==> normalize(points[u].address) != normalize(points[t].address))
  {
    var key := AddressKey(normalize);
    DedupOrder(points, key, i, j);
    var s, t :| 0 <= s < t < |points| && DedupBy(points, key)[i] == points[s] && DedupBy(points, key)[j] == points[t]
      && IsFirst(points, key, s) && IsFirst(points, key, t);
    assert forall u :: 0 <= u < s ==> key(points[u]) != key(points[s]);
    assert forall u :: 0 <= u < t ==> key(points[u]) != key(points[t]);
  }

  /** Lines 18-19 overwrite the input with the output; a second run then
      changes nothing. */
  lemma {:induction false} RerunChangesNothing(points: seq<AddressPoint>, normalize: string -> string)
    ensures DedupeAddresses(DedupeAddresses(points, normalize), normalize) == DedupeAddresses(points, normalize)
  {
    DedupIdempotent(points, AddressKey(normalize));
  }
}

=== FILE: geometry.dfy ===
/** Coordinates as the planners receive them and the checks they apply before
    using one (public/js/route_solver_valhalla_leaflet.js lines 23 and 27,
    public/clustered_route_solver.js lines 16-20 and 37-43).

    Positions are fixed-point integers in micro-degrees: `Point(lng, lat)` is
    `[lng / 1e6, lat / 1e6]` in GeoJSON order. */
module Geometry {
  import opened Wrappers
  import opened Seqs

  /** A JavaScript number: finite, or one of `NaN`, `Infinity`, `-Infinity`. */
  datatype Num = Finite(value: int) | NonFinite

  /** A raw coordinate: a two-element array of numbers, or anything else
      (not an array, the wrong length, a component that is not a number). */
  datatype Coord = Pair(lng: Num, lat: Num) | Malformed

  /** A validated position. */
  datatype Point = Point(lng: int, lat: int)

  /** `isValidCoordinate`: an array of exactly two finite numbers. */
  predicate IsValid(c: Coord) {
    c.Pair? && c.lng.Finite? && c.lat.Finite?
  }

  function ToPoint(c: Coord): Point
    requires IsValid(c)
  {
    Point(c.lng.value, c.lat.value)
  }

  function AsCoord(p: Point): Coord {
    Pair(Finite(p.lng), Finite(p.lat))
  }

  /** `coords.filter(isValidCoordinate)`, read as positions. */
  function ValidPoints(cs: seq<Coord>): (r: seq<Point>)
    ensures |r| <= |cs|
    ensures forall p :: p in r <==> AsCoord(p) in cs
  {
    if cs == [] then []
    else (if IsValid(cs[0]) then [ToPoint(cs[0])] else []) + ValidPoints(cs[1..])
  }

  /** Positions written back as coordinates: every one of them is valid, so
      the filter keeps them all. */
  function AsCoords(ps: seq<Point>): (r: seq<Coord>)
    ensures |r| == |ps|
    ensures forall i :: 0 <= i < |ps| ==> r[i] == AsCoord(ps[i]) && IsValid(r[i])
  {
    seq(|ps|, i requires 0 <= i < |ps| => AsCoord(ps[i]))
  }

  lemma {:induction false} ValidPointsOfPoints(ps: seq<Point>)
    ensures ValidPoints(AsCoords(ps)) == ps
  {
    if ps != [] {
      assert AsCoords(ps)[1..] == AsCoords(ps[1..]);
      ValidPointsOfPoints(ps[1..]);
    }
  }

  function Lngs(ps: seq<Point>): (r: seq<int>)
    ensures |r| == |ps| && forall i :: 0 <= i < |ps| ==> r[i] == ps[i].lng
  {
    seq(|ps|, i requires 0 <= i < |ps| => ps[i].lng)
  }

  function Lats(ps: seq<Point>): (r: seq<int>)
    ensures |r| == |ps| && forall i :: 0 <= i < |ps| ==> r[i] == ps[i].lat
  {
    seq(|ps|, i requires 0 <= i < |ps| => ps[i].lat)
  }

  /** `getCentroid(coords)`: `null` without a valid coordinate, otherwise
      the component-wise mean of the valid ones, rounded down to a micro-degree. */
  function Centroid(cs: seq<Coord>): (r: Option<Point>)
    ensures r.None? <==> ValidPoints(cs) == []
  {
    var vs := ValidPoints(cs);
    var n := |vs|;
    if n == 0 then None
    else Some(Point(Sum(Lngs(vs)) / n, Sum(Lats(vs)) / n))
  }

  /** Some element is at most `x`, and some element is at least `x`. */
  ghost predicate Between(s: seq<int>, x: int) {
    (exists i :: 0 <= i < |s| && s[i] <= x) && (exists j :: 0 <= j < |s| && x <= s[j])
  }

  /** The rounded-down mean of a non-empty sequence lies between its least
      and its greatest element. */
  lemma {:induction false} MeanBetween(s: seq<int>)
    requires |s| > 0
    ensures Between(s, Sum(s) / |s|)
    decreases |s|
  {
    var lo, hi := MinIndex(s), MaxIndex(s);
    SumBounds(s, s[lo], s[hi]);
    var n := |s|;
    assert n * s[lo] <= Sum(s);
    assert Sum(s) / n >= s[lo] by {
      DivLowerBound(Sum(s), n, s[lo]);
    }
    assert Sum(s) / n <= s[hi] by {
      DivUpperBound(Sum(s), n, s[hi]);
    }
  }

  lemma {:induction false} DivLowerBound(a: int, n: int, lo: int)
    requires n > 0 && n * lo <= a
    ensures lo <= a / n
  {
    assert a == n * (a / n) + a % n && a % n < n;
    assert n * (a / n) > n * (lo - 1);
    MulCancel(n, a / n, lo - 1);
  }

  lemma {:induction false} DivUpperBound(a: int, n: int, hi: int)
    requires n > 0 && a <= n * hi
    ensures a / n <= hi
  {
    assert a == n * (a / n) + a % n && 0 <= a % n;
    assert n * (a / n) <= n * hi;
    MulCancel(n, hi + 1, a / n);
  }

  lemma {:induction false} MulCancel(n: int, x: int, y: int)
    requires n > 0 && n * x > n * y
    ensures x > y
  {
    assert n * (x - y) > 0;
    assert x - y > 0 by {
      assert n * (x - y) == n * x - n * y;
    }
  }

  function MinIndex(s: seq<int>): (k: nat)
    requires |s| > 0
    ensures k < |s| && forall i :: 0 <= i < |s| ==> s[k] <= s[i]
  {
    if |s| == 1 then 0
    else
      var k := MinIndex(s[1..]) + 1;
      assert forall i :: 1 <= i < |s| ==> s[i] == s[1..][i - 1];
      if s[0] <= s[k] then 0 else k
  }

  function MaxIndex(s: seq<int>): (k: nat)
    requires |s| > 0
    ensures k < |s| && forall i :: 0 <= i < |s| ==> s[i] <= s[k]
  {
    if |s| == 1 then 0
    else
      var k := MaxIndex(s[1..]) + 1;
      assert forall i :: 1 <= i < |s| ==> s[i] == s[1..][i - 1];
      if s[k] <= s[0] then 0 else k
  }

  lemma {:induction false} SumBounds(s: seq<int>, lo: int, hi: int)
    requires forall i :: 0 <= i < |s| ==> lo <= s[i] <= hi
    ensures |s| * lo <= Sum(s) <= |s| * hi
    decreases |s|
  {
    if s != [] {
      assert forall i :: 0 <= i < |s[1..]| ==> s[1..][i] == s[i + 1];
      SumBounds(s[1..], lo, hi);
    }
  }

  /** The centroid lies in the bounding box of the valid coordinates. */
  lemma {:induction false} CentroidInBox(cs: seq<Coord>)
    requires Centroid(cs).Some?
    ensures Between(Lngs(ValidPoints(cs)), Centroid(cs).value.lng)
    ensures Between(Lats(ValidPoints(cs)), Centroid(cs).value.lat)
  {
    var vs := ValidPoints(cs);
    MeanBetween(Lngs(vs));
    MeanBetween(Lats(vs));
  }

  /** Points that all coincide have that point as their centroid. */
  lemma {:induction false} CentroidOfCoincident(cs: seq<Coord>, p: Point)
    requires Centroid(cs).Some?
    requires forall q :: q in ValidPoints(cs) ==> q == p
    ensures Centroid(cs) == Some(p)
  {
    var vs := ValidPoints(cs);
    CentroidInBox(cs);
    var c := Centroid(cs).value;
    var i, j :| 0 <= i < |vs| && 0 <= j < |vs| && Lngs(vs)[i] <= c.lng <= Lngs(vs)[j];
    assert vs[i] in vs && vs[j] in vs;
    var k, l :| 0 <= k < |vs| && 0 <= l < |vs| && Lats(vs)[k] <= c.lat <= Lats(vs)[l];
    assert vs[k] in vs && vs[l] in vs;
  }
}

=== FILE: grid.dfy ===
/** `clusterByGrid(coords, cellSize)` (public/js/route_solver_valhalla_leaflet.js
    line 28, public/clustered_route_solver.js lines 54-63): valid points are
    grouped by the grid cell `[floor(lng / cellSize), floor(lat / cellSize)]`,
    groups in the order their cell is first met (a `Map` keeps insertion
    order), points within a group in input order. Cell sizes are in
    micro-degrees, like the coordinates, so the quotient is exact. */
module Grid {
  import opened Geometry
  import opened Seqs
  import opened Dedup
  import opened Wrappers

  /** `Math.floor(a / b)` for a non-zero divisor. Dafny's `/` rounds down only
      for a positive divisor, so a negative one is turned around first. */
  function FloorDiv(a: int, b: int): (q: int)
    requires b != 0
    ensures b > 0 ==> q * b <= a < (q + 1) * b
    ensures b < 0 ==> q * b >= a > (q + 1) * b
  {
    if b > 0 then a / b else (-a) / (-b)
  }

  /** A grid cell, the key of lines 58 and 28. */
  datatype Cell = Cell(x: int, y: int)

  function CellOf(p: Point, cellSize: int): Cell
    requires cellSize != 0
  {
    Cell(FloorDiv(p.lng, cellSize), FloorDiv(p.lat, cellSize))
  }

  /** `CellOf` as a key function for deduplication. */
  function CellKey(cellSize: int): Point -> Cell
    requires cellSize != 0
  {
    (p: Point) => CellOf(p, cellSize)
  }

  /** One entry of the `Map`: a cell and the points pushed under it. */
  datatype Group = Group(cell: Cell, points: seq<Point>)

  function Cells(groups: seq<Group>): (r: seq<Cell>)
    ensures |r| == |groups| && forall k :: 0 <= k < |groups| ==> r[k] == groups[k].cell
  {
    seq(|groups|, k requires 0 <= k < |groups| => groups[k].cell)
  }

  /** The point joins the group of its cell, at the end of that group; a
      cell seen for the first time opens a new group after all the others. */
  function AddToGroups(groups: seq<Group>, c: Cell, p: Point): seq<Group>
    decreases |groups|
  {
    if groups == [] then [Group(c, [p])]
    else if groups[0].cell == c then [Group(c, groups[0].points + [p])] + groups[1..]
    else [groups[0]] + AddToGroups(groups[1..], c, p)
  }

  /** The loop of lines 57-61 over `ps`, in order. */
  function GroupByCell(ps: seq<Point>, cellSize: int): seq<Group>
    requires cellSize != 0
    decreases |ps|
  {
    if ps == [] then []
    else
      var last := ps[|ps| - 1];
      AddToGroups(GroupByCell(ps[..|ps| - 1], cellSize), CellOf(last, cellSize), last)
  }

  /** The points of `ps` in cell `c`, in input order: the reference
      definition of a group's contents. */
  function Members(ps: seq<Point>, cellSize: int, c: Cell): seq<Point>
    requires cellSize != 0
    decreases |ps|
  {
    if ps == [] then []
    else
      var last := ps[|ps| - 1];
      Members(ps[..|ps| - 1], cellSize, c) + (if CellOf(last, cellSize) == c then [last] else [])
  }

  /** `clusterByGrid(coords, cellSize)`: the groups' point lists. */
  function ClusterByGrid(coords: seq<Coord>, cellSize: int): (r: seq<seq<Point>>)
    requires cellSize != 0
    ensures |r| == |GroupByCell(ValidPoints(coords), cellSize)|
    ensures forall k :: 0 <= k < |r| ==> r[k] == GroupByCell(ValidPoints(coords), cellSize)[k].points
  {
    var groups := GroupByCell(ValidPoints(coords), cellSize);
    seq(|groups|, k requires 0 <= k < |groups| => groups[k].points)
  }

  /** A point of a new cell opens a new group at the end. */
  lemma {:induction false} AddNewCell(groups: seq<Group>, c: Cell, p: Point)
    requires c !in Cells(groups)
    ensures AddToGroups(groups, c, p) == groups + [Group(c, [p])]
    decreases |groups|
  {
    if groups != [] {
      assert Cells(groups[1..]) == Cells(groups)[1..];
      AddNewCell(groups[1..], c, p);
      assert groups == [groups[0]] + groups[1..];
    }
  }

  /** A point of a known cell is appended to that cell's group; no other
      group changes. */
  lemma {:induction false} AddKnownCell(groups: seq<Group>, c: Cell, p: Point, k: nat)
    requires Distinct(Cells(groups)) && k < |groups| && groups[k].cell == c
    ensures AddToGroups(groups, c, p) == groups[k := Group(c, groups[k].points + [p])]
    decreases |groups|
  {
    if k > 0 {
      var rest := groups[1..];
      assert Cells(rest) == Cells(groups)[1..];
      assert Distinct(Cells(rest)) by {
        forall i, j | 0 <= i < j < |rest|
          ensures Cells(rest)[i] != Cells(rest)[j]
        {
          assert Cells(groups)[i + 1] != Cells(groups)[j + 1];
        }
      }
      assert Cells(groups)[0] != Cells(groups)[k];
      AddKnownCell(rest, c, p, k - 1);
    }
  }

  /** Adding a point adds its cell to the cells when it is new. */
  lemma {:induction false} AddCells(groups: seq<Group>, c: Cell, p: Point)
    ensures Cells(AddToGroups(groups, c, p)) == if c in Cells(groups) then Cells(groups) else Cells(groups) + [c]
    decreases |groups|
  {
    if groups != [] {
      var rest := groups[1..];
      assert Cells(groups) == [groups[0].cell] + Cells(rest);
      AddCells(rest, c, p);
      if groups[0].cell != c {
        assert AddToGroups(groups, c, p) == [groups[0]] + AddToGroups(rest, c, p);
        assert Cells(AddToGroups(groups, c, p)) == [groups[0].cell] + Cells(AddToGroups(rest, c, p));
      }
    }
  }

  /** The cells of the groups are the distinct cells of the points, in the
      order they are first met. */
  lemma {:induction false} GroupCells(ps: seq<Point>, cellSize: int)
    requires cellSize != 0
    ensures Cells(GroupByCell(ps, cellSize)) == KeysOf(DedupBy(ps, CellKey(cellSize)), CellKey(cellSize))
    decreases |ps|
  {
    if ps != [] {
      var init := ps[..|ps| - 1];
      var x := ps[|ps| - 1];
      GroupCells(init, cellSize);
      AddCells(GroupByCell(init, cellSize), CellOf(x, cellSize), x);
      var kept := DedupBy(init, CellKey(cellSize));
      assert CellKey(cellSize)(x) == CellOf(x, cellSize);
      assert KeysOf(kept + [x], CellKey(cellSize)) == KeysOf(kept, CellKey(cellSize)) + [CellOf(x, cellSize)];
    }
  }

  /** No two groups share a cell, and every point's cell has a group. */
  lemma {:induction false} CellsFacts(ps: seq<Point>, cellSize: int)
    requires cellSize != 0
    ensures Distinct(Cells(GroupByCell(ps, cellSize)))
    ensures forall t :: 0 <= t < |ps| ==> CellOf(ps[t], cellSize) in Cells(GroupByCell(ps, cellSize))
  {
    var key := CellKey(cellSize);
    var groups := GroupByCell(ps, cellSize);
    var kept := DedupBy(ps, key);
    GroupCells(ps, cellSize);
    DedupUnique(ps, key);
    DedupKeys(ps, key);
    forall i, j | 0 <= i < j < |groups|
      ensures Cells(groups)[i] != Cells(groups)[j]
    {
      assert Cells(groups)[i] == key(kept[i]) && Cells(groups)[j] == key(kept[j]);
    }
    forall t | 0 <= t < |ps|
      ensures CellOf(ps[t], cellSize) in Cells(groups)
    {
      assert key(ps[t]) in KeysOf(kept, key);
    }
  }

  /** Each group holds exactly the points of its cell, in input order, and no
      group is empty. */
  lemma {:induction false} GroupPoints(ps: seq<Point>, cellSize: int)
    requires cellSize != 0
    ensures forall k :: 0 <= k < |GroupByCell(ps, cellSize)| ==>
      GroupByCell(ps, cellSize)[k].points == Members(ps, cellSize, GroupByCell(ps, cellSize)[k].cell)
    ensures forall k :: 0 <= k < |GroupByCell(ps, cellSize)| ==> |GroupByCell(ps, cellSize)[k].points| > 0
    decreases |ps|
  {
    if ps != [] {
      var init := ps[..|ps| - 1];
      var x := ps[|ps| - 1];
      var c := CellOf(x, cellSize);
      GroupPoints(init, cellSize);
      CellsFacts(init, cellSize);
      var groups := GroupByCell(init, cellSize);
      if c in Cells(groups) {
        var k :| 0 <= k < |groups| && Cells(groups)[k] == c;
        AddKnownCell(groups, c, x, k);
      } else {
        AddNewCell(groups, c, x);
        NoMembers(init, cellSize, c);
      }
    }
  }

  lemma {:induction false} NoMembers(ps: seq<Point>, cellSize: int, c: Cell)
    requires cellSize != 0
    requires forall t :: 0 <= t < |ps| ==> CellOf(ps[t], cellSize) != c
    ensures Members(ps, cellSize, c) == []
    decreases |ps|
  {
    if ps != [] {
      NoMembers(ps[..|ps| - 1], cellSize, c);
    }
  }

  lemma {:induction false} MembersSpec(ps: seq<Point>, cellSize: int, c: Cell)
    requires cellSize != 0
    ensures forall p :: p in Members(ps, cellSize, c) <==> p in ps && CellOf(p, cellSize) == c
    decreases |ps|
  {
    if ps != [] {
      var init := ps[..|ps| - 1];
      MembersSpec(init, cellSize, c);
      assert ps == init + [ps[|ps| - 1]];
    }
  }

  /** The grouping is a partition by cell: every valid point lies in exactly one
      group, a group holds exactly the valid points of its cell (so two valid
      points share a group iff their cells are equal), and the groups are
      non-empty, in first-met order of their cells. */
  lemma {:induction false} ClusterByGridPartition(coords: seq<Coord>, cellSize: int)
    requires cellSize != 0
    ensures Distinct(Cells(GroupByCell(ValidPoints(coords), cellSize)))
    ensures forall k, p :: 0 <= k < |ClusterByGrid(coords, cellSize)| ==>
      (p in ClusterByGrid(coords, cellSize)[k] <==>
       p in ValidPoints(coords) && CellOf(p, cellSize) == GroupByCell(ValidPoints(coords), cellSize)[k].cell)
    ensures forall p :: p in ValidPoints(coords) ==>
      exists k :: 0 <= k < |ClusterByGrid(coords, cellSize)| && p in ClusterByGrid(coords, cellSize)[k]
    ensures forall k, l, p ::
              (0 <= k < |ClusterByGrid(coords, cellSize)| && 0 <= l < |ClusterByGrid(coords, cellSize)|
               && p in ClusterByGrid(coords, cellSize)[k] && p in ClusterByGrid(coords, cellSize)[l]) ==> k == l
    ensures forall k :: 0 <= k < |ClusterByGrid(coords, cellSize)| ==> |ClusterByGrid(coords, cellSize)[k]| > 0
  {
    var ps := ValidPoints(coords);
    var groups := GroupByCell(ps, cellSize);
    var out := ClusterByGrid(coords, cellSize);
    GroupPoints(ps, cellSize);
    CellsFacts(ps, cellSize);
    forall k | 0 <= k < |groups|
      ensures forall p :: p in out[k] <==> p in ps && CellOf(p, cellSize) == groups[k].cell
    {
      MembersSpec(ps, cellSize, groups[k].cell);
    }
    forall p | p in ps
      ensures exists k :: 0 <= k < |out| && p in out[k]
    {
      var t :| 0 <= t < |ps| && ps[t] == p;
      var k :| 0 <= k < |groups| && Cells(groups)[k] == CellOf(ps[t], cellSize);
      assert p in out[k];
    }
    forall k, l, p | 0 <= k < |out| && 0 <= l < |out| && p in out[k] && p in out[l]
      ensures k == l
    {
      assert Cells(groups)[k] == Cells(groups)[l];
    }
  }

  /** Every cluster holds at least one position. */
  lemma {:induction false} ClustersNonEmpty(coords: seq<Coord>, cellSize: int)
    requires cellSize != 0
    ensures forall k :: 0 <= k < |ClusterByGrid(coords, cellSize)| ==> |ClusterByGrid(coords, cellSize)[k]| > 0
  {
    ClusterByGridPartition(coords, cellSize);
  }

  /** Every valid position lies in some cluster. */
  lemma {:induction false} ValidPointClustered(coords: seq<Coord>, cellSize: int, p: Point) returns (k: nat)
    requires cellSize != 0 && p in ValidPoints(coords)
    ensures k < |ClusterByGrid(coords, cellSize)| && p in ClusterByGrid(coords, cellSize)[k]
  {
    ClusterByGridPartition(coords, cellSize);
    k :| 0 <= k < |ClusterByGrid(coords, cellSize)| && p in ClusterByGrid(coords, cellSize)[k];
  }

  /** A clustered position is a valid input position. */
  lemma {:induction false} ClusterMemberValid(coords: seq<Coord>, cellSize: int, k: nat, p: Point)
    requires cellSize != 0
    requires k < |ClusterByGrid(coords, cellSize)| && p in ClusterByGrid(coords, cellSize)[k]
    ensures p in ValidPoints(coords)
  {
    ClusterByGridPartition(coords, cellSize);
  }

  // ---------------------------------------------------------------------------
  // Taking clusters and points in a computed order
  // ---------------------------------------------------------------------------

  /** `clusters.map(getCentroid).filter(isValidCoordinate)`: the centroid of
      every non-empty cluster. */
  function Centroids(clusters: seq<seq<Point>>): (r: seq<Point>)
    ensures |r| <= |clusters|
    ensures (forall k :: 0 <= k < |clusters| ==> |clusters[k]| > 0) ==>
              |r| == |clusters| && forall k :: 0 <= k < |clusters| ==> Some(r[k]) == Centroid(AsCoords(clusters[k]))
  {
    if clusters == [] then []
    else
      var c := Centroid(AsCoords(clusters[0]));
      ValidPointsOfPoints(clusters[0]);
      (if c.Some? then [c.value] else []) + Centroids(clusters[1..])
  }

  /** `clusters[k]`, where an index past the end reads as `undefined`, which
      the planners skip. */
  function ClusterAt(clusters: seq<seq<Point>>): nat -> seq<Point> {
    (k: nat) => if k < |clusters| then clusters[k] else []
  }

  /** `order.map(i => points[i]).filter(isValidCoordinate)`: an index past the
      end gives `undefined`, which the filter drops. */
  function Pick(points: seq<Point>, order: seq<nat>): seq<Point> {
    FlatMap(order, PointAt(points))
  }

  function PointAt(points: seq<Point>): nat -> seq<Point> {
    (i: nat) => if i < |points| then [points[i]] else []
  }

  /** Taking the points in the order of a permutation of their indices
      rearranges them: each point once, nothing else. */
  lemma {:induction false} PickPermutation(points: seq<Point>, order: seq<nat>)
    requires IsPermutation(order, |points|)
    ensures multiset(Pick(points, order)) == multiset(points)
  {
    PermutationMultiset(order, |points|);
    FlatMapRearranged(order, Range(|points|), PointAt(points));
    PickIdentity(points, |points|);
    assert points[..|points|] == points;
  }

  lemma {:induction false} PickIdentity(points: seq<Point>, n: nat)
    requires n <= |points|
    ensures Pick(points, Range(n)) == points[..n]
  {
    if n > 0 {
      FlatMapRangeSnoc(n, PointAt(points));
      PickIdentity(points, n - 1);
      assert points[..n] == points[..n - 1] + [points[n - 1]];
    }
  }

  /** Taking whole clusters in index order is flattening them. */
  lemma {:induction false} ClustersInOrder(clusters: seq<seq<Point>>, n: nat)
    requires n <= |clusters|
    ensures FlatMap(Range(n), ClusterAt(clusters)) == Flatten(clusters[..n])
  {
    if n > 0 {
      FlatMapRangeSnoc(n, ClusterAt(clusters));
      ClustersInOrder(clusters, n - 1);
      assert clusters[..n] == clusters[..n - 1] + [clusters[n - 1]];
      FlattenSnoc(clusters[..n - 1], clusters[n - 1]);
    }
  }

  lemma {:induction false} PickHead(points: seq<Point>, order: seq<nat>)
    requires |order| > 0 && order[0] < |points|
    ensures |Pick(points, order)| > 0 && Pick(points, order)[0] == points[order[0]]
  {
  }
}

=== FILE: legs.dfy ===
/** One leg of a drawn route between consecutive stops: the road geometry a
    routing engine returned, or the straight segment when there is none or
    the road is an unreasonable detour. Shared by both planners
    (public/js/route_solver_valhalla_leaflet.js lines 175-191,
    public/clustered_route_solver.js lines 211-221). */
module Legs {
  import opened Wrappers
  import opened Geometry

  /** A road route as the engine returned it: its positions (at least two
      once fetched) and its length in metres. */
  datatype RouteResult = RouteResult(geometry: seq<Point>, distance: real)

  /** A direction arrow along one edge of a drawn line: from, to. */
  datatype Arrow = Arrow(from: Point, to: Point)

  /** The path of the leg from `a` to `b`. The road geometry is used when it
      has at least two positions, unless the detour check is on, the
      straight-line distance `direct` (when one could be measured) exceeds
      `minDirect`, and the road is more than `factor` times longer. */
  function ChooseLegPath(a: Point, b: Point, route: Option<RouteResult>, direct: Option<real>,
                         detourCheck: bool, factor: real, minDirect: real): (r: seq<Point>)
    ensures |r| >= 2
    ensures r == [a, b] || (route.Some? && r == route.value.geometry)
    ensures route.None? || |route.value.geometry| < 2 ==> r == [a, b]
    ensures route.Some? && |route.value.geometry| >= 2 && (!detourCheck || direct.None? || direct.value <= minDirect) ==>
              r == route.value.geometry
    ensures r != [a, b] && detourCheck && direct.Some? && direct.value > minDirect ==>
              route.value.distance <= direct.value * factor
  {
    if route.Some? && |route.value.geometry| >= 2 then
      if detourCheck && direct.Some? && direct.value > minDirect && route.value.distance > direct.value * factor
      then [a, b]
      else route.value.geometry
    else [a, b]
  }
}

=== FILE: path_graph.dfy ===
/** The walkable-path graph of public/pathRouter.js: the `Graph` class
    (lines 15-27) and the graph `loadPathGraph` builds from the line features
    of a footpath layer (lines 65-94). Node ids are the counter values the
    source turns into strings; a coordinate's key `coord.join(',')` tells
    positions apart exactly, so positions themselves are the keys here. The
    fetch of the layer is not modelled, and the edge weight (turf's
    great-circle distance) is a parameter. */
module PathGraph {
  import opened Seqs
  import opened Geometry

  /** `{ to, weight }` */
  datatype Edge = Edge(to: nat, weight: real)

  /** `{ coord, edges }` */
  datatype Node = Node(coord: Point, edges: seq<Edge>)

  /** `this.nodes`: a Map from id to node whose keys iterate in insertion
      order, kept as `order`. */
  datatype Graph = Graph(nodes: map<nat, Node>, order: seq<nat>)

  /** `new Graph()` */
  const EmptyGraph := Graph(map[], [])

  /** `order` lists every key of `nodes` once. */
  ghost predicate Keyed(g: Graph) {
    && Distinct(g.order)
    && (forall k :: k in g.nodes <==> k in g.order)
  }

  /** Every edge leads to a node that has the same edge back. */
  ghost predicate Symmetric(g: Graph) {
    forall k, e :: k in g.nodes && e in g.nodes[k].edges ==>
      e.to in g.nodes && Edge(k, e.weight) in g.nodes[e.to].edges
  }

  ghost predicate NonNegative(g: Graph) {
    forall k, e :: k in g.nodes && e in g.nodes[k].edges ==> e.weight >= 0.0
  }

  /** `addNode(id, coord)` (lines 20-22): a new id gets a node with no edges,
      at the end of the iteration order; an existing node is never touched. */
  function AddNode(g: Graph, id: nat, coord: Point): (r: Graph)
    ensures id in r.nodes && r.nodes.Keys == g.nodes.Keys + {id}
    ensures forall k :: k in g.nodes ==> r.nodes[k] == g.nodes[k]
    ensures id !in g.nodes ==> r.nodes[id] == Node(coord, []) && r.order == g.order + [id]
    ensures id in g.nodes ==> r.order == g.order
    ensures Keyed(g) ==> Keyed(r)
    ensures Symmetric(g) ==> Symmetric(r)
    ensures NonNegative(g) ==> NonNegative(r)
  {
    if id in g.nodes then g
    else Graph(g.nodes[id := Node(coord, [])], g.order + [id])
  }

  /** `addEdge(from, to, weight)` (lines 24-27): an edge to `to` appended at
      `from`, then one back appended at `to` (both at the same node when they
      are equal). Both ends must exist, or the source throws. */
  function AddEdge(g: Graph, from: nat, to: nat, w: real): (r: Graph)
    requires from in g.nodes && to in g.nodes
    ensures r.order == g.order && r.nodes.Keys == g.nodes.Keys
    ensures forall k :: k in g.nodes ==> r.nodes[k].coord == g.nodes[k].coord
    ensures forall k :: k in g.nodes ==> g.nodes[k].edges <= r.nodes[k].edges
    ensures Edge(to, w) in r.nodes[from].edges && Edge(from, w) in r.nodes[to].edges
    ensures forall k, e :: k in r.nodes && e in r.nodes[k].edges ==>
              e in g.nodes[k].edges || (k == from && e == Edge(to, w)) || (k == to && e == Edge(from, w))
  {
    var a := g.nodes[from];
    var g1 := g.(nodes := g.nodes[from := a.(edges := a.edges + [Edge(to, w)])]);
    var b := g1.nodes[to];
    g1.(nodes := g1.nodes[to := b.(edges := b.edges + [Edge(from, w)])])
  }

  /** Adding an edge keeps the graph undirected, keyed and, for a weight that
      is not negative, free of negative weights. */
  lemma {:induction false} AddEdgeKeeps(g: Graph, from: nat, to: nat, w: real)
    requires from in g.nodes && to in g.nodes
    ensures Keyed(g) ==> Keyed(AddEdge(g, from, to, w))
    ensures Symmetric(g) ==> Symmetric(AddEdge(g, from, to, w))
    ensures NonNegative(g) && w >= 0.0 ==> NonNegative(AddEdge(g, from, to, w))
  {
    var r := AddEdge(g, from, to, w);
    if Symmetric(g) {
      forall k, e | k in r.nodes && e in r.nodes[k].edges
        ensures e.to in r.nodes && Edge(k, e.weight) in r.nodes[e.to].edges
      {
        if e in g.nodes[k].edges {
          assert Edge(k, e.weight) in g.nodes[e.to].edges;
        }
      }
    }
  }

  // ---------------------------------------------------------------------------
  // loadPathGraph
  // ---------------------------------------------------------------------------

  /** The graph under construction with `coordToId` and `idCounter`. */
  datatype Builder = Builder(graph: Graph, ids: map<Point, nat>, counter: nat)

  const EmptyBuilder := Builder(EmptyGraph, map[], 0)

  /** The ids handed out are exactly `0 .. counter-1`, in iteration order, and
      the id map and the nodes' coordinates are inverse to each other. */
  ghost predicate Interned(b: Builder) {
    && b.graph.order == Range(b.counter)
    && (forall k: nat :: k in b.graph.nodes <==> k < b.counter)
    && (forall p :: p in b.ids ==> b.ids[p] < b.counter && b.graph.nodes[b.ids[p]].coord == p)
    && (forall k :: 0 <= k < b.counter ==> b.graph.nodes[k].coord in b.ids && b.ids[b.graph.nodes[k].coord] == k)
    && Symmetric(b.graph)
  }

  /** A later builder knows every position an earlier one knew, under the same
      id, and every node keeps its earlier edges as a prefix. */
  ghost predicate Grows(b: Builder, b': Builder) {
    && (forall p :: p in b.ids ==> p in b'.ids && b'.ids[p] == b.ids[p])
    && (forall k :: k in b.graph.nodes ==> k in b'.graph.nodes && b.graph.nodes[k].edges <= b'.graph.nodes[k].edges)
  }

  lemma {:induction false} EmptyInterned()
    ensures Interned(EmptyBuilder)
  {
    assert Range(0) == [];
  }

  /** The id tells positions apart: the graph's view of `Keyed`. */
  lemma {:induction false} InternedKeyed(b: Builder)
    requires Interned(b)
    ensures Keyed(b.graph)
  {
    RangeDistinct(b.counter);
  }

  lemma {:induction false} RangeDistinct(n: nat)
    ensures Distinct(Range(n)) && forall k: nat :: k in Range(n) <==> k < n
  {
    forall k: nat | k < n
      ensures k in Range(n)
    {
      assert Range(n)[k] == k;
    }
  }

  /** `getId(coord)` (lines 73-81): a known position keeps its id and
      changes nothing; a new one gets the next counter value and a node. */
  method GetId(b: Builder, p: Point) returns (r: Builder, id: nat)
    requires Interned(b)
    ensures Interned(r) && Grows(b, r)
    ensures p in r.ids && r.ids[p] == id && id in r.graph.nodes
    ensures forall x :: x in r.ids <==> x in b.ids || x == p
    ensures p in b.ids ==> r == b && id == b.ids[p]
    ensures p !in b.ids ==> id == b.counter && r.counter == b.counter + 1
    ensures NonNegative(b.graph) ==> NonNegative(r.graph)
    ensures forall k :: k in r.graph.nodes ==>
              if k in b.graph.nodes then r.graph.nodes[k].edges == b.graph.nodes[k].edges else r.graph.nodes[k].edges == []
  {
    if p in b.ids {
      return b, b.ids[p];
    }
    id := b.counter;
    r := Builder(AddNode(b.graph, id, p), b.ids[p := id], id + 1);
    InternNew(b, p);
    NewIdGrows(b, p);
  }

  lemma {:induction false} NewIdGrows(b: Builder, p: Point)
    requires p !in b.ids
    ensures Grows(b, Builder(AddNode(b.graph, b.counter, p), b.ids[p := b.counter], b.counter + 1))
  {
    var g := AddNode(b.graph, b.counter, p);
    assert forall k :: k in b.graph.nodes ==> g.nodes[k] == b.graph.nodes[k];
  }

  /** A new position interned at the next counter value keeps the builder
      interned. */
  lemma {:induction false} InternNew(b: Builder, p: Point)
    requires Interned(b) && p !in b.ids
    ensures Interned(Builder(AddNode(b.graph, b.counter, p), b.ids[p := b.counter], b.counter + 1))
  {
    var id := b.counter;
    var g := AddNode(b.graph, id, p);
    assert id !in b.graph.nodes;
    assert g.order == Range(id + 1) by {
      assert Range(id + 1) == Range(id) + [id];
    }
    assert forall k: nat :: k in g.nodes <==> k < id + 1;
    NewIdCoords(b, p);
    NewIdIds(b, p);
  }

  /** Every interned position, old or new, sits at the node of its id. */
  lemma {:induction false} NewIdCoords(b: Builder, p: Point)
    requires Interned(b) && p !in b.ids
    ensures var g: Graph, ids: map<Point, nat> := AddNode(b.graph, b.counter, p), b.ids[p := b.counter];
            forall q :: q in ids ==> ids[q] < b.counter + 1 && g.nodes[ids[q]].coord == q
  {
    var g: Graph, ids: map<Point, nat> := AddNode(b.graph, b.counter, p), b.ids[p := b.counter];
    forall q | q in ids
      ensures ids[q] < b.counter + 1 && g.nodes[ids[q]].coord == q
    {
      if q != p {
        assert q in b.ids && b.graph.nodes[b.ids[q]].coord == q;
      }
    }
  }

  /** Every node, old or new, is the id of its own position. */
  lemma {:induction false} NewIdIds(b: Builder, p: Point)
    requires Interned(b) && p !in b.ids
    ensures var g: Graph, ids: map<Point, nat> := AddNode(b.graph, b.counter, p), b.ids[p := b.counter];
            forall k: nat :: k < b.counter + 1 ==> g.nodes[k].coord in ids && ids[g.nodes[k].coord] == k
  {
    var g: Graph, ids: map<Point, nat> := AddNode(b.graph, b.counter, p), b.ids[p := b.counter];
    assert b.counter !in b.graph.nodes;
    forall k: nat | k < b.counter + 1
      ensures g.nodes[k].coord in ids && ids[g.nodes[k].coord] == k
    {
      if k < b.counter {
        var c := b.graph.nodes[k].coord;
        assert c in b.ids && b.ids[c] == k;
        assert c != p;
      }
    }
  }


  /** Both ends of a segment are known and joined both ways by an edge of the
      segment's weight. */
  ghost predicate Linked(b: Builder, p: Point, q: Point, w: real) {
    && p in b.ids && q in b.ids
    && b.ids[p] in b.graph.nodes && b.ids[q] in b.graph.nodes
    && Edge(b.ids[q], w) in b.graph.nodes[b.ids[p]].edges
    && Edge(b.ids[p], w) in b.graph.nodes[b.ids[q]].edges
  }

  lemma {:induction false} LinkedGrows(b: Builder, b': Builder, p: Point, q: Point, w: real)
    requires Linked(b, p, q, w) && Grows(b, b')
    ensures Linked(b', p, q, w)
  {
    var s, t := b.graph.nodes[b.ids[p]].edges, b'.graph.nodes[b.ids[p]].edges;
    assert s <= t && Edge(b.ids[q], w) in s;
    var s2, t2 := b.graph.nodes[b.ids[q]].edges, b'.graph.nodes[b.ids[q]].edges;
    assert s2 <= t2 && Edge(b.ids[p], w) in s2;
  }

  lemma {:induction false} GrowsTransitive(b1: Builder, b2: Builder, b3: Builder)
    requires Grows(b1, b2) && Grows(b2, b3)
    ensures Grows(b1, b3)
  {
  }

  /** An edge between known nodes keeps the interning and only extends the
      nodes' edge lists. */
  lemma {:induction false} AddEdgeInterned(b: Builder, a: nat, c: nat, w: real)
    requires Interned(b) && a in b.graph.nodes && c in b.graph.nodes
    ensures var r := Builder(AddEdge(b.graph, a, c, w), b.ids, b.counter);
            Interned(r) && Grows(b, r) && (NonNegative(b.graph) && w >= 0.0 ==> NonNegative(r.graph))
  {
    var r := Builder(AddEdge(b.graph, a, c, w), b.ids, b.counter);
    AddEdgeKeeps(b.graph, a, c, w);
    assert Interned(r) by {
      assert forall k :: k in b.graph.nodes ==> r.graph.nodes[k].coord == b.graph.nodes[k].coord;
    }
  }

  /** The edges of `r` are those of `b` and the two of the segment from `p`
      to `q` weighing `w`. */
  ghost predicate AddsSegment(b: Builder, r: Builder, p: Point, q: Point, w: real) {
    && p in r.ids && q in r.ids
    && forall k, e :: k in r.graph.nodes && e in r.graph.nodes[k].edges ==>
         || (k in b.graph.nodes && e in b.graph.nodes[k].edges)
         || (k == r.ids[p] && e == Edge(r.ids[q], w))
         || (k == r.ids[q] && e == Edge(r.ids[p], w))
  }

  /** One pass of the loop of lines 85-90: `getId` of both ends, then the edge
      between them weighing `w`. */
  method AddSegment(b: Builder, p: Point, q: Point, w: real) returns (r: Builder)
    requires Interned(b)
    ensures Interned(r) && Grows(b, r)
    ensures Linked(r, p, q, w)
    ensures forall x :: x in r.ids <==> x in b.ids || x == p || x == q
    ensures NonNegative(b.graph) && w >= 0.0 ==> NonNegative(r.graph)
    ensures AddsSegment(b, r, p, q, w)
  {
    var b1, a := GetId(b, p);
    var b2, c := GetId(b1, q);
    AddEdgeInterned(b2, a, c, w);
    r := Builder(AddEdge(b2.graph, a, c, w), b2.ids, b2.counter);
    GrowsTransitive(b, b1, b2);
    GrowsTransitive(b, b2, r);
  }

  /** `distance` never goes below zero. */
  ghost predicate NonNegativeDistance(distance: (Point, Point) -> real) {
    forall p, q :: distance(p, q) >= 0.0
  }

  /** Every consecutive pair of the given features is joined. */
  ghost predicate AllLinked(b: Builder, features: seq<seq<Point>>, distance: (Point, Point) -> real) {
    forall f, i :: f in features && 0 <= i < |f| - 1 ==> Linked(b, f[i], f[i + 1], distance(f[i], f[i + 1]))
  }

  lemma {:induction false} AllLinkedGrows(b: Builder, b': Builder, features: seq<seq<Point>>, distance: (Point, Point) -> real)
    requires AllLinked(b, features, distance) && Grows(b, b')
    ensures AllLinked(b', features, distance)
  {
    forall f, i | f in features && 0 <= i < |f| - 1
      ensures Linked(b', f[i], f[i + 1], distance(f[i], f[i + 1]))
    {
      LinkedGrows(b, b', f[i], f[i + 1], distance(f[i], f[i + 1]));
    }
  }

  /** The edge `e` at node `k` is the one the segment from `f[i]` to
      `f[i + 1]` adds, one way round or the other. */
  ghost predicate SegmentEdge(b: Builder, f: seq<Point>, i: int, distance: (Point, Point) -> real, k: nat, e: Edge)
    requires 0 <= i < |f| - 1
  {
    && f[i] in b.ids && f[i + 1] in b.ids
    && e.weight == distance(f[i], f[i + 1])
    && ((k == b.ids[f[i]] && e.to == b.ids[f[i + 1]]) || (k == b.ids[f[i + 1]] && e.to == b.ids[f[i]]))
  }

  /** Every edge of the graph is one a segment of the features adds. */
  ghost predicate OnlySegments(b: Builder, features: seq<seq<Point>>, distance: (Point, Point) -> real) {
    forall k, e :: k in b.graph.nodes && e in b.graph.nodes[k].edges ==>
      exists f, i :: f in features && 0 <= i < |f| - 1 && SegmentEdge(b, f, i, distance, k, e)
  }

  /** The edges of `b'` are those of `b` or ones the first `n` segments of
      `f` add. */
  ghost predicate AddsUpTo(b: Builder, b': Builder, f: seq<Point>, n: int, distance: (Point, Point) -> real) {
    forall k, e :: k in b'.graph.nodes && e in b'.graph.nodes[k].edges ==>
      || (k in b.graph.nodes && e in b.graph.nodes[k].edges)
      || exists i :: 0 <= i < n && i < |f| - 1 && SegmentEdge(b', f, i, distance, k, e)
  }

  /** The edges of `b'` are those of `b` or ones the segments of `f` add. */
  ghost predicate AddsOnly(b: Builder, b': Builder, f: seq<Point>, distance: (Point, Point) -> real) {
    AddsUpTo(b, b', f, |f| - 1, distance)
  }

  /** The positions of the features of at least two coordinates. */
  ghost predicate OnLine(p: Point, features: seq<seq<Point>>) {
    exists f :: f in features && |f| >= 2 && p in f
  }

  /** What the inner loop of lines 85-90 knows after the first `i` segments
      of `coords`, started from `b`: the builder grew, those segments are
      joined, the positions they touch are interned, and no other edge was
      added. */
  ghost predicate LineSoFar(b: Builder, r: Builder, coords: seq<Point>, i: nat, distance: (Point, Point) -> real)
    requires i < |coords|
  {
    && Interned(r) && Grows(b, r)
    && (forall j :: 0 <= j < i ==> Linked(r, coords[j], coords[j + 1], distance(coords[j], coords[j + 1])))
    && (forall p :: p in r.ids <==> p in b.ids || (i > 0 && p in coords[..i + 1]))
    && (NonNegative(b.graph) && NonNegativeDistance(distance) ==> NonNegative(r.graph))
    && AddsUpTo(b, r, coords, i, distance)
  }

  /** One pass of the inner loop of lines 85-90: the segment from
      `coords[i]` to `coords[i + 1]`. */
  method ExtendLine(b: Builder, r: Builder, coords: seq<Point>, i: nat, distance: (Point, Point) -> real)
    returns (r': Builder)
    requires i < |coords| - 1 && LineSoFar(b, r, coords, i, distance)
    ensures LineSoFar(b, r', coords, i + 1, distance)
  {
    hide AddsUpTo, AddsSegment, SegmentEdge, Interned, Grows, Linked, NonNegative;
    r' := AddSegment(r, coords[i], coords[i + 1], distance(coords[i], coords[i + 1]));
    SegmentEdgesStep(b, r, r', coords, i, distance);
    LinkedStep(r, r', coords, i, distance);
    GrowsTransitive(b, r, r');
    LineIdsStep(b, r, r', coords, i);
  }

  /** The segments joined so far stay joined, and the new one is joined. */
  lemma {:induction false} LinkedStep(r: Builder, r': Builder, coords: seq<Point>, i: nat, distance: (Point, Point) -> real)
    requires i < |coords| - 1 && Grows(r, r')
    requires forall j :: 0 <= j < i ==> Linked(r, coords[j], coords[j + 1], distance(coords[j], coords[j + 1]))
    requires Linked(r', coords[i], coords[i + 1], distance(coords[i], coords[i + 1]))
    ensures forall j :: 0 <= j < i + 1 ==> Linked(r', coords[j], coords[j + 1], distance(coords[j], coords[j + 1]))
  {
    forall j | 0 <= j < i
      ensures Linked(r', coords[j], coords[j + 1], distance(coords[j], coords[j + 1]))
    {
      LinkedGrows(r, r', coords[j], coords[j + 1], distance(coords[j], coords[j + 1]));
    }
  }

  /** After the segment from `coords[i]`, the interned positions are the
      earlier ones and the first `i + 2` coordinates. */
  lemma {:induction false} LineIdsStep(b: Builder, r: Builder, r': Builder, coords: seq<Point>, i: nat)
    requires i < |coords| - 1
    requires forall p :: p in r.ids <==> p in b.ids || (i > 0 && p in coords[..i + 1])
    requires forall x :: x in r'.ids <==> x in r.ids || x == coords[i] || x == coords[i + 1]
    ensures forall p :: p in r'.ids <==> p in b.ids || p in coords[..i + 2]
  {
    PrefixMember(coords, i + 1);
    forall p
      ensures p in r'.ids <==> p in b.ids || p in coords[..i + 2]
    {
      assert coords[..i + 2][i] == coords[i] && coords[..i + 2][i + 1] == coords[i + 1];
      if i == 0 {
        assert coords[..1] == [coords[0]];
      }
    }
  }

  /** The inner loop of lines 85-90 over one feature's coordinates: every
      consecutive pair becomes a segment; a feature of fewer than two
      coordinates adds nothing. The line adds no edge but its segments'. */
  method AddLine(b: Builder, coords: seq<Point>, distance: (Point, Point) -> real) returns (r: Builder)
    requires Interned(b)
    ensures Interned(r) && Grows(b, r)
    ensures AllLinked(r, [coords], distance)
    ensures forall p :: p in r.ids <==> p in b.ids || OnLine(p, [coords])
    ensures NonNegative(b.graph) && NonNegativeDistance(distance) ==> NonNegative(r.graph)
    ensures AddsOnly(b, r, coords, distance)
  {
    r := b;
    if |coords| < 2 {
      return;
    }
    for i := 0 to |coords| - 1
      invariant LineSoFar(b, r, coords, i, distance)
    {
      r := ExtendLine(b, r, coords, i, distance);
    }
    assert coords[..|coords|] == coords;
    assert forall p :: OnLine(p, [coords]) <==> p in coords by {
      assert forall f :: f in [coords] <==> f == coords;
    }
  }

  /** One more segment of `f` keeps every edge drawn from `f` so far. */
  lemma {:induction false} SegmentEdgesStep(b: Builder, r: Builder, r': Builder, f: seq<Point>, i: nat,
                                            distance: (Point, Point) -> real)
    requires 0 <= i < |f| - 1 && Grows(r, r')
    requires AddsUpTo(b, r, f, i, distance) && AddsSegment(r, r', f[i], f[i + 1], distance(f[i], f[i + 1]))
    ensures AddsUpTo(b, r', f, i + 1, distance)
  {
    forall k, e | k in r'.graph.nodes && e in r'.graph.nodes[k].edges && !(k in b.graph.nodes && e in b.graph.nodes[k].edges)
      ensures exists j :: 0 <= j < i + 1 && j < |f| - 1 && SegmentEdge(r', f, j, distance, k, e)
    {
      if k in r.graph.nodes && e in r.graph.nodes[k].edges {
        var j :| 0 <= j < i && j < |f| - 1 && SegmentEdge(r, f, j, distance, k, e);
        assert SegmentEdge(r', f, j, distance, k, e);
      } else {
        assert SegmentEdge(r', f, i, distance, k, e);
      }
    }
  }

  /** A feature's edges added to a graph of earlier features' edges give a
      graph of all their edges. */
  lemma {:induction false} OnlySegmentsStep(b: Builder, b': Builder, fs: seq<seq<Point>>, f: seq<Point>,
                                            distance: (Point, Point) -> real)
    requires OnlySegments(b, fs, distance) && Grows(b, b') && AddsOnly(b, b', f, distance)
    ensures OnlySegments(b', fs + [f], distance)
  {
    forall k, e | k in b'.graph.nodes && e in b'.graph.nodes[k].edges
      ensures exists g, i :: g in fs + [f] && 0 <= i < |g| - 1 && SegmentEdge(b', g, i, distance, k, e)
    {
      if k in b.graph.nodes && e in b.graph.nodes[k].edges {
        var g, i :| g in fs && 0 <= i < |g| - 1 && SegmentEdge(b, g, i, distance, k, e);
        assert g in fs + [f] && SegmentEdge(b', g, i, distance, k, e);
      } else {
        var i :| 0 <= i < |f| - 1 && SegmentEdge(b', f, i, distance, k, e);
        assert f in fs + [f];
      }
    }
  }

  /** `loadPathGraph(url)` (lines 69-93) on the coordinate lists of the
      layer's features: node ids are `0 .. n-1` for the n distinct positions
      that lie on a feature of at least two coordinates, each node carries its
      position, every consecutive pair of a feature is joined both ways by an
      edge of its distance, every edge has its reverse, and there is no edge
      but those. */
  method LoadPathGraph(features: seq<seq<Point>>, distance: (Point, Point) -> real) returns (b: Builder)
    ensures Interned(b) && Keyed(b.graph) && Symmetric(b.graph)
    ensures AllLinked(b, features, distance)
    ensures forall p :: p in b.ids <==> OnLine(p, features)
    ensures NonNegativeDistance(distance) ==> NonNegative(b.graph)
    ensures OnlySegments(b, features, distance)
  {
    b := EmptyBuilder;
    EmptyInterned();
    for k := 0 to |features|
      invariant Interned(b)
      invariant AllLinked(b, features[..k], distance)
      invariant forall p :: p in b.ids <==> OnLine(p, features[..k])
      invariant NonNegativeDistance(distance) ==> NonNegative(b.graph)
      invariant OnlySegments(b, features[..k], distance)
    {
      var b' := AddLine(b, features[k], distance);
      OnlySegmentsStep(b, b', features[..k], features[k], distance);
      AllLinkedGrows(b, b', features[..k], distance);
      assert features[..k + 1] == features[..k] + [features[k]];
      OnLineAppend(features[..k], features[k]);
      AllLinkedAppend(b', features[..k], features[k], distance);
      b := b';
    }
    assert features[..|features|] == features;
    InternedKeyed(b);
  }

  lemma {:induction false} OnLineAppend(fs: seq<seq<Point>>, f: seq<Point>)
    ensures forall p :: OnLine(p, fs + [f]) <==> OnLine(p, fs) || OnLine(p, [f])
  {
    forall p | OnLine(p, fs + [f])
      ensures OnLine(p, fs) || OnLine(p, [f])
    {
      var g :| g in fs + [f] && |g| >= 2 && p in g;
      if g in fs {
        assert OnLine(p, fs);
      } else {
        assert g in [f];
      }
    }
    forall p | OnLine(p, fs) || OnLine(p, [f])
      ensures OnLine(p, fs + [f])
    {
      if OnLine(p, fs) {
        var g :| g in fs && |g| >= 2 && p in g;
        assert g in fs + [f];
      } else {
        assert f in fs + [f];
      }
    }
  }

  lemma {:induction false} AllLinkedAppend(b: Builder, fs: seq<seq<Point>>, f: seq<Point>, distance: (Point, Point) -> real)
    requires AllLinked(b, fs, distance) && AllLinked(b, [f], distance)
    ensures AllLinked(b, fs + [f], distance)
  {
    forall g, i | g in fs + [f] && 0 <= i < |g| - 1
      ensures Linked(b, g[i], g[i + 1], distance(g[i], g[i + 1]))
    {
      if g !in fs {
        assert g in [f];
      }
    }
  }
}

=== FILE: path_router.dfy ===
/** Shortest walks over the path graph (public/pathRouter.js): `dijkstra`
    (lines 29-62), `snapToGraph` (lines 96-107) and `routePathAware`
    (lines 109-125). Distances are reals with an explicit infinity; the
    rounding of floating-point sums is not modelled. */
module PathRouter {
  import opened Wrappers
  import opened Seqs
  import opened Geometry
  import opened PathGraph

  /** A tentative distance: a number or `Infinity`. */
  datatype Dist = Fin(d: real) | Inf

  /** `dist.get(u) + weight`: infinity stays infinity. */
  function Plus(a: Dist, w: real): Dist {
    if a.Inf? then Inf else Fin(a.d + w)
  }

  /** JavaScript's `<` between distances: nothing is below infinity. */
  predicate Lt(a: Dist, b: Dist) {
    a.Fin? && (b.Inf? || a.d < b.d)
  }

  predicate Le(a: Dist, b: Dist) {
    b.Inf? || (a.Fin? && a.d <= b.d)
  }

  // ---------------------------------------------------------------------------
  // Walks
  // ---------------------------------------------------------------------------

  /** A walk: a node and the edges taken from it, one after the other. */
  datatype Walk = Walk(from: nat, edges: seq<Edge>)

  /** The node reached after `i` edges. */
  function NodeAt(w: Walk, i: nat): nat
    requires i <= |w.edges|
  {
    if i == 0 then w.from else w.edges[i - 1].to
  }

  function Last(w: Walk): nat {
    NodeAt(w, |w.edges|)
  }

  ghost predicate IsWalk(g: Graph, w: Walk) {
    && (forall i :: 0 <= i <= |w.edges| ==> NodeAt(w, i) in g.nodes)
    && (forall i :: 0 <= i < |w.edges| ==> w.edges[i] in g.nodes[NodeAt(w, i)].edges)
  }

  /** The total weight of the edges. */
  function Weight(es: seq<Edge>): real {
    if es == [] then 0.0 else Weight(es[..|es| - 1]) + es[|es| - 1].weight
  }

  ghost predicate Reaches(g: Graph, start: nat, end: nat) {
    exists w :: IsWalk(g, w) && w.from == start && Last(w) == end
  }

  /** No walk from the same node to the same node weighs less. */
  ghost predicate Shortest(g: Graph, walk: Walk) {
    forall w :: IsWalk(g, w) && w.from == walk.from && Last(w) == Last(walk) ==> Weight(walk.edges) <= Weight(w.edges)
  }

  /** Dropping the last edge leaves a walk to the node before it. */
  lemma {:induction false} WalkPrefix(g: Graph, w: Walk)
    requires IsWalk(g, w) && |w.edges| > 0
    ensures var n := |w.edges|; var pre := Walk(w.from, w.edges[..n - 1]);
            && IsWalk(g, pre) && Last(pre) == NodeAt(w, n - 1)
            && w.edges[n - 1] in g.nodes[Last(pre)].edges && Last(w) == w.edges[n - 1].to
            && Weight(w.edges) == Weight(pre.edges) + w.edges[n - 1].weight
  {
    var n := |w.edges|;
    var pre := Walk(w.from, w.edges[..n - 1]);
    forall i | 0 <= i <= n - 1
      ensures NodeAt(pre, i) == NodeAt(w, i) && NodeAt(pre, i) in g.nodes
    {
      if i > 0 {
        assert pre.edges[i - 1] == w.edges[i - 1];
      }
    }
    forall i | 0 <= i < n - 1
      ensures pre.edges[i] in g.nodes[NodeAt(pre, i)].edges
    {
      assert pre.edges[i] == w.edges[i];
    }
  }

  /** Putting an edge in front of a walk from its target gives a walk. */
  lemma {:induction false} WalkCons(g: Graph, u: nat, e: Edge, w: Walk)
    requires u in g.nodes && e in g.nodes[u].edges && e.to == w.from && IsWalk(g, w)
    ensures IsWalk(g, Walk(u, [e] + w.edges)) && Last(Walk(u, [e] + w.edges)) == Last(w)
    ensures Weight([e] + w.edges) == e.weight + Weight(w.edges)
  {
    var w' := Walk(u, [e] + w.edges);
    assert forall i :: 1 <= i <= |w'.edges| ==> NodeAt(w', i) == NodeAt(w, i - 1);
    WeightCons(e, w.edges);
  }

  lemma {:induction false} WeightCons(e: Edge, es: seq<Edge>)
    ensures Weight([e] + es) == e.weight + Weight(es)
    decreases |es|
  {
    if es != [] {
      var n := |es|;
      assert ([e] + es)[..n] == [e] + es[..n - 1];
      WeightCons(e, es[..n - 1]);
    }
  }

  // ---------------------------------------------------------------------------
  // The search state and its invariant
  // ---------------------------------------------------------------------------

  /** `queue`, `dist` and `prev` of lines 30-32. The queue is a Set built from
      the node keys, so it iterates in their insertion order. */
  datatype Search = Search(queue: seq<nat>, dist: map<nat, Dist>, prev: map<nat, nat>)

  /** `prev[v]` was settled when it was recorded, at a finite distance, and
      `dist[v]` is that distance plus the weight `via[v]` of an edge from it
      to `v`; a settled `v` was settled after its predecessor. */
  ghost predicate Justified(g: Graph, st: Search, rank: map<nat, nat>, via: map<nat, real>, v: nat)
    requires v in st.prev
  {
    var p := st.prev[v];
    && v in g.nodes && v in st.dist && p in rank && p in g.nodes && p in st.dist && v in via
    && st.dist[p].Fin?
    && Edge(v, via[v]) in g.nodes[p].edges
    && st.dist[v] == Plus(st.dist[p], via[v])
    && (v in rank ==> rank[p] < rank[v])
  }

  /** The shape of the state after `rounds` extractions: the queue and the
      settled nodes (ranked by extraction) split the nodes; the start is at
      zero with no predecessor and is the first node settled; a node other
      than the start has a finite distance exactly when it has a
      predecessor. */
  ghost predicate Shape(g: Graph, start: nat, st: Search, rank: map<nat, nat>, via: map<nat, real>, rounds: nat) {
    Partition(g, st, rank, rounds) && StartState(g, start, st) && AllJustified(g, st, rank, via)
  }

  /** The queue and the ranked nodes split the nodes, and every node has a
      distance. */
  ghost predicate Partition(g: Graph, st: Search, rank: map<nat, nat>, rounds: nat) {
    && Distinct(st.queue)
    && (forall t :: 0 <= t < |st.queue| ==> st.queue[t] in g.nodes && st.queue[t] !in rank)
    && (forall v :: v in g.nodes ==> v in st.queue || v in rank)
    && (forall v :: v in rank ==> v in g.nodes && rank[v] < rounds)
    && (forall v :: v in st.dist <==> v in g.nodes)
    && rounds + |st.queue| == |g.order|
  }

  /** The start is at zero with no predecessor, and everything else is
      unreached while it is queued; apart from the start, a finite distance
      goes with a predecessor. */
  ghost predicate StartState(g: Graph, start: nat, st: Search) {
    && start in g.nodes && start in st.dist && st.dist[start] == Fin(0.0) && start !in st.prev
    && (start in st.queue ==> forall v :: v in g.nodes && v != start && v in st.dist ==> st.dist[v] == Inf)
    && (forall v :: v in g.nodes && v != start && v in st.dist ==> (st.dist[v].Fin? <==> v in st.prev))
  }

  ghost predicate AllJustified(g: Graph, st: Search, rank: map<nat, nat>, via: map<nat, real>) {
    forall v {:trigger Justified(g, st, rank, via, v)} :: v in st.prev ==> Justified(g, st, rank, via, v)
  }

  /** The edges out of the nodes in `done` have been relaxed: a queued target
      is no farther than through them. */
  ghost predicate Relaxed(g: Graph, st: Search, done: set<nat>) {
    forall s, e :: s in done && s in g.nodes && s in st.dist && e in g.nodes[s].edges && e.to in st.queue && e.to in st.dist ==>
      Le(st.dist[e.to], Plus(st.dist[s], e.weight))
  }

  /** A settled node's distance is no more than the weight of any walk to it. */
  ghost predicate Settled(g: Graph, start: nat, st: Search, rank: map<nat, nat>) {
    forall s, w :: s in rank && s in st.dist && IsWalk(g, w) && w.from == start && Last(w) == s ==>
      Le(st.dist[s], Fin(Weight(w.edges)))
  }

  // ---------------------------------------------------------------------------
  // Extraction
  // ---------------------------------------------------------------------------

  /** The queue's pairwise reduction that keeps the right-hand node unless
      the left one is strictly nearer: the position of a minimal distance,
      the last one among equals. */
  function LastMin(q: seq<nat>, dist: map<nat, Dist>): (i: nat)
    requires |q| > 0 && forall t :: 0 <= t < |q| ==> q[t] in dist
    ensures i < |q|
    ensures forall t :: 0 <= t < |q| ==> Le(dist[q[i]], dist[q[t]])
    ensures forall t :: i < t < |q| ==> Lt(dist[q[i]], dist[q[t]])
  {
    if |q| == 1 then 0
    else
      var a := LastMin(q[..|q| - 1], dist);
      if Lt(dist[q[a]], dist[q[|q| - 1]]) then a else |q| - 1
  }

  /** `queue.delete(u)` for the element at position `i`. */
  function RemoveAt(q: seq<nat>, i: nat): (r: seq<nat>)
    requires i < |q| && Distinct(q)
    ensures |r| == |q| - 1 && Distinct(r)
    ensures forall v :: v in r <==> v in q && v != q[i]
  {
    var r := q[..i] + q[i + 1..];
    assert forall a :: 0 <= a < |r| ==> r[a] == if a < i then q[a] else q[a + 1];
    assert forall v :: v in q ==> v == q[i] || v in r by {
      forall v | v in q
        ensures v == q[i] || v in r
      {
        var t :| 0 <= t < |q| && q[t] == v;
        if t < i {
          assert r[t] == v;
        } else if t > i {
          assert r[t - 1] == v;
        }
      }
    }
    r
  }

  /** A walk from the start that ends at a queued node weighs at least the
      smallest queued distance. */
  lemma {:induction false} WalkBound(g: Graph, start: nat, st: Search, rank: map<nat, nat>, m: Dist, w: Walk)
    requires NonNegative(g)
    requires forall v :: v in g.nodes ==> v in st.dist && (v in st.queue || v in rank)
    requires start in st.dist && st.dist[start] == Fin(0.0)
    requires Relaxed(g, st, rank.Keys) && Settled(g, start, st, rank)
    requires forall t :: 0 <= t < |st.queue| ==> st.queue[t] in st.dist && Le(m, st.dist[st.queue[t]])
    requires IsWalk(g, w) && w.from == start && Last(w) in st.queue
    ensures Le(m, Fin(Weight(w.edges)))
    decreases |w.edges|
  {
    if w.edges == [] {
      var t :| 0 <= t < |st.queue| && st.queue[t] == start;
    } else {
      var n := |w.edges|;
      var pre := Walk(start, w.edges[..n - 1]);
      var e := w.edges[n - 1];
      WalkPrefix(g, w);
      var x := Last(pre);
      var t :| 0 <= t < |st.queue| && st.queue[t] == e.to;
      if x in st.queue {
        WalkBound(g, start, st, rank, m, pre);
        assert e.weight >= 0.0;
      } else {
        assert x in rank;
        assert Le(st.dist[x], Fin(Weight(pre.edges)));
        assert Le(st.dist[e.to], Plus(st.dist[x], e.weight));
      }
    }
  }

  /** Taking the node of least distance out of the queue and ranking it keeps
      the shape; its distance is then final, and every other relaxed node
      stays relaxed. */
  lemma {:induction false} Extract(g: Graph, start: nat, st: Search, rank: map<nat, nat>, via: map<nat, real>, rounds: nat, i: nat)
    requires Shape(g, start, st, rank, via, rounds) && Relaxed(g, st, rank.Keys)
    requires NonNegative(g) ==> Settled(g, start, st, rank)
    requires i < |st.queue| && forall t :: 0 <= t < |st.queue| ==> Le(st.dist[st.queue[i]], st.dist[st.queue[t]])
    ensures var u := st.queue[i];
            var st' := st.(queue := RemoveAt(st.queue, i));
            var rank' := rank[u := rounds];
            && Shape(g, start, st', rank', via, rounds + 1)
            && Relaxed(g, st', rank.Keys)
            && (NonNegative(g) ==> Settled(g, start, st', rank'))
  {
    var st' := st.(queue := RemoveAt(st.queue, i));
    ExtractShape(g, start, st, rank, via, rounds, i);
    ExtractRelaxed(g, st, rank.Keys, i);
    if NonNegative(g) {
      ExtractSettled(g, start, st, rank, rounds, i);
      assert st'.dist == st.dist;
    }
  }

  /** Ranking the queued node of least distance keeps the shape. */
  lemma {:induction false} ExtractShape(g: Graph, start: nat, st: Search, rank: map<nat, nat>, via: map<nat, real>, rounds: nat, i: nat)
    requires Shape(g, start, st, rank, via, rounds)
    requires i < |st.queue| && forall t :: 0 <= t < |st.queue| ==> Le(st.dist[st.queue[i]], st.dist[st.queue[t]])
    ensures Shape(g, start, st.(queue := RemoveAt(st.queue, i)), rank[st.queue[i] := rounds], via, rounds + 1)
  {
    ExtractPartition(g, st, rank, rounds, i);
    ExtractStart(g, start, st, rank, rounds, i);
    ExtractJustified(g, st, rank, via, rounds, i);
  }

  lemma {:induction false} ExtractPartition(g: Graph, st: Search, rank: map<nat, nat>, rounds: nat, i: nat)
    requires Partition(g, st, rank, rounds) && i < |st.queue|
    ensures Partition(g, st.(queue := RemoveAt(st.queue, i)), rank[st.queue[i] := rounds], rounds + 1)
  {
    var u := st.queue[i];
    var q' := RemoveAt(st.queue, i);
    forall t | 0 <= t < |q'|
      ensures q'[t] in g.nodes && q'[t] !in rank[u := rounds]
    {
      assert q'[t] in st.queue;
      var s :| 0 <= s < |st.queue| && st.queue[s] == q'[t];
    }
  }

  /** Only the start can be least while it is queued, so taking the least
      node out leaves the start's facts as they were. */
  lemma {:induction false} ExtractStart(g: Graph, start: nat, st: Search, rank: map<nat, nat>, rounds: nat, i: nat)
    requires StartState(g, start, st) && Partition(g, st, rank, rounds) && i < |st.queue|
    requires forall t :: 0 <= t < |st.queue| ==> Le(st.dist[st.queue[i]], st.dist[st.queue[t]])
    ensures StartState(g, start, st.(queue := RemoveAt(st.queue, i)))
  {
    var u := st.queue[i];
    if start in st.queue {
      var t :| 0 <= t < |st.queue| && st.queue[t] == start;
      assert Le(st.dist[u], Fin(0.0));
      assert u == start;
    }
  }

  lemma {:induction false} ExtractJustified(g: Graph, st: Search, rank: map<nat, nat>, via: map<nat, real>, rounds: nat, i: nat)
    requires AllJustified(g, st, rank, via) && i < |st.queue| && Distinct(st.queue)
    requires forall v :: v in rank ==> rank[v] < rounds
    requires forall t :: 0 <= t < |st.queue| ==> st.queue[t] !in rank
    ensures AllJustified(g, st.(queue := RemoveAt(st.queue, i)), rank[st.queue[i] := rounds], via)
  {
    var st' := st.(queue := RemoveAt(st.queue, i));
    var rank' := rank[st.queue[i] := rounds];
    forall v | v in st'.prev
      ensures Justified(g, st', rank', via, v)
    {
      assert Justified(g, st, rank, via, v);
    }
  }

  /** Taking a node out of the queue keeps every relaxed edge relaxed. */
  lemma {:induction false} ExtractRelaxed(g: Graph, st: Search, done: set<nat>, i: nat)
    requires Relaxed(g, st, done) && i < |st.queue| && Distinct(st.queue)
    ensures Relaxed(g, st.(queue := RemoveAt(st.queue, i)), done)
  {
  }

  /** With weights that are not negative, the least queued distance is no
      more than any walk to that node. */
  lemma {:induction false} ExtractSettled(g: Graph, start: nat, st: Search, rank: map<nat, nat>, rounds: nat, i: nat)
    requires NonNegative(g)
    requires forall v :: v in g.nodes ==> v in st.dist && (v in st.queue || v in rank)
    requires start in st.dist && st.dist[start] == Fin(0.0)
    requires Relaxed(g, st, rank.Keys) && Settled(g, start, st, rank)
    requires i < |st.queue| && st.queue[i] in st.dist
    requires forall t :: 0 <= t < |st.queue| ==> st.queue[t] in st.dist && Le(st.dist[st.queue[i]], st.dist[st.queue[t]])
    ensures Settled(g, start, st, rank[st.queue[i] := rounds])
  {
    var u := st.queue[i];
    forall s, w | s in rank[u := rounds] && s in st.dist && IsWalk(g, w) && w.from == start && Last(w) == s
      ensures Le(st.dist[s], Fin(Weight(w.edges)))
    {
      if s == u {
        WalkBound(g, start, st, rank, st.dist[u], w);
      }
    }
  }

  // ---------------------------------------------------------------------------
  // Relaxation
  // ---------------------------------------------------------------------------

  /** Lines 43-50 for the node `u` just settled: every edge to a node still
      queued lowers that node's distance, and records `u` as its predecessor,
      when going through `u` is strictly shorter. Only queued nodes change. */
  method Relax(g: Graph, start: nat, u: nat, st: Search, ghost rank: map<nat, nat>, ghost via: map<nat, real>,
               ghost rounds: nat)
    returns (st': Search, ghost via': map<nat, real>)
    requires u in rank && u in g.nodes
    requires Shape(g, start, st, rank, via, rounds) && Relaxed(g, st, rank.Keys - {u})
    requires NonNegative(g) ==> Settled(g, start, st, rank)
    ensures st'.queue == st.queue
    ensures Shape(g, start, st', rank, via', rounds) && Relaxed(g, st', rank.Keys)
    ensures NonNegative(g) ==> Settled(g, start, st', rank)
    ensures Lowered(st, st')
  {
    st', via' := st, via;
    var edges := g.nodes[u].edges;
    assert u !in st.queue;
    for j := 0 to |edges|
      invariant st'.queue == st.queue
      invariant Shape(g, start, st', rank, via', rounds)
      invariant Lowered(st, st')
      invariant Relaxed(g, st', rank.Keys - {u})
      invariant RelaxedUpTo(st', edges, j, st.dist[u])
    {
      var before := st';
      st', via' := RelaxEdge(g, start, u, edges[j], st', rank, via', rounds);
      LoweredTransitive(st, before, st');
      RelaxedUpToStep(before, st', edges, j, st.dist[u]);
    }
    RelaxedAll(g, u, st', rank.Keys, st.dist[u]);
    if NonNegative(g) {
      SettledLowered(g, start, st, st', rank);
    }
  }

  /** One edge `e` out of the settled node `u`: the target, if still queued,
      takes the distance through `u` when that is strictly shorter. */
  method RelaxEdge(g: Graph, start: nat, u: nat, e: Edge, st: Search, ghost rank: map<nat, nat>,
                   ghost via: map<nat, real>, ghost rounds: nat)
    returns (st': Search, ghost via': map<nat, real>)
    requires u in rank && u in g.nodes && e in g.nodes[u].edges
    requires Shape(g, start, st, rank, via, rounds) && Relaxed(g, st, rank.Keys - {u})
    ensures st'.queue == st.queue
    ensures Shape(g, start, st', rank, via', rounds) && Relaxed(g, st', rank.Keys - {u})
    ensures Lowered(st, st')
    ensures e.to in st'.queue ==> Le(st'.dist[e.to], Plus(st.dist[u], e.weight))
    ensures forall v :: v in st.dist && v != e.to ==> st'.dist[v] == st.dist[v]
    ensures st' == st || (e.to in st.queue && Lt(Plus(st.dist[u], e.weight), st.dist[e.to])
                          && st' == Search(st.queue, st.dist[e.to := Plus(st.dist[u], e.weight)], st.prev[e.to := u]))
  {
    st', via' := st, via;
    if e.to in st.queue {
      var alt := Plus(st.dist[u], e.weight);
      if Lt(alt, st.dist[e.to]) {
        st' := Search(st.queue, st.dist[e.to := alt], st.prev[e.to := u]);
        via' := via[e.to := e.weight];
        RelaxStep(g, start, u, e, st, st', rank, via, via', rounds);
      }
    }
  }

  /** Distances only went down, and only for queued nodes. */
  ghost predicate Lowered(st: Search, st': Search) {
    && st'.dist.Keys == st.dist.Keys
    && forall v :: v in st.dist ==>
      v in st'.dist && Le(st'.dist[v], st.dist[v]) && (v !in st.queue ==> st'.dist[v] == st.dist[v])
  }

  lemma {:induction false} LoweredTransitive(a: Search, b: Search, c: Search)
    requires a.queue == b.queue && Lowered(a, b) && Lowered(b, c)
    ensures Lowered(a, c)
  {
  }

  /** The first `j` edges out of `u` (at distance `du`) have been relaxed. */
  ghost predicate RelaxedUpTo(st: Search, edges: seq<Edge>, j: nat, du: Dist) {
    forall t :: 0 <= t < j && t < |edges| && edges[t].to in st.queue && edges[t].to in st.dist ==>
      Le(st.dist[edges[t].to], Plus(du, edges[t].weight))
  }

  lemma {:induction false} RelaxedUpToStep(st: Search, st': Search, edges: seq<Edge>, j: nat, du: Dist)
    requires j < |edges| && st'.queue == st.queue && Lowered(st, st') && RelaxedUpTo(st, edges, j, du)
    requires edges[j].to in st'.queue && edges[j].to in st'.dist ==> Le(st'.dist[edges[j].to], Plus(du, edges[j].weight))
    ensures RelaxedUpTo(st', edges, j + 1, du)
  {
  }

  lemma {:induction false} RelaxedAll(g: Graph, u: nat, st: Search, done: set<nat>, du: Dist)
    requires u in g.nodes && u in st.dist && st.dist[u] == du
    requires Relaxed(g, st, done - {u}) && RelaxedUpTo(st, g.nodes[u].edges, |g.nodes[u].edges|, du)
    ensures Relaxed(g, st, done)
  {
    var edges := g.nodes[u].edges;
    forall s, e | s in done && s in g.nodes && s in st.dist && e in g.nodes[s].edges && e.to in st.queue && e.to in st.dist
      ensures Le(st.dist[e.to], Plus(st.dist[s], e.weight))
    {
      if s == u {
        var t :| 0 <= t < |edges| && edges[t] == e;
      }
    }
  }

  lemma {:induction false} SettledLowered(g: Graph, start: nat, st: Search, st': Search, rank: map<nat, nat>)
    requires Settled(g, start, st, rank) && Lowered(st, st')
    requires forall v :: v in rank ==> v in st.dist && v !in st.queue
    ensures Settled(g, start, st', rank)
  {
  }

  /** One strict improvement through `u` keeps the shape, lowers only the
      target's distance, and keeps the edges of the other settled nodes
      relaxed. */
  lemma {:induction false} RelaxStep(g: Graph, start: nat, u: nat, e: Edge, st: Search, st': Search, rank: map<nat, nat>,
                  via: map<nat, real>, via': map<nat, real>, rounds: nat)
    requires u in rank && u in g.nodes && e in g.nodes[u].edges && e.to in st.queue
    requires Shape(g, start, st, rank, via, rounds) && Relaxed(g, st, rank.Keys - {u})
    requires Lt(Plus(st.dist[u], e.weight), st.dist[e.to])
    requires st' == Search(st.queue, st.dist[e.to := Plus(st.dist[u], e.weight)], st.prev[e.to := u])
    requires via' == via[e.to := e.weight]
    ensures Shape(g, start, st', rank, via', rounds) && Relaxed(g, st', rank.Keys - {u})
    ensures Lowered(st, st')
  {
    var t :| 0 <= t < |st.queue| && st.queue[t] == e.to;
    assert e.to !in rank;
    assert e.to in g.nodes;
    assert Partition(g, st', rank, rounds);
    RelaxStart(g, start, u, e, st, st');
    RelaxJustified(g, u, e, st, st', rank, via, via');
    RelaxKeepsRelaxed(g, u, e, st, st', rank.Keys - {u});
  }

  /** The start is never a strictly improved target. */
  lemma {:induction false} RelaxStart(g: Graph, start: nat, u: nat, e: Edge, st: Search, st': Search)
    requires StartState(g, start, st) && u in st.dist && e.to in st.dist && e.to in g.nodes
    requires u in g.nodes && u !in st.queue && e.to in st.queue
    requires Lt(Plus(st.dist[u], e.weight), st.dist[e.to])
    requires st' == Search(st.queue, st.dist[e.to := Plus(st.dist[u], e.weight)], st.prev[e.to := u])
    ensures StartState(g, start, st')
  {
    assert st.dist[u].Fin?;
    assert e.to != start;
    assert start !in st.queue;
  }

  /** The improved target is justified by the edge from `u`, which was
      ranked before any queued node. */
  lemma {:induction false} RelaxJustified(g: Graph, u: nat, e: Edge, st: Search, st': Search, rank: map<nat, nat>,
                                          via: map<nat, real>, via': map<nat, real>)
    requires AllJustified(g, st, rank, via)
    requires u in rank && u in g.nodes && u in st.dist && e in g.nodes[u].edges && e.to in g.nodes && e.to in st.dist && e.to !in rank
    requires Lt(Plus(st.dist[u], e.weight), st.dist[e.to])
    requires st' == Search(st.queue, st.dist[e.to := Plus(st.dist[u], e.weight)], st.prev[e.to := u])
    requires via' == via[e.to := e.weight]
    ensures AllJustified(g, st', rank, via')
  {
    assert st.dist[u].Fin?;
    assert e == Edge(e.to, e.weight);
    forall v | v in st'.prev
      ensures Justified(g, st', rank, via', v)
    {
      if v != e.to {
        assert Justified(g, st, rank, via, v);
      }
    }
  }

  /** Lowering one queued distance keeps every relaxed edge relaxed. */
  lemma {:induction false} RelaxKeepsRelaxed(g: Graph, u: nat, e: Edge, st: Search, st': Search, done: set<nat>)
    requires Relaxed(g, st, done) && u in st.dist && e.to in st.dist && e.to in st.queue && e.to !in done
    requires Lt(Plus(st.dist[u], e.weight), st.dist[e.to])
    requires st' == Search(st.queue, st.dist[e.to := Plus(st.dist[u], e.weight)], st.prev[e.to := u])
    ensures Relaxed(g, st', done) && Lowered(st, st')
  {
  }

  // ---------------------------------------------------------------------------
  // Path reconstruction and the search
  // ---------------------------------------------------------------------------

  /** `path` lists the coordinates of the nodes along `walk`. */
  ghost predicate Traces(g: Graph, path: seq<Point>, walk: Walk)
    requires IsWalk(g, walk)
  {
    && |path| == |walk.edges| + 1
    && forall i :: 0 <= i <= |walk.edges| ==> path[i] == g.nodes[NodeAt(walk, i)].coord
  }

  /** The state of the walk back from `end`, at node `u` with the edges `es`
      and the coordinates `tail` collected so far. */
  ghost predicate Back(g: Graph, st: Search, end: nat, u: nat, es: seq<Edge>, tail: seq<Point>) {
    && (es == [] ==> u == end && tail == [])
    && (es != [] ==> && end in st.prev && u in g.nodes && IsWalk(g, Walk(u, es)) && Last(Walk(u, es)) == end
                     && u in st.dist && end in st.dist && st.dist[u].Fin? && st.dist[end] == Fin(st.dist[u].d + Weight(es))
                     && |tail| == |es|
                     && forall i :: 0 <= i < |es| ==> tail[i] == g.nodes[NodeAt(Walk(u, es), i + 1)].coord)
  }

  /** One step back along `prev` keeps the walk, its weight and its
      coordinates, and goes to a node settled earlier. */
  lemma {:induction false} BackStep(g: Graph, st: Search, rank: map<nat, nat>, via: map<nat, real>,
                 end: nat, u: nat, es: seq<Edge>, tail: seq<Point>)
    requires u in st.prev && u in rank && Justified(g, st, rank, via, u) && Back(g, st, end, u, es, tail)
    ensures u in g.nodes && u in via && st.prev[u] in rank && rank[st.prev[u]] < rank[u]
    ensures Back(g, st, end, st.prev[u], [Edge(u, via[u])] + es, [g.nodes[u].coord] + tail)
  {
    var p := st.prev[u];
    var e := Edge(u, via[u]);
    var w := Walk(u, es);
    var w' := Walk(p, [e] + es);
    var tail' := [g.nodes[u].coord] + tail;
    assert IsWalk(g, w') && Last(w') == end && Weight(w'.edges) == e.weight + Weight(es) by {
      assert IsWalk(g, w) by {
        if es == [] {
          assert forall i :: 0 <= i <= 0 ==> NodeAt(w, i) == u;
        }
      }
      WalkCons(g, p, e, w);
    }
    BackCoords(g, p, e, w, tail);
  }

  /** Putting the edge into `w.from` in front shifts the coordinates along
      the walk by one place. */
  lemma {:induction false} BackCoords(g: Graph, p: nat, e: Edge, w: Walk, tail: seq<Point>)
    requires e.to == w.from && e.to in g.nodes && |tail| == |w.edges| && IsWalk(g, Walk(p, [e] + w.edges))
    requires forall i :: 0 <= i < |w.edges| ==> NodeAt(w, i + 1) in g.nodes && tail[i] == g.nodes[NodeAt(w, i + 1)].coord
    ensures forall i :: 0 <= i <= |w.edges| ==>
              ([g.nodes[e.to].coord] + tail)[i] == g.nodes[NodeAt(Walk(p, [e] + w.edges), i + 1)].coord
  {
    forall i | 0 <= i <= |w.edges|
      ensures ([g.nodes[e.to].coord] + tail)[i] == g.nodes[NodeAt(Walk(p, [e] + w.edges), i + 1)].coord
    {
      if i > 0 {
        assert NodeAt(Walk(p, [e] + w.edges), i + 1) == NodeAt(w, i);
        assert ([g.nodes[e.to].coord] + tail)[i] == tail[i - 1];
      }
    }
  }

  /** Lines 53-61: follow `prev` back from `end`, putting each node's
      coordinate in front, then put the start's coordinate in front of all.
      When `end` has no predecessor the path is the start alone. */
  method Reconstruct(g: Graph, start: nat, end: nat, st: Search, ghost rank: map<nat, nat>,
                     ghost via: map<nat, real>, ghost rounds: nat)
    returns (path: seq<Point>, ghost walk: Walk)
    requires Shape(g, start, st, rank, via, rounds)
    requires end in st.prev ==> end in rank
    ensures IsWalk(g, walk) && walk.from == start && Traces(g, path, walk)
    ensures walk.edges != [] ==> Last(walk) == end
    ensures end !in st.prev ==> walk.edges == []
    ensures end in st.prev || end == start ==> Last(walk) == end && st.dist[end] == Fin(Weight(walk.edges))
    ensures |path| > 0 && path[0] == g.nodes[start].coord
    ensures end in st.prev ==> end in g.nodes && path[|path| - 1] == g.nodes[end].coord
  {
    var tail: seq<Point> := [];
    ghost var es: seq<Edge> := [];
    var u := end;
    while u in st.prev
      invariant Back(g, st, end, u, es, tail)
      invariant u in st.prev ==> u in rank
      decreases if u in rank then rank[u] + 1 else 0
    {
      assert Justified(g, st, rank, via, u);
      BackStep(g, st, rank, via, end, u, es, tail);
      tail := [g.nodes[u].coord] + tail;
      es := [Edge(u, via[u])] + es;
      u := st.prev[u];
    }
    path := [g.nodes[start].coord] + tail;
    walk := BackDone(g, start, st, end, u, es, tail);
  }

  /** The walk back stops at the start, or at once when `end` has no
      predecessor. */
  lemma {:induction false} BackDone(g: Graph, start: nat, st: Search, end: nat, u: nat, es: seq<Edge>, tail: seq<Point>)
    returns (walk: Walk)
    requires forall v :: v in g.nodes ==> v in st.dist
    requires start in g.nodes && st.dist[start] == Fin(0.0) && start !in st.prev
    requires forall v :: v in g.nodes && v != start ==> (st.dist[v].Fin? <==> v in st.prev)
    requires Back(g, st, end, u, es, tail) && u !in st.prev
    ensures walk == Walk(start, es)
    ensures IsWalk(g, walk) && Traces(g, [g.nodes[start].coord] + tail, walk)
    ensures walk.edges != [] ==> Last(walk) == end
    ensures end !in st.prev ==> walk.edges == []
    ensures end in st.prev || end == start ==> Last(walk) == end && st.dist[end] == Fin(Weight(walk.edges))
  {
    walk := Walk(start, es);
    var path := [g.nodes[start].coord] + tail;
    if es == [] {
      assert forall i :: 0 <= i <= 0 ==> NodeAt(walk, i) == start;
    } else {
      assert u == start;
      assert walk == Walk(u, es);
      forall i | 0 <= i <= |es|
        ensures path[i] == g.nodes[NodeAt(walk, i)].coord
      {
        if i > 0 {
          assert path[i] == tail[i - 1];
        }
      }
    }
  }

  /** The state before the first extraction. */
  lemma {:induction false} Initial(g: Graph, start: nat)
    requires Keyed(g) && start in g.nodes
    ensures var st := Search(g.order, (map v | v in g.nodes :: Inf)[start := Fin(0.0)], map[]);
            && Shape(g, start, st, map[], map[], 0) && Relaxed(g, st, {}) && Settled(g, start, st, map[])
  {
  }

  /** After the search, with weights that are not negative, an end that can
      be reached has a predecessor or is the start. */
  lemma {:induction false} Found(g: Graph, start: nat, end: nat, st: Search, rank: map<nat, nat>, via: map<nat, real>, rounds: nat)
    requires Shape(g, start, st, rank, via, rounds) && Settled(g, start, st, rank)
    requires end in g.nodes ==> end in rank
    requires Reaches(g, start, end)
    ensures end in st.prev || end == start
    ensures forall w :: IsWalk(g, w) && w.from == start && Last(w) == end ==> Le(st.dist[end], Fin(Weight(w.edges)))
  {
    var w :| IsWalk(g, w) && w.from == start && Last(w) == end;
    assert NodeAt(w, |w.edges|) in g.nodes;
    assert Le(st.dist[end], Fin(Weight(w.edges)));
  }

  /** Lines 30-51: the search loop, which stops once `end` is taken out of
      the queue or the queue is empty. Every node is then settled or still
      queued, `end` (when it is a node) is settled, and with weights that are
      not negative every settled distance is the least over all walks. */
  method RunSearch(g: Graph, start: nat, end: nat)
    returns (st: Search, ghost rank: map<nat, nat>, ghost via: map<nat, real>, ghost rounds: nat)
    requires Keyed(g) && start in g.nodes
    ensures Shape(g, start, st, rank, via, rounds)
    ensures NonNegative(g) ==> Settled(g, start, st, rank)
    ensures rounds <= |g.order|
    ensures end in g.nodes ==> end in rank
    ensures end !in g.nodes ==> rounds == |g.order|
    ensures start in st.dist && st.dist[start] == Fin(0.0) && start !in st.prev
    ensures end !in g.nodes ==> st.queue == []
  {
    st := Search(g.order, (map v | v in g.nodes :: Inf)[start := Fin(0.0)], map[]);
    rank, via, rounds := map[], map[], 0;
    Initial(g, start);
    while |st.queue| > 0
      invariant Shape(g, start, st, rank, via, rounds)
      invariant Relaxed(g, st, rank.Keys)
      invariant NonNegative(g) ==> Settled(g, start, st, rank)
      invariant end !in rank
      decreases |st.queue|
    {
      var u;
      st, u, rank, rounds := TakeMin(g, start, st, rank, via, rounds);
      if u == end {
        break;
      }
      st, via := Relax(g, start, u, st, rank, via, rounds);
    }
  }

  /** Lines 38-39: the queued node of least distance, the last among equals,
      leaves the queue and is settled. */
  method TakeMin(g: Graph, start: nat, st: Search, ghost rank: map<nat, nat>, ghost via: map<nat, real>,
                 ghost rounds: nat)
    returns (st': Search, u: nat, ghost rank': map<nat, nat>, ghost rounds': nat)
    requires |st.queue| > 0
    requires Shape(g, start, st, rank, via, rounds) && Relaxed(g, st, rank.Keys)
    requires NonNegative(g) ==> Settled(g, start, st, rank)
    ensures u in st.queue && u !in rank && u in g.nodes && u in rank'
    ensures forall t :: 0 <= t < |st.queue| ==> Le(st.dist[u], st.dist[st.queue[t]])
    ensures st'.dist == st.dist && st'.prev == st.prev
    ensures |st'.queue| == |st.queue| - 1 && forall v :: v in st'.queue <==> v in st.queue && v != u
    ensures rank'.Keys == rank.Keys + {u} && rounds' == rounds + 1
    ensures Shape(g, start, st', rank', via, rounds') && Relaxed(g, st', rank'.Keys - {u})
    ensures NonNegative(g) ==> Settled(g, start, st', rank')
  {
    var i := LastMin(st.queue, st.dist);
    u := st.queue[i];
    Extract(g, start, st, rank, via, rounds, i);
    st' := st.(queue := RemoveAt(st.queue, i));
    rank', rounds' := rank[u := rounds], rounds + 1;
    assert rank'.Keys - {u} == rank.Keys;
  }

  /** With weights that are not negative, a reachable end is reached by the
      walk back along `prev`, and no walk weighs less. */
  lemma {:induction false} Optimal(g: Graph, start: nat, end: nat, st: Search, rank: map<nat, nat>, via: map<nat, real>, rounds: nat,
                walk: Walk)
    requires Shape(g, start, st, rank, via, rounds) && Settled(g, start, st, rank)
    requires end in g.nodes ==> end in rank
    requires Reaches(g, start, end) && walk.from == start
    requires end in st.prev || end == start ==> Last(walk) == end && st.dist[end] == Fin(Weight(walk.edges))
    ensures Last(walk) == end && Shortest(g, walk)
  {
    Found(g, start, end, st, rank, via, rounds);
    forall w | IsWalk(g, w) && w.from == walk.from && Last(w) == Last(walk)
      ensures Weight(walk.edges) <= Weight(w.edges)
    {
      assert Le(st.dist[end], Fin(Weight(w.edges)));
    }
  }

  /** `dijkstra(startId, endId)` (lines 29-62): the coordinates along a walk
      from the start; a walk that goes anywhere goes to the end; and with
      weights that are not negative, when the end can be reached at all the
      walk reaches it and no walk between them weighs less. */
  method Dijkstra(g: Graph, start: nat, end: nat) returns (path: seq<Point>, ghost walk: Walk)
    requires Keyed(g) && start in g.nodes
    ensures LegPath(g, start, end, path, walk)
    ensures !Reaches(g, start, end) ==> path == [g.nodes[start].coord]
  {
    var st, rank, via, rounds := RunSearch(g, start, end);
    if end in st.prev {
      assert Justified(g, st, rank, via, end);
    }
    path, walk := Reconstruct(g, start, end, st, rank, via, rounds);
    if NonNegative(g) && Reaches(g, start, end) {
      Optimal(g, start, end, st, rank, via, rounds, walk);
    }
  }

  /** The leg from `a` to `b` is the path of `dijkstra(a, b)`: the
      coordinates along a walk from `a`; a walk that goes anywhere goes to
      `b`; and with weights that are not negative, when `b` can be reached at
      all the walk reaches it and no walk between them weighs less. */
  ghost predicate LegPath(g: Graph, a: nat, b: nat, path: seq<Point>, walk: Walk) {
    && IsWalk(g, walk) && walk.from == a && Traces(g, path, walk)
    && (walk.edges != [] ==> Last(walk) == b)
    && (NonNegative(g) && Reaches(g, a, b) ==> Last(walk) == b && Shortest(g, walk))
  }

  // ---------------------------------------------------------------------------
  // Snapping and routing
  // ---------------------------------------------------------------------------

  /** `id` is a node no farther from `c` than any other node. */
  ghost predicate Nearest(g: Graph, distance: (Point, Point) -> real, c: Point, id: nat) {
    id in g.nodes && forall v :: v in g.nodes ==> distance(c, g.nodes[id].coord) <= distance(c, g.nodes[v].coord)
  }

  /** `id` is the first node, in insertion order, at the least distance
      from `c`: a nearest node, and every node inserted before it is
      strictly farther. */
  ghost predicate FirstNearest(g: Graph, distance: (Point, Point) -> real, c: Point, id: nat) {
    && Keyed(g)
    && Nearest(g, distance, c, id)
    && exists k :: 0 <= k < |g.order| && g.order[k] == id
                   && forall t :: 0 <= t < k ==> distance(c, g.nodes[g.order[t]].coord) > distance(c, g.nodes[id].coord)
  }

  /** At most one node is the first nearest: the strict comparison of
      line 101 breaks every tie towards the earlier node. */
  lemma {:induction false} FirstNearestUnique(g: Graph, distance: (Point, Point) -> real, c: Point, a: nat, b: nat)
    requires FirstNearest(g, distance, c, a) && FirstNearest(g, distance, c, b)
    ensures a == b
  {
  }

  /** `snapToGraph` (lines 96-107): the first node, in insertion order, at
      the least distance from the point; none for an empty graph. */
  method SnapToGraph(c: Point, g: Graph, distance: (Point, Point) -> real) returns (nearest: Option<nat>, ghost k: nat)
    requires Keyed(g)
    ensures nearest.None? <==> |g.order| == 0
    ensures nearest.Some? ==> && k < |g.order| && g.order[k] == nearest.value && Nearest(g, distance, c, nearest.value)
                              && forall t :: 0 <= t < k ==> distance(c, g.nodes[g.order[t]].coord) > distance(c, g.nodes[nearest.value].coord)
    ensures nearest.Some? ==> FirstNearest(g, distance, c, nearest.value)
  {
    nearest, k := None, 0;
    var minDist := 0.0;
    for j := 0 to |g.order|
      invariant nearest.None? <==> j == 0
      invariant nearest.Some? ==> && k < j && g.order[k] == nearest.value && nearest.value in g.nodes
                                  && minDist == distance(c, g.nodes[nearest.value].coord)
                                  && (forall t :: 0 <= t < j ==> minDist <= distance(c, g.nodes[g.order[t]].coord))
                                  && (forall t :: 0 <= t < k ==> minDist < distance(c, g.nodes[g.order[t]].coord))
    {
      var id := g.order[j];
      var d := distance(c, g.nodes[id].coord);
      if nearest.None? || d < minDist {
        nearest, k, minDist := Some(id), j, d;
      }
    }
    if nearest.Some? {
      forall v | v in g.nodes
        ensures distance(c, g.nodes[nearest.value].coord) <= distance(c, g.nodes[v].coord)
      {
        var t :| 0 <= t < |g.order| && g.order[t] == v;
      }
    }
  }

  /** `routePathAware` (lines 109-125): every flyer point snaps to its
      first nearest node, and the line strings together the paths between
      consecutive
      snapped nodes. */
  method RoutePathAware(g: Graph, flyerCoords: seq<Point>, distance: (Point, Point) -> real)
    returns (line: seq<Point>, snapped: seq<Option<nat>>, ghost paths: seq<seq<Point>>, ghost walks: seq<Walk>)
    requires Keyed(g)
    requires |flyerCoords| >= 2 ==> |g.order| > 0
    ensures |snapped| == |flyerCoords|
    ensures forall i :: 0 <= i < |snapped| ==> (snapped[i].None? <==> |g.order| == 0)
    ensures forall i :: 0 <= i < |snapped| && snapped[i].Some? ==> FirstNearest(g, distance, flyerCoords[i], snapped[i].value)
    ensures |paths| == |walks| == if |flyerCoords| < 2 then 0 else |flyerCoords| - 1
    ensures line == Flatten(paths)
    ensures forall i :: 0 <= i < |paths| ==> LegPath(g, snapped[i].value, snapped[i + 1].value, paths[i], walks[i])
  {
    hide FirstNearest, LegPath;
    snapped := [];
    for j := 0 to |flyerCoords|
      invariant |snapped| == j
      invariant forall i :: 0 <= i < j ==> (snapped[i].None? <==> |g.order| == 0)
      invariant forall i :: 0 <= i < j && snapped[i].Some? ==> FirstNearest(g, distance, flyerCoords[i], snapped[i].value)
      invariant forall i :: 0 <= i < j && snapped[i].Some? ==> snapped[i].value in g.nodes
    {
      var s, _ := SnapToGraph(flyerCoords[j], g, distance);
      snapped := snapped + [s];
    }
    line, paths, walks := [], [], [];
    if |snapped| < 2 {
      return;
    }
    for j := 0 to |snapped| - 1
      invariant |paths| == |walks| == j
      invariant line == Flatten(paths)
      invariant forall i :: 0 <= i < j ==> LegPath(g, snapped[i].value, snapped[i + 1].value, paths[i], walks[i])
    {
      var path, walk := Dijkstra(g, snapped[j].value, snapped[j + 1].value);
      FlattenSnoc(paths, path);
      line, paths, walks := line + path, paths + [path], walks + [walk];
    }
  }
}

=== FILE: permutations.dfy ===
/** The `permute` helper inside `solveBruteForce` (public/solveTSP.js,
    lines 105-115): every ordering of a sequence, each exactly once. */
module Permutations {
  import opened Seqs

  function Factorial(n: nat): (r: nat)
    ensures r >= 1
  {
    if n == 0 then 1 else n * Factorial(n - 1)
  }

  /** `[...arr.slice(0, i), ...arr.slice(i + 1)]` */
  function RemoveAt<T>(s: seq<T>, i: nat): (r: seq<T>)
    requires i < |s|
    ensures |r| == |s| - 1
  {
    s[..i] + s[i + 1..]
  }

  /** `[v, ...p]` for every `p` of `ps`. */
  function PrependAll<T>(v: T, ps: seq<seq<T>>): (r: seq<seq<T>>)
    ensures |r| == |ps|
    ensures forall k :: 0 <= k < |ps| ==> r[k] == [v] + ps[k]
  {
    seq(|ps|, k requires 0 <= k < |ps| => [v] + ps[k])
  }

  /** `permute(arr)`: one element stays as it is; otherwise, for each
      position `i` in turn, `arr[i]` followed by each permutation of the rest.
      An empty input has no permutations at all. */
  function Permute<T>(arr: seq<T>): seq<seq<T>>
    decreases |arr|, 1
  {
    if |arr| == 1 then [arr] else PermuteEach(arr, 0)
  }

  /** The `forEach` of line 108 from position `i` on. */
  function PermuteEach<T>(arr: seq<T>, i: nat): seq<seq<T>>
    requires i <= |arr|
    decreases |arr|, 0, |arr| - i
  {
    if i == |arr| then [] else PrependAll(arr[i], Permute(RemoveAt(arr, i))) + PermuteEach(arr, i + 1)
  }

  lemma {:induction false} RemoveAtMultiset<T>(s: seq<T>, i: nat)
    requires i < |s|
    ensures multiset(s) == multiset{s[i]} + multiset(RemoveAt(s, i))
  {
    assert s == s[..i] + [s[i]] + s[i + 1..];
  }

  /** Every enumerated sequence is a rearrangement of the input. */
  lemma {:induction false} PermuteSound<T>(arr: seq<T>)
    ensures forall k :: 0 <= k < |Permute(arr)| ==> multiset(Permute(arr)[k]) == multiset(arr)
    decreases |arr|, 1
  {
    if |arr| != 1 {
      PermuteEachSound(arr, 0);
    }
  }

  lemma {:induction false} PermuteEachSound<T>(arr: seq<T>, i: nat)
    requires i <= |arr|
    ensures forall k :: 0 <= k < |PermuteEach(arr, i)| ==> multiset(PermuteEach(arr, i)[k]) == multiset(arr)
    decreases |arr|, 0, |arr| - i
  {
    if i < |arr| {
      var rest := RemoveAt(arr, i);
      PermuteSound(rest);
      RemoveAtMultiset(arr, i);
      PermuteEachSound(arr, i + 1);
      var block := PrependAll(arr[i], Permute(rest));
      forall k | 0 <= k < |block|
        ensures multiset(block[k]) == multiset(arr)
      {
        assert multiset(block[k]) == multiset{arr[i]} + multiset(Permute(rest)[k]);
      }
    }
  }

  /** There are n! of them for n >= 1. */
  lemma {:induction false} PermuteCount<T>(arr: seq<T>)
    requires |arr| >= 1
    ensures |Permute(arr)| == Factorial(|arr|)
    decreases |arr|, 1
  {
    if |arr| != 1 {
      PermuteEachCount(arr, 0);
    }
  }

  lemma {:induction false} PermuteEachCount<T>(arr: seq<T>, i: nat)
    requires 2 <= |arr| && i <= |arr|
    ensures |PermuteEach(arr, i)| == (|arr| - i) * Factorial(|arr| - 1)
    decreases |arr|, 0, |arr| - i
  {
    if i < |arr| {
      PermuteEachCount(arr, i + 1);
      PermuteCount(RemoveAt(arr, i));
      assert (|arr| - i) * Factorial(|arr| - 1) == Factorial(|arr| - 1) + (|arr| - i - 1) * Factorial(|arr| - 1);
    }
  }

  /** Every rearrangement of the input is enumerated. */
  lemma {:induction false} PermuteComplete<T>(arr: seq<T>, q: seq<T>)
    requires |arr| >= 1 && multiset(q) == multiset(arr)
    ensures q in Permute(arr)
    decreases |arr|
  {
    assert |q| == |multiset(q)| == |arr|;
    assert q[0] in multiset(arr);
    var i :| 0 <= i < |arr| && arr[i] == q[0];
    RemoveAtMultiset(arr, i);
    assert q == [q[0]] + q[1..];
    assert multiset(q) == multiset{q[0]} + multiset(q[1..]);
    var rest := RemoveAt(arr, i);
    assert multiset(q[1..]) == multiset(q) - multiset{q[0]};
    assert multiset(rest) == multiset(arr) - multiset{arr[i]};
    if |arr| == 1 {
      assert q == arr;
    } else {
      PermuteComplete(rest, q[1..]);
      var k :| 0 <= k < |Permute(rest)| && Permute(rest)[k] == q[1..];
      assert PrependAll(arr[i], Permute(rest))[k] == q;
      InPermuteEach(arr, 0, i, q);
    }
  }

  lemma {:induction false} InPermuteEach<T>(arr: seq<T>, j: nat, i: nat, x: seq<T>)
    requires j <= i < |arr|
    requires x in PrependAll(arr[i], Permute(RemoveAt(arr, i)))
    ensures x in PermuteEach(arr, j)
    decreases i - j
  {
    if j < i {
      InPermuteEach(arr, j + 1, i, x);
    }
  }

  /** For an input without repeats, nothing is enumerated twice. */
  lemma {:induction false} PermuteDistinct<T>(arr: seq<T>)
    requires Distinct(arr)
    ensures Distinct(Permute(arr))
    decreases |arr|, 1
  {
    if |arr| != 1 {
      PermuteEachDistinct(arr, 0);
    }
  }

  lemma {:induction false} RemoveAtDistinct<T>(arr: seq<T>, i: nat)
    requires Distinct(arr) && i < |arr|
    ensures Distinct(RemoveAt(arr, i))
  {
    var r := RemoveAt(arr, i);
    forall a, b | 0 <= a < b < |r|
      ensures r[a] != r[b]
    {
      var a' := if a < i then a else a + 1;
      var b' := if b < i then b else b + 1;
      assert r[a] == arr[a'] && r[b] == arr[b'];
    }
  }

  lemma {:induction false} PermuteEachDistinct<T>(arr: seq<T>, i: nat)
    requires Distinct(arr) && i <= |arr|
    ensures Distinct(PermuteEach(arr, i))
    ensures forall k :: 0 <= k < |PermuteEach(arr, i)| ==>
      |PermuteEach(arr, i)[k]| > 0 && exists t :: i <= t < |arr| && PermuteEach(arr, i)[k][0] == arr[t]
    decreases |arr|, 0, |arr| - i
  {
    if i < |arr| {
      var rest := RemoveAt(arr, i);
      RemoveAtDistinct(arr, i);
      PermuteDistinct(rest);
      PermuteEachDistinct(arr, i + 1);
      var block := PrependAll(arr[i], Permute(rest));
      var tail := PermuteEach(arr, i + 1);
      var all := block + tail;
      assert forall k :: 0 <= k < |block| ==> block[k][0] == arr[i];
      forall a, b | 0 <= a < b < |all|
        ensures all[a] != all[b]
      {
        if b < |block| {
          assert block[a] == [arr[i]] + Permute(rest)[a];
          assert block[b] == [arr[i]] + Permute(rest)[b];
          assert block[a][1..] == Permute(rest)[a];
          assert block[b][1..] == Permute(rest)[b];
        } else if a < |block| {
          assert all[b] == tail[b - |block|];
          var t :| i + 1 <= t < |arr| && tail[b - |block|][0] == arr[t];
          assert all[a][0] == arr[i];
        } else {
          assert all[a] == tail[a - |block|] && all[b] == tail[b - |block|];
        }
      }
      forall k | 0 <= k < |all|
        ensures |all[k]| > 0 && exists t :: i <= t < |arr| && all[k][0] == arr[t]
      {
        if k >= |block| {
          assert all[k] == tail[k - |block|];
          var t :| i + 1 <= t < |arr| && tail[k - |block|][0] == arr[t];
        }
      }
    }
  }
}

=== FILE: polyline.dfy ===
/** `decodeValhallaPolyline6` (public/js/route_solver_valhalla_leaflet.js,
    line 25): the Encoded Polyline Algorithm Format at 1e6 precision, at the
    integer level (before the division by 1e6). Each value is a varint of
    5-bit chunks, low chunk first, each chunk offset by 63 and carrying a
    continuation bit 0x20; the value is zig-zag signed and is a delta from
    the previous point. Latitude comes before longitude. The encoder is not
    part of the source; it is here as the decoder's inverse. */
module Polyline {
  import opened Geometry

  /** `encoded.charCodeAt(index) - 63` */
  function Chunk(c: char): int {
    c as int - 63
  }

  /** One do/while loop of line 25 on the front of `s`: the value read and the
      characters left. Reading past the end yields `NaN`, whose bits are all
      zero and which ends the loop. A chunk's low five bits are `byte & 0x1f`,
      which `% 32` computes for negative bytes too. */
  function ReadVarint(s: seq<char>): (r: (nat, seq<char>))
    ensures |r.1| <= |s| && (s != [] ==> |r.1| < |s|)
    decreases |s|
  {
    if s == [] then (0, [])
    else
      var b := Chunk(s[0]);
      if b >= 32 then
        var (v, rest) := ReadVarint(s[1..]);
        (b % 32 + 32 * v, rest)
      else (b % 32, s[1..])
  }

  /** Undoes the sign fold: an odd value is the negative number whose bit
      complement is half of it, an even value is half of itself. */
  function Unzigzag(v: nat): int {
    if v % 2 == 1 then -(v / 2) - 1 else v / 2
  }

  /** The outer loop from running totals `lat`, `lng`: a latitude delta, then a
      longitude delta, then one `[lng, lat]` point, until the input is used up. */
  function DecodeFrom(s: seq<char>, lat: int, lng: int): seq<Point>
    decreases |s|
  {
    if s == [] then []
    else
      var (dlat, s1) := ReadVarint(s);
      var lat' := lat + Unzigzag(dlat);
      var (dlng, s2) := ReadVarint(s1);
      var lng' := lng + Unzigzag(dlng);
      [Point(lng', lat')] + DecodeFrom(s2, lat', lng')
  }

  /** `decodeValhallaPolyline6(encoded)`, in micro-degrees. Every decoded
      integer pair is a valid coordinate, so the final filter keeps them all. */
  function Decode(s: seq<char>): (r: seq<Point>)
    ensures |r| <= |s|
    ensures forall i :: 0 <= i < |r| ==> IsValid(AsCoord(r[i]))
  {
    DecodeLength(s, 0, 0);
    DecodeFrom(s, 0, 0)
  }

  lemma {:induction false} DecodeLength(s: seq<char>, lat: int, lng: int)
    ensures |DecodeFrom(s, lat, lng)| <= |s|
    decreases |s|
  {
    if s != [] {
      var (dlat, s1) := ReadVarint(s);
      var (dlng, s2) := ReadVarint(s1);
      DecodeLength(s2, lat + Unzigzag(dlat), lng + Unzigzag(dlng));
    }
  }

  /** Zig-zag encoding of a signed delta. */
  function Zigzag(d: int): nat {
    if d >= 0 then 2 * d else -2 * d - 1
  }

  /** A value as chunks, low chunk first, all but the last with 0x20 set. */
  function EncodeVarint(v: nat): (r: seq<char>)
    ensures |r| > 0
    decreases v
  {
    if v < 32 then [(v + 63) as char]
    else [(v % 32 + 32 + 63) as char] + EncodeVarint(v / 32)
  }

  function EncodeFrom(ps: seq<Point>, lat: int, lng: int): seq<char>
    decreases |ps|
  {
    if ps == [] then []
    else EncodeVarint(Zigzag(ps[0].lat - lat)) + EncodeVarint(Zigzag(ps[0].lng - lng))
         + EncodeFrom(ps[1..], ps[0].lat, ps[0].lng)
  }

  function Encode(ps: seq<Point>): seq<char> {
    EncodeFrom(ps, 0, 0)
  }

  /** Zig-zag decoding undoes zig-zag encoding, and the two are inverse
      bijections between integers and naturals. */
  lemma {:induction false} ZigzagRoundTrip(d: int, v: nat)
    ensures Unzigzag(Zigzag(d)) == d
    ensures Zigzag(Unzigzag(v)) == v
  {
    if d >= 0 {
      assert Zigzag(d) == 2 * d && (2 * d) % 2 == 0 && (2 * d) / 2 == d;
    } else {
      assert Zigzag(d) == -2 * d - 1 && (-2 * d - 1) % 2 == 1 && (-2 * d - 1) / 2 == -d - 1;
    }
    if v % 2 == 1 {
      assert Unzigzag(v) == -(v / 2) - 1 && v == 2 * (v / 2) + 1;
    } else {
      assert Unzigzag(v) == v / 2 && v == 2 * (v / 2);
    }
  }

  /** The varint reader reads back exactly what the writer wrote, and leaves
      what follows untouched. */
  lemma {:induction false} ReadEncodedVarint(v: nat, rest: seq<char>)
    ensures ReadVarint(EncodeVarint(v) + rest) == (v, rest)
    decreases v
  {
    var s := EncodeVarint(v) + rest;
    if v < 32 {
      assert s[1..] == rest;
    } else {
      assert s[1..] == EncodeVarint(v / 32) + rest;
      ReadEncodedVarint(v / 32, rest);
    }
  }

  /** Decoding an encoding gives back the points, in order. */
  lemma {:induction false} DecodeEncodeFrom(ps: seq<Point>, lat: int, lng: int)
    ensures DecodeFrom(EncodeFrom(ps, lat, lng), lat, lng) == ps
    decreases |ps|
  {
    hide ReadVarint, EncodeVarint, Zigzag, Unzigzag;
    if ps != [] {
      var p := ps[0];
      var a, b := EncodeVarint(Zigzag(p.lat - lat)), EncodeVarint(Zigzag(p.lng - lng));
      var tail := EncodeFrom(ps[1..], p.lat, p.lng);
      var s := a + b + tail;
      assert s == a + (b + tail);
      ReadEncodedVarint(Zigzag(p.lat - lat), b + tail);
      ReadEncodedVarint(Zigzag(p.lng - lng), tail);
      ZigzagRoundTrip(p.lat - lat, 0);
      ZigzagRoundTrip(p.lng - lng, 0);
      assert DecodeFrom(s, lat, lng) == [Point(p.lng, p.lat)] + DecodeFrom(tail, p.lat, p.lng);
      DecodeEncodeFrom(ps[1..], p.lat, p.lng);
      assert ps == [Point(p.lng, p.lat)] + ps[1..];
    }
  }

  lemma {:induction false} DecodeEncode(ps: seq<Point>)
    ensures Decode(Encode(ps)) == ps
  {
    DecodeEncodeFrom(ps, 0, 0);
  }

  /** A stream that ends inside a longitude still yields its point: the
      missing value reads as zero, so the longitude repeats. */
  lemma {:induction false} TruncatedLongitude(lat: int, lng: int, p: Point)
    ensures DecodeFrom(EncodeVarint(Zigzag(p.lat - lat)), lat, lng) == [Point(lng, p.lat)]
  {
    var a := EncodeVarint(Zigzag(p.lat - lat));
    ReadEncodedVarint(Zigzag(p.lat - lat), []);
    assert a + [] == a;
    ZigzagRoundTrip(p.lat - lat, 0);
    assert ReadVarint([]) == (0, []);
    assert DecodeFrom([], p.lat, lng) == [];
  }
}

=== FILE: route_solver_valhalla.dfy ===
/** The dual-line planner of public/js/route_solver_valhalla_leaflet.js.

    The blue "delivery order" line visits every selected point: points are
    grouped by grid cell, the groups are ordered by a TSP over their
    centroids, each group's points are ordered by a TSP of their own, the
    concatenation is deduplicated and, when small enough, refined by a
    global 2-opt. The red "street traversal" line joins consecutive
    centroids by road, falling back to a straight line on a detour; an
    arrow marks the middle of each drawn leg, and sharp reversals of
    direction between legs get a U-turn marker.

    The routing engine is a parameter: `costMatrix(points)` is what
    `fetchValhallaCostMatrix` resolves to for those points (`None` for
    `null`), road routes and straight-line distances are given values, and
    bearings are a given function. */
module RouteSolverValhalla {
  import opened Wrappers
  import opened Seqs
  import opened Geometry
  import opened Grid
  import opened Dedup
  import opened TspCommon
  import SolveTsp
  import opened Legs

  /** The settings of lines 11-18, cell size in micro-degrees. */
  datatype Config = Config(
    twoOptPasses: int,
    detourFactor: real,
    minDirectDistance: real,
    cellSize: int,
    useDetourFallback: bool,
    maxPointsForGlobal2Opt: int)

  /** Lines 11-18 when nothing was configured beforehand (0.00225 degrees per cell). */
  const Defaults: Config := Config(5, 5.0, 50.0, 2250, true, 75)

  /** Which solver entry points the page has (`typeof window.solveGreedyTSP`
      and `typeof window.solve2Opt` being `'function'`). */
  datatype Solvers = Solvers(greedy: bool, twoOpt: bool)

  /** `tspMethodName === '2opt'` */
  predicate WantsTwoOpt(tspMethod: string) {
    tspMethod == "2opt"
  }

  // ---------------------------------------------------------------------------
  // Ordering within a cluster
  // ---------------------------------------------------------------------------

  /** `order` is a visiting order `solveClusterTSPWithValhalla` (line 32)
      can give a cluster's points, as indices: a permutation of them. A
      missing matrix, one with the wrong number of rows, or a missing greedy
      solver gives the identity order; otherwise it starts at the first
      point, is the greedy tour when the 2-opt does not run, and is always
      the greedy tour or strictly shorter than it. */
  ghost predicate ValhallaTspOrder(points: seq<Point>, tspMethod: string, matrix: Option<Matrix>,
                                   solvers: Solvers, order: seq<nat>) {
    && IsPermutation(order, |points|)
    && (matrix.None? || |matrix.value| != |points| || !solvers.greedy ==> order == Range(|points|))
    && (matrix.Some? && |matrix.value| == |points| && solvers.greedy && |points| > 0 ==> order[0] == 0)
    && (matrix.Some? && |matrix.value| == |points| && solvers.greedy && SolveTsp.PassesShapeCheck(matrix.value)
        && !(WantsTwoOpt(tspMethod) && |points| > 2 && solvers.twoOpt) ==>
          SolveTsp.IsGreedyTour(matrix.value, |points|, order))
    && (matrix.Some? && |matrix.value| == |points| && solvers.greedy && SolveTsp.PassesShapeCheck(matrix.value) ==>
          exists g: seq<nat> :: SolveTsp.IsGreedyTour(matrix.value, |points|, g)
                      && (order == g || Less(RouteLength(order, matrix.value), RouteLength(g, matrix.value))))
  }

  /** `solveClusterTSPWithValhalla` (line 32): the visiting order of a
      cluster's points as indices, the greedy tour refined by 2-opt for more
      than two points when asked for. The refined order always has the
      greedy order's length, so the length check never rejects it. */
  method SolveClusterTspWithValhalla(points: seq<Point>, tspMethod: string, matrix: Option<Matrix>,
                                     solvers: Solvers, config: Config)
    returns (order: seq<nat>)
    ensures ValhallaTspOrder(points, tspMethod, matrix, solvers, order)
  {
    var n := |points|;
    if matrix.None? || |matrix.value| != n || !solvers.greedy {
      return Range(n);
    }
    var m := matrix.value;
    var greedy := SolveTsp.GreedyTour(matrix);
    if !SolveTsp.PassesShapeCheck(m) {
      RangeIsPermutation(n);
    }
    order := greedy;
    if WantsTwoOpt(tspMethod) && n > 2 && solvers.twoOpt {
      var refined, passes := SolveTsp.Solve2Opt(points, greedy, matrix, Some(config.twoOptPasses), Some(config.twoOptPasses));
      if |refined| == |greedy| {
        PermutationOfPermutation(greedy, refined, n);
        order := refined;
      }
    }
  }

  lemma {:induction false} RangeIsPermutation(n: nat)
    ensures IsPermutation(Range(n), n)
  {
  }

  // ---------------------------------------------------------------------------
  // Ordering the clusters
  // ---------------------------------------------------------------------------

  /** Lines 57-79: the order in which the clusters are visited. With fewer than
      two centroids, no matrix or no greedy solver, the clusters keep their
      order; otherwise the greedy tour over the centroid matrix, refined by
      2-opt for more than two centroids when asked for. That tour ranges over
      the matrix's rows, so it is an order of the clusters exactly when the
      engine answered for every centroid. */
  method OrderClusters(clusters: seq<seq<Point>>, tspMethod: string, costMatrix: seq<Point> -> Option<Matrix>,
                       solvers: Solvers, config: Config)
    returns (order: seq<nat>)
    ensures var cs := Centroids(clusters);
            |cs| < 2 || costMatrix(cs).None? || !solvers.greedy ==> order == Range(|clusters|)
    ensures var cs := Centroids(clusters);
            IsPermutation(order, |clusters|) || (costMatrix(cs).Some? && IsPermutation(order, |costMatrix(cs).value|))
    ensures var cs := Centroids(clusters);
            costMatrix(cs).Some? && |costMatrix(cs).value| == |clusters| ==> IsPermutation(order, |clusters|)
    ensures var cs := Centroids(clusters);
            |cs| >= 2 && costMatrix(cs).Some? && solvers.greedy && !SolveTsp.PassesShapeCheck(costMatrix(cs).value) ==>
              order == Range(|costMatrix(cs).value|)
    ensures var cs := Centroids(clusters);
            |cs| >= 2 && costMatrix(cs).Some? && solvers.greedy && SolveTsp.PassesShapeCheck(costMatrix(cs).value)
            && !(WantsTwoOpt(tspMethod) && solvers.twoOpt && |cs| > 2) ==>
              SolveTsp.IsGreedyTour(costMatrix(cs).value, |costMatrix(cs).value|, order)
    ensures var cs := Centroids(clusters);
            |cs| >= 2 && costMatrix(cs).Some? && solvers.greedy && SolveTsp.PassesShapeCheck(costMatrix(cs).value) ==>
              var m := costMatrix(cs).value;
              exists g: seq<nat> :: SolveTsp.IsGreedyTour(m, |m|, g)
                && (order == g || Less(RouteLength(order, m), RouteLength(g, m)))
  {
    var centroids := Centroids(clusters);
    order := Range(|clusters|);
    RangeIsPermutation(|clusters|);
    if |centroids| < 2 || costMatrix(centroids).None? || !solvers.greedy {
      return;
    }
    var matrix := costMatrix(centroids);
    var m := matrix.value;
    var initial := SolveTsp.GreedyTour(matrix);
    if !SolveTsp.PassesShapeCheck(m) {
      RangeIsPermutation(|m|);
    }
    order := initial;
    if WantsTwoOpt(tspMethod) && solvers.twoOpt && |centroids| > 2 {
      var refined, passes := SolveTsp.Solve2Opt(centroids, initial, matrix, Some(config.twoOptPasses), Some(config.twoOptPasses));
      if |refined| == |initial| {
        PermutationOfPermutation(initial, refined, |m|);
        order := refined;
      }
    }
  }

  // ---------------------------------------------------------------------------
  // The blue line
  // ---------------------------------------------------------------------------

  /** Visiting every cluster once gathers every clustered point. */
  lemma {:induction false} EveryClusterOnce(clusters: seq<seq<Point>>, clusterOrder: seq<nat>)
    requires IsPermutation(clusterOrder, |clusters|)
    ensures multiset(FlatMap(clusterOrder, ClusterAt(clusters))) == multiset(Flatten(clusters))
  {
    PermutationMultiset(clusterOrder, |clusters|);
    FlatMapRearranged(clusterOrder, Range(|clusters|), ClusterAt(clusters));
    ClustersInOrder(clusters, |clusters|);
    assert clusters[..|clusters|] == clusters;
  }

  /** Lines 82-94 for one index of the cluster order: nothing for an index
      with no cluster or an empty one, a single point as it is, and more
      points in the order `solveClusterTSPWithValhalla` gives them, which
      rearranges them and starts at the first. */
  /** `part` is what the cluster at `idx` contributes to the line: a
      rearrangement of its points that starts at its first, the cluster
      itself when it has at most one point. */
  ghost predicate IsBlock(clusters: seq<seq<Point>>, idx: nat, part: seq<Point>) {
    var c := ClusterAt(clusters)(idx);
    && multiset(part) == multiset(c)
    && (|part| > 0 ==> |c| > 0 && part[0] == c[0])
    && (|c| <= 1 ==> part == c)
  }

  /** A cluster of more than one point contributes its points taken in a
      visiting order `solveClusterTSPWithValhalla` can give them. */
  ghost predicate IsTspBlock(clusters: seq<seq<Point>>, idx: nat, part: seq<Point>, tspMethod: string,
                             costMatrix: seq<Point> -> Option<Matrix>, solvers: Solvers) {
    var c := ClusterAt(clusters)(idx);
    |c| > 1 ==> exists intra: seq<nat> :: ValhallaTspOrder(c, tspMethod, costMatrix(c), solvers, intra) && part == Pick(c, intra)
  }

  method ClusterBlock(clusters: seq<seq<Point>>, idx: nat, tspMethod: string,
                      costMatrix: seq<Point> -> Option<Matrix>, solvers: Solvers, config: Config)
    returns (part: seq<Point>, ghost intra: seq<nat>)
    ensures IsBlock(clusters, idx, part)
    ensures var c := ClusterAt(clusters)(idx);
            |c| > 1 ==> ValhallaTspOrder(c, tspMethod, costMatrix(c), solvers, intra) && part == Pick(c, intra)
    ensures IsTspBlock(clusters, idx, part, tspMethod, costMatrix, solvers)
  {
    part, intra := [], [];
    if idx < |clusters| && |clusters[idx]| > 0 {
      var c := clusters[idx];
      part := c;
      if |c| > 1 {
        var tspOrder := SolveClusterTspWithValhalla(c, tspMethod, costMatrix(c), solvers, config);
        intra := tspOrder;
        PickPermutation(c, intra);
        PickHead(c, intra);
        part := Pick(c, tspOrder);
      }
    }
  }

  /** Blocks that rearrange the clusters in `clusterOrder` rearrange their
      concatenation. */
  lemma {:induction false} BlocksRearrangeClusters(clusters: seq<seq<Point>>, clusterOrder: seq<nat>, parts: seq<seq<Point>>)
    requires |parts| == |clusterOrder|
    requires forall t :: 0 <= t < |parts| ==> IsBlock(clusters, clusterOrder[t], parts[t])
    ensures multiset(Flatten(parts)) == multiset(FlatMap(clusterOrder, ClusterAt(clusters)))
    decreases |parts|
  {
    if parts != [] {
      assert forall t :: 0 <= t < |parts| - 1 ==> parts[1..][t] == parts[t + 1] && clusterOrder[1..][t] == clusterOrder[t + 1];
      BlocksRearrangeClusters(clusters, clusterOrder[1..], parts[1..]);
      assert IsBlock(clusters, clusterOrder[0], parts[0]);
    }
  }

  /** Lines 80-97: each cluster's points in the order
      `solveClusterTSPWithValhalla` gives them, the clusters taken in
      `clusterOrder`; an index with no cluster, or an empty cluster,
      contributes nothing. `parts[t]` is what the cluster at `clusterOrder[t]`
      contributes: a rearrangement of its points that starts at its first,
      the cluster itself when it has one point, and for more points the
      points taken in an order `solveClusterTSPWithValhalla` can give them.
      The result is those parts concatenated in that order. */
  method HierarchicalOrder(clusters: seq<seq<Point>>, clusterOrder: seq<nat>, tspMethod: string,
                           costMatrix: seq<Point> -> Option<Matrix>, solvers: Solvers, config: Config)
    returns (points: seq<Point>, ghost parts: seq<seq<Point>>)
    ensures |parts| == |clusterOrder| && points == Flatten(parts)
    ensures forall t :: 0 <= t < |parts| ==> IsBlock(clusters, clusterOrder[t], parts[t])
    ensures forall t :: 0 <= t < |parts| ==> IsTspBlock(clusters, clusterOrder[t], parts[t], tspMethod, costMatrix, solvers)
    ensures multiset(points) == multiset(FlatMap(clusterOrder, ClusterAt(clusters)))
    ensures IsPermutation(clusterOrder, |clusters|) ==> multiset(points) == multiset(Flatten(clusters))
  {
    hide IsBlock, IsTspBlock, ValhallaTspOrder, Pick;
    points, parts := [], [];
    for t := 0 to |clusterOrder|
      invariant |parts| == t && points == Flatten(parts)
      invariant forall s :: 0 <= s < t ==> IsBlock(clusters, clusterOrder[s], parts[s])
      invariant forall s :: 0 <= s < t ==> IsTspBlock(clusters, clusterOrder[s], parts[s], tspMethod, costMatrix, solvers)
    {
      var part, _ := ClusterBlock(clusters, clusterOrder[t], tspMethod, costMatrix, solvers, config);
      FlattenSnoc(parts, part);
      ghost var before := parts;
      points := points + part;
      parts := parts + [part];
      assert forall s :: 0 <= s < t ==> parts[s] == before[s];
    }
    BlocksRearrangeClusters(clusters, clusterOrder, parts);
    if IsPermutation(clusterOrder, |clusters|) {
      EveryClusterOnce(clusters, clusterOrder);
    }
  }

  /** The gate of lines 116-119 and 122 for the global 2-opt. */
  predicate GlobalGate(n: nat, tspMethod: string, solvers: Solvers, config: Config) {
    3 <= n <= config.maxPointsForGlobal2Opt && WantsTwoOpt(tspMethod) && solvers.twoOpt
  }

  /** Lines 113-133: the global 2-opt over the whole order, started from the
      identity. It asks for `TSP_2OPT_PASSES + 2` passes, but
      `solve2Opt` of public/js/solveTSP.js takes the configured value
      whenever the override is truthy, so at most `TSP_2OPT_PASSES` passes
      run. The result takes the points in `order`, a permutation of them
      that keeps the first first; with the matrix at hand it is the
      identity or strictly shorter under it, and it admits no improving
      swap when the passes stopped before the limit. */
  method GlobalTwoOpt(points: seq<Point>, tspMethod: string, costMatrix: seq<Point> -> Option<Matrix>,
                      solvers: Solvers, config: Config)
    returns (result: seq<Point>, passes: nat, ghost order: seq<nat>)
    ensures IsPermutation(order, |points|) && result == Pick(points, order)
    ensures !GlobalGate(|points|, tspMethod, solvers, config) || costMatrix(points).None? ==>
              result == points && passes == 0 && order == Range(|points|)
    ensures multiset(result) == multiset(points)
    ensures |points| > 0 ==> |result| > 0 && result[0] == points[0]
    ensures passes <= if config.twoOptPasses > 0 then config.twoOptPasses else 0
    ensures GlobalGate(|points|, tspMethod, solvers, config) && costMatrix(points).Some? ==>
              var m := costMatrix(points).value;
              order == Range(|points|) || Less(RouteLength(order, m), RouteLength(Range(|points|), m))
    ensures GlobalGate(|points|, tspMethod, solvers, config) && costMatrix(points).Some?
            && |costMatrix(points).value| == |points| && |costMatrix(points).value[0]| == |points|
            && passes < (if config.twoOptPasses > 0 then config.twoOptPasses else 0) ==>
              SolveTsp.LocallyOptimal(order, costMatrix(points).value)
  {
    result, passes, order := points, 0, Range(|points|);
    RangeIsPermutation(|points|);
    PickIdentity(points, |points|);
    assert points[..|points|] == points;
    if !GlobalGate(|points|, tspMethod, solvers, config) || costMatrix(points).None? {
      return;
    }
    var n := |points|;
    var initial := Range(n);
    var best;
    best, passes := SolveTsp.Solve2Opt(points, initial, costMatrix(points),
                                       Some(config.twoOptPasses + 2), Some(config.twoOptPasses));
    order := best;
    PermutationOfPermutation(initial, order, n);
    PickPermutation(points, order);
    result := Pick(points, best);
    assert result[0] == points[0] by {
      PickHead(points, order);
    }
  }

  /** Whatever order the clusters are taken in, only clustered positions,
      that is valid input positions, come out. */
  lemma {:induction false} OrderedWithinInput(coords: seq<Coord>, cellSize: int, clusterOrder: seq<nat>, ordered: seq<Point>)
    requires cellSize != 0
    requires multiset(ordered) == multiset(FlatMap(clusterOrder, ClusterAt(ClusterByGrid(coords, cellSize))))
    ensures forall p :: p in ordered ==> p in ValidPoints(coords)
  {
    var clusters := ClusterByGrid(coords, cellSize);
    forall p | p in ordered
      ensures p in ValidPoints(coords)
    {
      assert p in multiset(ordered);
      FlatMapMember(clusterOrder, ClusterAt(clusters), p);
      var t :| 0 <= t < |clusterOrder| && p in ClusterAt(clusters)(clusterOrder[t]);
      ClusterMemberValid(coords, cellSize, clusterOrder[t], p);
    }
  }

  /** Taking every cluster once takes every valid input position. */
  lemma {:induction false} OrderedCoversInput(coords: seq<Coord>, cellSize: int, ordered: seq<Point>)
    requires cellSize != 0
    requires multiset(ordered) == multiset(Flatten(ClusterByGrid(coords, cellSize)))
    ensures forall p :: p in ValidPoints(coords) ==> p in ordered
  {
    var clusters := ClusterByGrid(coords, cellSize);
    ClusterByGridPartition(coords, cellSize);
    forall p | p in ValidPoints(coords)
      ensures p in ordered
    {
      var k :| 0 <= k < |clusters| && p in clusters[k];
      FlattenMember(clusters, k, p);
      assert p in multiset(ordered);
    }
  }

  /** The centroid matrix is missing or has one row per cluster. */
  ghost predicate CentroidsAnswered(clusters: seq<seq<Point>>, costMatrix: seq<Point> -> Option<Matrix>) {
    var cs := Centroids(clusters);
    costMatrix(cs).None? || |costMatrix(cs).value| == |clusters|
  }

  /** Section 1 of `planRouteWithValhalla` (lines 45-133): the order of the
      blue line. The clusters' ordered blocks (`parts`, taken in
      `clusterOrder`, each in an order `solveClusterTSPWithValhalla` can
      give) are concatenated and deduplicated by first occurrence;
      unless the global 2-opt runs, that is the line, and otherwise the line
      rearranges it keeping its first point. The line never repeats a
      position and only visits valid input positions; unless the centroid
      matrix came back with the wrong number of rows, `clusterOrder` takes
      every cluster once and the line visits every valid input position.
      With fewer than two inputs nothing is planned. */
  method BlueLine(coords: seq<Coord>, tspMethod: string, costMatrix: seq<Point> -> Option<Matrix>,
                  solvers: Solvers, config: Config)
    returns (line: seq<Point>, ghost clusterOrder: seq<nat>, ghost parts: seq<seq<Point>>)
    requires config.cellSize != 0
    ensures |coords| < 2 ==> line == []
    ensures Distinct(line)
    ensures forall p :: p in line ==> p in ValidPoints(coords)
    ensures |coords| >= 2 ==>
              var clusters := ClusterByGrid(coords, config.cellSize);
              && |parts| == |clusterOrder|
              && (forall t :: 0 <= t < |parts| ==> IsBlock(clusters, clusterOrder[t], parts[t]))
              && (forall t :: 0 <= t < |parts| ==> IsTspBlock(clusters, clusterOrder[t], parts[t], tspMethod, costMatrix, solvers))
              && (CentroidsAnswered(clusters, costMatrix) ==> IsPermutation(clusterOrder, |clusters|))
    ensures |coords| >= 2 ==>
              var unique := UniquePoints(Flatten(parts));
              && multiset(line) == multiset(unique)
              && (|unique| > 0 ==> |line| > 0 && line[0] == unique[0])
              && (!GlobalGate(|unique|, tspMethod, solvers, config) || costMatrix(unique).None? ==> line == unique)
    ensures |coords| >= 2 && CentroidsAnswered(ClusterByGrid(coords, config.cellSize), costMatrix) ==>
              forall p :: p in ValidPoints(coords) ==> p in line
  {
    clusterOrder, parts := [], [];
    if |coords| < 2 {
      return [], clusterOrder, parts;
    }
    var clusters := ClusterByGrid(coords, config.cellSize);
    var order := OrderClusters(clusters, tspMethod, costMatrix, solvers, config);
    clusterOrder := order;
    var ordered;
    ordered, parts := HierarchicalOrder(clusters, order, tspMethod, costMatrix, solvers, config);
    OrderedWithinInput(coords, config.cellSize, order, ordered);
    var unique := UniquePoints(ordered);
    var passes;
    ghost var globalOrder;
    line, passes, globalOrder := GlobalTwoOpt(unique, tspMethod, costMatrix, solvers, config);
    DistinctRearranged(unique, line);
    assert forall p :: p in line <==> p in unique by {
      assert forall p :: p in line <==> p in multiset(unique);
    }
    if CentroidsAnswered(clusters, costMatrix) {
      OrderedCoversInput(coords, config.cellSize, ordered);
    }
  }

  // ---------------------------------------------------------------------------
  // The red line
  // ---------------------------------------------------------------------------

  /** Lines 153-156 over indices that all name a cluster: the centroid of
      each visited cluster, in visiting order, skipping a cluster with no
      valid point. */
  function Waypoints(clusters: seq<seq<Point>>, clusterOrder: seq<nat>): (r: seq<Point>)
    requires forall t :: 0 <= t < |clusterOrder| ==> clusterOrder[t] < |clusters|
    ensures |r| <= |clusterOrder|
    ensures (forall k :: 0 <= k < |clusters| ==> |clusters[k]| > 0) ==>
              |r| == |clusterOrder|
              && forall t :: 0 <= t < |r| ==> Some(r[t]) == Centroid(AsCoords(clusters[clusterOrder[t]]))
  {
    if clusterOrder == [] then []
    else
      var c := Centroid(AsCoords(clusters[clusterOrder[0]]));
      ValidPointsOfPoints(clusters[clusterOrder[0]]);
      (if c.Some? then [c.value] else []) + Waypoints(clusters, clusterOrder[1..])
  }

  /** Lines 151-158: the red line's waypoints. With no clusters or an empty
      order there are none; an index past the end reads `undefined` at line
      154, and `.filter` on it at line 155 throws, which is `None`. */
  function StreetWaypoints(clusters: seq<seq<Point>>, clusterOrder: seq<nat>): (r: Option<seq<Point>>)
    ensures r.None? <==> |clusters| > 0 && exists t :: 0 <= t < |clusterOrder| && clusterOrder[t] >= |clusters|
    ensures |clusters| == 0 ==> r == Some([])
    ensures r.Some? ==> |r.value| <= |clusterOrder|
    ensures r.Some? && |clusters| > 0 && (forall k :: 0 <= k < |clusters| ==> |clusters[k]| > 0) ==>
              |r.value| == |clusterOrder|
              && forall t :: 0 <= t < |r.value| ==> Some(r.value[t]) == Centroid(AsCoords(clusters[clusterOrder[t]]))
  {
    if |clusters| == 0 || |clusterOrder| == 0 then Some([])
    else if exists t :: 0 <= t < |clusterOrder| && clusterOrder[t] >= |clusters| then None
    else Some(Waypoints(clusters, clusterOrder))
  }

  /** Each waypoint lies in the bounding box of the cluster it stands for. */
  lemma {:induction false} WaypointsInClusterBox(clusters: seq<seq<Point>>, clusterOrder: seq<nat>, t: nat)
    requires StreetWaypoints(clusters, clusterOrder).Some? && |clusters| > 0
    requires forall k :: 0 <= k < |clusters| ==> |clusters[k]| > 0
    requires t < |clusterOrder|
    ensures clusterOrder[t] < |clusters|
    ensures Between(Lngs(clusters[clusterOrder[t]]), StreetWaypoints(clusters, clusterOrder).value[t].lng)
    ensures Between(Lats(clusters[clusterOrder[t]]), StreetWaypoints(clusters, clusterOrder).value[t].lat)
  {
    var c := clusters[clusterOrder[t]];
    ValidPointsOfPoints(c);
    CentroidInBox(AsCoords(c));
  }

  /** Lines 175-191: the path drawn between consecutive waypoints `a` and
      `b`: the straight segment unless the engine returned a road of at
      least two positions; that road unless the configured detour check is
      on, the straight distance is known and above the configured minimum,
      and the road is more than the configured factor times longer. */
  function RedSegment(a: Point, b: Point, route: Option<RouteResult>, direct: Option<real>, config: Config)
    : (r: seq<Point>)
    ensures |r| >= 2
    ensures r == [a, b] || (route.Some? && r == route.value.geometry)
    ensures route.None? || |route.value.geometry| < 2 ==> r == [a, b]
    ensures route.Some? && |route.value.geometry| >= 2 ==>
              var detour := config.useDetourFallback && direct.Some? && direct.value > config.minDirectDistance
                            && route.value.distance > direct.value * config.detourFactor;
              (detour ==> r == [a, b]) && (!detour ==> r == route.value.geometry)
  {
    ChooseLegPath(a, b, route, direct, config.useDetourFallback, config.detourFactor, config.minDirectDistance)
  }

  /** Lines 162-191: the red line through the waypoints `StreetWaypoints`
      gives, one path per pair of consecutive waypoints (the pairs of lines
      162-165), each drawn by `RedSegment` from the engine's answer for that
      pair: path `j` is the one `RedSegment` draws from waypoint `j` to
      waypoint `j + 1`. */
  function RedLine(waypoints: seq<Point>, route: (Point, Point) -> Option<RouteResult>,
                   direct: (Point, Point) -> Option<real>, config: Config): (r: seq<seq<Point>>)
    ensures |r| == |ConsecutivePairs(waypoints)|
    ensures forall j :: 0 <= j < |r| ==>
              r[j] == RedSegment(waypoints[j], waypoints[j + 1], route(waypoints[j], waypoints[j + 1]),
                                 direct(waypoints[j], waypoints[j + 1]), config)
  {
    var pairs := ConsecutivePairs(waypoints);
    seq(|pairs|, j requires 0 <= j < |pairs| =>
      RedSegment(pairs[j].0, pairs[j].1, route(pairs[j].0, pairs[j].1), direct(pairs[j].0, pairs[j].1), config))
  }

  /** The first and last position of each path. */
  function Ends(paths: seq<seq<Point>>): seq<(Point, Point)>
    requires forall j :: 0 <= j < |paths| ==> |paths[j]| > 0
  {
    seq(|paths|, j requires 0 <= j < |paths| => (paths[j][0], paths[j][|paths[j]| - 1]))
  }

  /** When the engine has no road for any pair of waypoints, the red line is
      the straight walk through them: its paths join the consecutive
      waypoints, each starting where the previous one ended, and together
      they visit every waypoint in order. */
  lemma {:induction false} StraightRedLine(waypoints: seq<Point>, route: (Point, Point) -> Option<RouteResult>,
                                           direct: (Point, Point) -> Option<real>, config: Config)
    requires forall a, b :: route(a, b).None?
    requires |waypoints| >= 2
    ensures var r := RedLine(waypoints, route, direct, config);
            && Ends(r) == ConsecutivePairs(waypoints)
            && (forall j :: 0 < j < |r| ==> r[j][0] == r[j - 1][|r[j - 1]| - 1])
            && Stitch(Ends(r)) == waypoints
  {
    var r := RedLine(waypoints, route, direct, config);
    assert forall j :: 0 <= j < |r| ==> r[j] == [waypoints[j], waypoints[j + 1]];
    assert Ends(r) == ConsecutivePairs(waypoints);
    PairsChain(waypoints);
  }

  /** Edge `k` (from position `k` to `k + 1`) of an `n`-position line is its
      middle edge: as many edges before it as after, or one more before. */
  predicate MiddleEdge(n: nat, k: nat) {
    k + 1 < n && 0 <= 2 * k + 2 - n <= 1
  }

  /** Lines 215-229: the arrow of a drawn leg sits on its middle edge, and is
      left out when that edge has zero length. The `length - 1` fallback of
      line 218 never applies, since the middle index always has a successor. */
  function MidArrow(seg: seq<Point>): (r: Option<Arrow>)
    ensures r.Some? <==> exists k: nat :: MiddleEdge(|seg|, k) && seg[k] != seg[k + 1]
    ensures r.Some? ==> exists k: nat :: MiddleEdge(|seg|, k) && r.value == Arrow(seg[k], seg[k + 1])
  {
    if |seg| > 1 then
      var mid := (|seg| - 1) / 2;
      var p1 := seg[mid];
      // The fallback `seg[seg.length - 1]` cannot be reached; `p1` stands in for it.
      var p2 := if |seg| > mid + 1 then seg[mid + 1] else p1;
      assert MiddleEdge(|seg|, mid);
      MiddleEdgeUnique(|seg|, mid);
      if p1 != p2 then Some(Arrow(p1, p2)) else None
    else None
  }

  lemma {:induction false} MiddleEdgeUnique(n: nat, k: nat)
    requires MiddleEdge(n, k)
    ensures forall j: nat :: MiddleEdge(n, j) ==> j == k
  {
  }

  /** `Math.abs(a - b)` */
  function Abs(x: real): real {
    if x < 0.0 then -x else x
  }

  /** Lines 246-247: the turning angle between two bearings, folded to at most
      180 degrees. */
  function AngleDiff(bearingIn: real, bearingOut: real): real {
    var d := Abs(bearingIn - bearingOut);
    if d > 180.0 then 360.0 - d else d
  }

  /** Line 251: a turn sharper than 150 degrees (and below 210). */
  predicate IsUTurn(bearingIn: real, bearingOut: real) {
    150.0 < AngleDiff(bearingIn, bearingOut) < 210.0
  }

  /** For bearings in [0, 360) as `getBearing` returns them, the folded angle
      is at most 180, so the upper threshold 210 never binds: a U-turn is a
      raw bearing difference strictly between 150 and 210 degrees. */
  lemma {:induction false} UTurnWindow(bearingIn: real, bearingOut: real)
    requires 0.0 <= bearingIn < 360.0 && 0.0 <= bearingOut < 360.0
    ensures 0.0 <= AngleDiff(bearingIn, bearingOut) <= 180.0
    ensures IsUTurn(bearingIn, bearingOut) <==> 150.0 < AngleDiff(bearingIn, bearingOut)
    ensures IsUTurn(bearingIn, bearingOut) <==> 150.0 < Abs(bearingIn - bearingOut) < 210.0
  {
  }

  /** A U-turn at interior waypoint `j`: the bearing into it and the bearing
      out of it. */
  predicate TurnsBackAt(ws: seq<Point>, bearing: (Point, Point) -> real, j: nat) {
    1 <= j && j + 1 < |ws| && IsUTurn(bearing(ws[j - 1], ws[j]), bearing(ws[j], ws[j + 1]))
  }

  /** Lines 235-266 for the waypoints before `hi`: the interior waypoints
      that get a U-turn marker, in increasing order. */
  function UTurnsBelow(ws: seq<Point>, bearing: (Point, Point) -> real, hi: nat): (r: seq<nat>)
    ensures forall j: nat :: j in r <==> j < hi && TurnsBackAt(ws, bearing, j)
    ensures forall a, b :: 0 <= a < b < |r| ==> r[a] < r[b]
  {
    if hi == 0 then []
    else
      var rest := UTurnsBelow(ws, bearing, hi - 1);
      assert forall a :: 0 <= a < |rest| ==> rest[a] in rest;
      rest + (if TurnsBackAt(ws, bearing, hi - 1) then [hi - 1] else [])
  }

  /** The waypoints marked as U-turns. */
  function UTurnIndices(ws: seq<Point>, bearing: (Point, Point) -> real): (r: seq<nat>)
    ensures forall j: nat :: j in r <==> TurnsBackAt(ws, bearing, j)
    ensures forall a, b :: 0 <= a < b < |r| ==> r[a] < r[b]
  {
    UTurnsBelow(ws, bearing, |ws|)
  }
}

=== FILE: seqs.dfy ===
/** Sequence vocabulary shared by the solvers: distinctness, index tours,
    reversal, filtering, flattening and sums. */
module Seqs {

  /** No element occurs twice. */
  ghost predicate Distinct<T>(s: seq<T>) {
    forall i, j :: 0 <= i < j < |s| ==> s[i] != s[j]
  }

  /** The identity order 0, 1, ..., n-1 (JavaScript's `Array.from({length: n}, (_, i) => i)`). */
  function Range(n: nat): (r: seq<nat>)
    ensures |r| == n
    ensures forall i :: 0 <= i < n ==> r[i] == i
  {
    seq(n, i => i)
  }

  /** `p` visits every index 0..n-1 exactly once. */
  ghost predicate IsPermutation(p: seq<nat>, n: nat) {
    && |p| == n
    && Distinct(p)
    && (forall i :: 0 <= i < |p| ==> p[i] < n)
  }

  function Reverse<T>(s: seq<T>): (r: seq<T>)
    ensures |r| == |s|
    ensures forall i :: 0 <= i < |s| ==> r[i] == s[|s| - 1 - i]
  {
    if s == [] then [] else Reverse(s[1..]) + [s[0]]
  }

  /** The elements of `s` satisfying `f`, in their original order. */
  function Filter<T>(s: seq<T>, f: T -> bool): (r: seq<T>)
    ensures |r| <= |s|
    ensures forall i :: 0 <= i < |r| ==> r[i] in s && f(r[i])
    ensures forall i :: 0 <= i < |s| && f(s[i]) ==> s[i] in r
  {
    if s == [] then []
    else (if f(s[0]) then [s[0]] else []) + Filter(s[1..], f)
  }

  function Flatten<T>(ss: seq<seq<T>>): seq<T> {
    if ss == [] then [] else ss[0] + Flatten(ss[1..])
  }

  function Sum(s: seq<int>): int {
    if s == [] then 0 else s[0] + Sum(s[1..])
  }

  /** The set of numbers below `n`. */
  function Below(n: nat): (r: set<nat>)
    ensures forall k: nat :: k in r <==> k < n
    ensures |r| == n
  {
    if n == 0 then {} else Below(n - 1) + {n - 1}
  }

  /** The elements of a sequence, as a set. */
  ghost function Elems<T>(s: seq<T>): (r: set<T>)
    ensures forall i :: 0 <= i < |s| ==> s[i] in r
    ensures forall x :: x in r ==> x in s
  {
    if s == [] then {} else {s[0]} + Elems(s[1..])
  }

  /** Growing a prefix by one element adds exactly that element. */
  lemma {:induction false} PrefixMember<T>(s: seq<T>, n: nat)
    requires n < |s|
    ensures forall x :: x in s[..n + 1] <==> x in s[..n] || x == s[n]
  {
    assert s[..n + 1] == s[..n] + [s[n]];
  }

  lemma {:induction false} HeadNotInTail<T>(s: seq<T>)
    requires Distinct(s) && s != []
    ensures s[0] !in s[1..]
  {
    forall k | 0 <= k < |s[1..]|
      ensures s[1..][k] != s[0]
    {
      assert s[1..][k] == s[k + 1];
    }
  }

  lemma {:induction false} DistinctCard<T>(s: seq<T>)
    requires Distinct(s)
    ensures |Elems(s)| == |s|
  {
    if s != [] {
      DistinctCard(s[1..]);
      HeadNotInTail(s);
      assert Elems(s) == {s[0]} + Elems(s[1..]);
    }
  }

  lemma {:induction false} SubsetOfEqualSize<T>(a: set<T>, b: set<T>)
    requires a <= b && |a| == |b|
    ensures a == b
  {
    assert b == a + (b - a);
    assert a * (b - a) == {};
    assert |b - a| == 0;
  }

  /** Pigeonhole: a permutation of 0..n-1 contains every index below n. */
  lemma {:induction false} PermutationCovers(p: seq<nat>, n: nat)
    requires IsPermutation(p, n)
    ensures forall k: nat :: k < n ==> k in p
  {
    DistinctCard(p);
    assert Elems(p) <= Below(n);
    SubsetOfEqualSize(Elems(p), Below(n));
  }

  /** A distinct sequence counts each value at most once. */
  lemma {:induction false} DistinctMultiplicity<T>(s: seq<T>, x: T)
    requires Distinct(s)
    ensures multiset(s)[x] <= 1
  {
    if s != [] {
      assert s == [s[0]] + s[1..];
      DistinctMultiplicity(s[1..], x);
      HeadNotInTail(s);
    }
  }

  /** A sequence that counts each value at most once is distinct. */
  lemma {:induction false} MultiplicityDistinct<T>(s: seq<T>)
    requires forall x :: multiset(s)[x] <= 1
    ensures Distinct(s)
  {
    if s != [] {
      assert s == [s[0]] + s[1..];
      assert multiset(s) == multiset{s[0]} + multiset(s[1..]);
      forall x
        ensures multiset(s[1..])[x] <= 1
      {
        assert multiset(s)[x] == (if x == s[0] then 1 else 0) + multiset(s[1..])[x];
      }
      MultiplicityDistinct(s[1..]);
      assert multiset(s[1..])[s[0]] == 0;
      forall i, j | 0 <= i < j < |s|
        ensures s[i] != s[j]
      {
        if i > 0 {
          assert s[i] == s[1..][i - 1] && s[j] == s[1..][j - 1];
        } else {
          assert s[j] == s[1..][j - 1];
          assert s[j] in multiset(s[1..]);
        }
      }
    }
  }

  /** Rearranging a permutation of 0..n-1 gives a permutation of 0..n-1. */
  lemma {:induction false} PermutationOfPermutation(p: seq<nat>, q: seq<nat>, n: nat)
    requires IsPermutation(p, n)
    requires multiset(q) == multiset(p)
    ensures IsPermutation(q, n)
  {
    assert |q| == |multiset(q)| == |multiset(p)| == |p|;
    forall i | 0 <= i < |q|
      ensures q[i] < n
    {
      assert q[i] in multiset(q);
      assert q[i] in p;
    }
    forall x
      ensures multiset(q)[x] <= 1
    {
      DistinctMultiplicity(p, x);
    }
    MultiplicityDistinct(q);
  }

  lemma {:induction false} ReverseMultiset<T>(s: seq<T>)
    ensures multiset(Reverse(s)) == multiset(s)
  {
    if s != [] {
      ReverseMultiset(s[1..]);
      assert s == [s[0]] + s[1..];
    }
  }

  /** A distinct sequence of numbers below `n` that contains each of them is a permutation. */
  lemma {:induction false} CoveringIsPermutation(p: seq<nat>, n: nat)
    requires Distinct(p)
    requires forall i :: 0 <= i < |p| ==> p[i] < n
    requires forall t :: 0 <= t < n ==> t in p
    ensures IsPermutation(p, n)
  {
    forall x | x in Elems(p)
      ensures x in Below(n)
    {
      var i :| 0 <= i < |p| && p[i] == x;
    }
    forall x: nat | x < n
      ensures x in Elems(p)
    {
      assert x in p;
      var i :| 0 <= i < |p| && p[i] == x;
    }
    assert Elems(p) == Below(n);
    DistinctCard(p);
  }

  lemma {:induction false} SubsetCard<T>(a: set<T>, b: set<T>)
    requires a <= b
    ensures |a| <= |b|
    decreases |b|
  {
    if a != {} {
      var x :| x in a;
      SubsetCard(a - {x}, b - {x});
    }
  }

  /** A distinct sequence of fewer than `n` numbers below `n` misses one of them. */
  lemma {:induction false} MissingIndexExists(p: seq<nat>, n: nat)
    requires Distinct(p) && |p| < n
    requires forall i :: 0 <= i < |p| ==> p[i] < n
    ensures exists j :: 0 <= j < n && j !in p
  {
    DistinctCard(p);
    var both := Below(n) * Elems(p);
    var missing := Below(n) - Elems(p);
    assert Below(n) == both + missing;
    assert both * missing == {};
    SubsetCard(both, Elems(p));
    assert |missing| > 0;
    var j :| j in missing;
    assert j !in p;
  }
  /** Permutations of 0..n-1 are exactly the rearrangements of the identity order. */
  lemma {:induction false} PermutationMultiset(p: seq<nat>, n: nat)
    requires IsPermutation(p, n)
    ensures multiset(p) == multiset(Range(n))
  {
    PermutationCovers(p, n);
    assert IsPermutation(Range(n), n);
    PermutationCovers(Range(n), n);
    forall x: nat
      ensures multiset(p)[x] == multiset(Range(n))[x]
    {
      DistinctMultiplicity(p, x);
      DistinctMultiplicity(Range(n), x);
      if x < n {
        assert x in p && x in Range(n);
      } else {
        assert x !in p && x !in Range(n);
      }
    }
  }

  /** Distinctness depends only on the multiset of elements. */
  lemma {:induction false} DistinctRearranged<T>(a: seq<T>, b: seq<T>)
    requires Distinct(a) && multiset(b) == multiset(a)
    ensures Distinct(b)
  {
    forall x
      ensures multiset(b)[x] <= 1
    {
      DistinctMultiplicity(a, x);
    }
    MultiplicityDistinct(b);
  }

  // ---------------------------------------------------------------------------
  // Concatenating a part per index
  // ---------------------------------------------------------------------------

  /** `f(s[0]) + f(s[1]) + ...`: the pieces picked by `s`, concatenated. */
  function FlatMap<T>(s: seq<nat>, f: nat -> seq<T>): seq<T> {
    if s == [] then [] else f(s[0]) + FlatMap(s[1..], f)
  }

  lemma {:induction false} FlatMapAppend<T>(a: seq<nat>, b: seq<nat>, f: nat -> seq<T>)
    ensures FlatMap(a + b, f) == FlatMap(a, f) + FlatMap(b, f)
    decreases |a|
  {
    if a == [] {
      assert a + b == b;
    } else {
      assert (a + b)[0] == a[0] && (a + b)[1..] == a[1..] + b;
      FlatMapAppend(a[1..], b, f);
    }
  }

  /** Every element of the concatenation comes from the piece of some index. */
  lemma {:induction false} FlatMapMember<T>(s: seq<nat>, f: nat -> seq<T>, x: T)
    requires x in FlatMap(s, f)
    ensures exists t :: 0 <= t < |s| && x in f(s[t])
    decreases |s|
  {
    if x !in f(s[0]) {
      FlatMapMember(s[1..], f, x);
      var t :| 0 <= t < |s[1..]| && x in f(s[1..][t]);
      assert s[1..][t] == s[t + 1];
    }
  }

  /** Picking the pieces in another order rearranges the same elements. */
  lemma {:induction false} FlatMapRearranged<T>(a: seq<nat>, b: seq<nat>, f: nat -> seq<T>)
    requires multiset(a) == multiset(b)
    ensures multiset(FlatMap(a, f)) == multiset(FlatMap(b, f))
    decreases |a|
  {
    if a != [] {
      var x := a[0];
      assert x in multiset(b);
      var j :| 0 <= j < |b| && b[j] == x;
      var rest := b[..j] + b[j + 1..];
      RemoveOne(b, j);
      assert a == [x] + a[1..];
      assert multiset(a[1..]) == multiset(a) - multiset{x};
      FlatMapRearranged(a[1..], rest, f);
      FlatMapRemoveOne(b, j, f);
    }
  }

  lemma {:induction false} RemoveOne<T>(b: seq<T>, j: nat)
    requires j < |b|
    ensures multiset(b[..j] + b[j + 1..]) == multiset(b) - multiset{b[j]}
  {
    assert b == b[..j] + [b[j]] + b[j + 1..];
  }

  /** The concatenation is the piece of `b[j]` plus the concatenation without it. */
  lemma {:induction false} FlatMapRemoveOne<T>(b: seq<nat>, j: nat, f: nat -> seq<T>)
    requires j < |b|
    ensures multiset(FlatMap(b, f)) == multiset(f(b[j])) + multiset(FlatMap(b[..j] + b[j + 1..], f))
  {
    FlatMapSplit(b, j, f);
    MultisetWithout(FlatMap(b[..j], f), f(b[j]), FlatMap(b[j + 1..], f));
  }

  /** Cutting the indices around position `j` cuts the concatenation. */
  lemma {:induction false} FlatMapSplit<T>(b: seq<nat>, j: nat, f: nat -> seq<T>)
    requires j < |b|
    ensures FlatMap(b, f) == FlatMap(b[..j], f) + f(b[j]) + FlatMap(b[j + 1..], f)
    ensures FlatMap(b[..j] + b[j + 1..], f) == FlatMap(b[..j], f) + FlatMap(b[j + 1..], f)
  {
    var pre, x, post := b[..j], b[j], b[j + 1..];
    var whole, left := FlatMap(b, f), FlatMap(b[..j + 1], f);
    FlatMapCut(b, j + 1, f);
    assert whole == left + FlatMap(post, f);
    assert b[..j + 1] == pre + [x];
    FlatMapSnoc(pre, x, f);
    assert left == FlatMap(pre, f) + f(x);
    FlatMapAppend(pre, post, f);
  }

  lemma {:induction false} FlatMapCut<T>(b: seq<nat>, k: nat, f: nat -> seq<T>)
    requires k <= |b|
    ensures FlatMap(b, f) == FlatMap(b[..k], f) + FlatMap(b[k..], f)
  {
    assert b == b[..k] + b[k..];
    FlatMapAppend(b[..k], b[k..], f);
  }

  lemma {:induction false} FlatMapSnoc<T>(pre: seq<nat>, x: nat, f: nat -> seq<T>)
    ensures FlatMap(pre + [x], f) == FlatMap(pre, f) + f(x)
  {
    assert FlatMap([x], f) == f(x) by {
      assert [x][1..] == [];
    }
    FlatMapAppend(pre, [x], f);
  }

  /** Growing a prefix of `b` by one index appends that index's image. */
  lemma {:induction false} FlatMapPrefixStep<T>(b: seq<nat>, t: nat, f: nat -> seq<T>)
    requires t < |b|
    ensures FlatMap(b[..t + 1], f) == FlatMap(b[..t], f) + f(b[t])
  {
    assert b[..t + 1] == b[..t] + [b[t]];
    FlatMapSnoc(b[..t], b[t], f);
  }

  lemma {:induction false} MultisetWithout<T>(p: seq<T>, y: seq<T>, q: seq<T>)
    ensures multiset(p + y + q) == multiset(y) + multiset(p + q)
  {
  }

  /** Picking the pieces of 0..n-1 in order. */
  lemma {:induction false} FlatMapRangeSnoc<T>(n: nat, f: nat -> seq<T>)
    requires n > 0
    ensures FlatMap(Range(n), f) == FlatMap(Range(n - 1), f) + f(n - 1)
  {
    assert Range(n) == Range(n - 1) + [n - 1];
    FlatMapAppend(Range(n - 1), [n - 1], f);
    assert [n - 1][1..] == [];
  }

  lemma {:induction false} FlattenSnoc<T>(ss: seq<seq<T>>, x: seq<T>)
    ensures Flatten(ss + [x]) == Flatten(ss) + x
    decreases |ss|
  {
    if ss == [] {
      assert [x][1..] == [];
    } else {
      assert (ss + [x])[1..] == ss[1..] + [x];
      FlattenSnoc(ss[1..], x);
    }
  }

  lemma {:induction false} FlattenMember<T>(ss: seq<seq<T>>, k: nat, x: T)
    requires k < |ss| && x in ss[k]
    ensures x in Flatten(ss)
    decreases k
  {
    if k > 0 {
      assert ss[1..][k - 1] == ss[k];
      FlattenMember(ss[1..], k - 1, x);
    }
  }

  /** A member of the concatenation is a member of one of the parts. */
  lemma {:induction false} FlattenIndex<T>(ss: seq<seq<T>>, x: T) returns (k: nat)
    requires x in Flatten(ss)
    ensures k < |ss| && x in ss[k]
    decreases |ss|
  {
    if x in ss[0] {
      k := 0;
    } else {
      var rest := FlattenIndex(ss[1..], x);
      k := rest + 1;
    }
  }

  // ---------------------------------------------------------------------------
  // Consecutive pairs
  // ---------------------------------------------------------------------------

  /** The legs `[s[j], s[j + 1]]` of a walk through `s`. */
  function ConsecutivePairs<T>(s: seq<T>): (r: seq<(T, T)>)
    ensures |r| == if |s| == 0 then 0 else |s| - 1
  {
    if |s| < 2 then [] else seq(|s| - 1, j requires 0 <= j < |s| - 1 => (s[j], s[j + 1]))
  }

  /** A walk rebuilt from its legs: the first start, then every end. */
  function Stitch<T>(legs: seq<(T, T)>): seq<T>
    requires |legs| > 0
  {
    [legs[0].0] + seq(|legs|, j requires 0 <= j < |legs| => legs[j].1)
  }

  /** Each leg starts where the previous one ended, and the legs give back
      the walk they were cut from. */
  lemma {:induction false} PairsChain<T>(s: seq<T>)
    requires |s| >= 2
    ensures forall j :: 0 < j < |ConsecutivePairs(s)| ==> ConsecutivePairs(s)[j].0 == ConsecutivePairs(s)[j - 1].1
    ensures Stitch(ConsecutivePairs(s)) == s
  {
  }

  /** Walking `v` and then `o` adds the leg from the end of `v` to the start of
      `o` between their own legs. */
  lemma {:induction false} PairsAppend<T>(v: seq<T>, o: seq<T>)
    requires |v| > 0 && |o| > 0
    ensures ConsecutivePairs(v + o) == ConsecutivePairs(v) + [(v[|v| - 1], o[0])] + ConsecutivePairs(o)
  {
    var w := v + o;
    var lhs, rhs := ConsecutivePairs(w), ConsecutivePairs(v) + [(v[|v| - 1], o[0])] + ConsecutivePairs(o);
    assert |lhs| == |rhs|;
    forall j | 0 <= j < |lhs|
      ensures lhs[j] == rhs[j]
    {
      if j < |v| - 1 {
        assert rhs[j] == ConsecutivePairs(v)[j];
      } else if j == |v| - 1 {
      } else {
        assert rhs[j] == ConsecutivePairs(o)[j - |v|];
      }
    }
  }
}

=== FILE: solve_tsp.dfy ===
/** The TSP solvers of public/js/solveTSP.js: greedy nearest-neighbour
    construction with a "stuck" fallback, and 2-opt refinement that
    re-measures the whole route after each candidate reversal. */
module SolveTsp {
  import opened Wrappers
  import opened Seqs
  import opened TspCommon

  // ---------------------------------------------------------------------------
  // Greedy construction
  // ---------------------------------------------------------------------------

  /** `x` is what the scan over `j` picks after visiting `visited`: an unvisited
      index with a finite entry from the last stop, no other unvisited entry
      smaller, and — because the comparison is a strict `<` — none equal at a
      lower index. */
  ghost predicate NearestStep(m: Matrix, n: nat, visited: seq<nat>, x: nat)
    requires |visited| > 0
  {
    var last := visited[|visited| - 1];
    && x < n && x !in visited && Entry(m, last, x).Some?
    && forall j :: 0 <= j < n && j !in visited && Entry(m, last, j).Some? ==>
         && Entry(m, last, x).value <= Entry(m, last, j).value
         && (j < x ==> Entry(m, last, x).value < Entry(m, last, j).value)
  }

  /** No unvisited index has a finite entry from the last stop. */
  ghost predicate NoCandidate(m: Matrix, n: nat, visited: seq<nat>)
    requires |visited| > 0
  {
    forall j :: 0 <= j < n && j !in visited ==> Entry(m, visited[|visited| - 1], j).None?
  }

  ghost predicate Ascending(s: seq<nat>) {
    forall i, j :: 0 <= i < j < |s| ==> s[i] < s[j]
  }

  /** `r` makes nearest-neighbour steps at positions 1..s-1; if `s < |r|` the
      walk got stuck at position `s` and the rest is appended in index order. */
  ghost predicate GreedyUpTo(m: Matrix, n: nat, r: seq<nat>, s: nat) {
    && 1 <= s <= |r|
    && (forall k :: 1 <= k < s ==> NearestStep(m, n, r[..k], r[k]))
    && (s < |r| ==> NoCandidate(m, n, r[..s]) && Ascending(r[s..]))
  }

  ghost predicate IsGreedyTour(m: Matrix, n: nat, r: seq<nat>) {
    exists s :: GreedyUpTo(m, n, r, s)
  }

  /** The inner scan of lines 94-99. */
  method NearestUnvisited(m: Matrix, n: nat, visited: seq<nat>) returns (next: Option<nat>)
    requires |visited| > 0
    ensures next.Some? ==> NearestStep(m, n, visited, next.value)
    ensures next.None? ==> NoCandidate(m, n, visited)
  {
    var last := visited[|visited| - 1];
    next := None;
    var j := 0;
    while j < n
      invariant 0 <= j <= n
      invariant next.None? ==> forall t :: 0 <= t < j && t !in visited ==> Entry(m, last, t).None?
      invariant next.Some? ==> next.value < j && next.value !in visited && Entry(m, last, next.value).Some?
      invariant next.Some? ==> forall t :: 0 <= t < j && t !in visited && Entry(m, last, t).Some? ==>
        && Entry(m, last, next.value).value <= Entry(m, last, t).value
        && (t < next.value ==> Entry(m, last, next.value).value < Entry(m, last, t).value)
    {
      var c := Entry(m, last, j);
      if j !in visited && c.Some? && (next.None? || c.value < Entry(m, last, next.value).value) {
        next := Some(j);
      }
      j := j + 1;
    }
  }

  /** The matrix checks of line 76: non-empty, and row 0 as long as the matrix. */
  predicate PassesShapeCheck(m: Matrix) {
    |m| > 0 && |m[0]| == |m|
  }

  /** `solveGreedyTSP(matrix)` of public/js/solveTSP.js (lines 75-116); `None` is a null matrix. */
  method GreedyTour(matrix: Option<Matrix>) returns (path: seq<nat>)
    ensures matrix.None? ==> path == []
    ensures matrix.Some? && !PassesShapeCheck(matrix.value) ==> path == Range(|matrix.value|)
    ensures matrix.Some? && PassesShapeCheck(matrix.value) ==>
      && IsPermutation(path, |matrix.value|)
      && path[0] == 0
      && IsGreedyTour(matrix.value, |matrix.value|, path)
  {
    if matrix.None? {
      return [];
    }
    var m := matrix.value;
    if !PassesShapeCheck(m) {
      return Range(|m|);
    }
    var n := |m|;
    path := [0];
    while |path| < n
      invariant 1 <= |path| <= n
      invariant path[0] == 0
      invariant Distinct(path)
      invariant forall i :: 0 <= i < |path| ==> path[i] < n
      invariant forall k :: 1 <= k < |path| ==> NearestStep(m, n, path[..k], path[k])
      decreases n - |path|
    {
      var next := NearestUnvisited(m, n, path);
      if next.None? {
        path := AppendUnvisited(m, n, path);
        return;
      }
      PrefixOfExtension(path, next.value);
      path := path + [next.value];
    }
    assert GreedyUpTo(m, n, path, |path|);
  }

  lemma {:induction false} PrefixOfExtension(path: seq<nat>, x: nat)
    ensures forall k :: 0 <= k <= |path| ==> (path + [x])[..k] == path[..k]
    ensures (path + [x])[..|path|] == path
  {
  }

  /** The "stuck" fallback of lines 100-110: every unvisited index, in index order. */
  method AppendUnvisited(m: Matrix, n: nat, visited: seq<nat>) returns (path: seq<nat>)
    requires 1 <= |visited| < n && visited[0] == 0
    requires Distinct(visited)
    requires forall i :: 0 <= i < |visited| ==> visited[i] < n
    requires forall k :: 1 <= k < |visited| ==> NearestStep(m, n, visited[..k], visited[k])
    requires NoCandidate(m, n, visited)
    ensures IsPermutation(path, n) && path[0] == 0
    ensures IsGreedyTour(m, n, path)
  {
    path := visited;
    var s := |visited|;
    for k := 0 to n
      invariant |path| >= s && path[..s] == visited
      invariant Distinct(path)
      invariant forall i :: 0 <= i < |path| ==> path[i] < n
      invariant forall i :: s <= i < |path| ==> path[i] < k
      invariant Ascending(path[s..])
      invariant forall t :: 0 <= t < k ==> t in path
    {
      if k !in path {
        path := path + [k];
      }
    }
    CoveringIsPermutation(path, n);
    GreedyAfterStuck(m, n, visited, path);
  }

  lemma {:induction false} GreedyAfterStuck(m: Matrix, n: nat, visited: seq<nat>, path: seq<nat>)
    requires 1 <= |visited| <= |path| && path[..|visited|] == visited
    requires forall k :: 1 <= k < |visited| ==> NearestStep(m, n, visited[..k], visited[k])
    requires |visited| < |path| ==> NoCandidate(m, n, visited) && Ascending(path[|visited|..])
    ensures IsGreedyTour(m, n, path)
  {
    var s := |visited|;
    forall k | 1 <= k < s
      ensures NearestStep(m, n, path[..k], path[k])
    {
      assert path[..k] == visited[..k];
      assert path[k] == visited[k];
    }
    assert GreedyUpTo(m, n, path, s);
  }

  // ---------------------------------------------------------------------------
  // 2-opt refinement
  // ---------------------------------------------------------------------------

  /** `try2OptSwap(order, i, k)` (lines 169-174). */
  function Swap<T>(order: seq<T>, i: nat, k: nat): (r: seq<T>)
    requires i < k < |order|
    ensures |r| == |order|
  {
    order[..i + 1] + Reverse(order[i + 1..k + 1]) + order[k + 1..]
  }

  /** A swap keeps `order[0..i]`, reverses `order[i+1..k]`, keeps the rest, and
      so rearranges the same elements. */
  lemma {:induction false} SwapShape<T>(order: seq<T>, i: nat, k: nat)
    requires i < k < |order|
    ensures Swap(order, i, k)[..i + 1] == order[..i + 1]
    ensures Swap(order, i, k)[k + 1..] == order[k + 1..]
    ensures forall t :: i < t <= k ==> Swap(order, i, k)[t] == order[i + 1 + k - t]
    ensures multiset(Swap(order, i, k)) == multiset(order)
  {
    var a, b, c := order[..i + 1], order[i + 1..k + 1], order[k + 1..];
    var rb := Reverse(b);
    var r := Swap(order, i, k);
    assert r == a + rb + c;
    assert forall t :: 0 <= t <= i ==> r[t] == a[t];
    assert forall t :: i < t <= k ==> r[t] == rb[t - i - 1];
    assert forall t :: k < t < |r| ==> r[t] == c[t - k - 1];
    assert r[..i + 1] == a;
    assert r[k + 1..] == c;
    assert multiset(r) == multiset(order) by {
      ReverseMultiset(b);
      assert order == a + b + c;
    }
  }

  /** JavaScript truthiness of an optional number: present and non-zero. */
  predicate Truthy(x: Option<int>) {
    x.Some? && x.value != 0
  }

  /** `actualMaxPasses` as lines 127-129 parse it. Because `||` binds tighter
      than `?:`, this is `(override || configIsNumber) ? config : 3`; a truthy
      override selects the configured value, `undefined` when there is none. */
  function MaxPasses(maxPassesOverride: Option<int>, configPasses: Option<int>): Option<int> {
    if Truthy(maxPassesOverride) || configPasses.Some? then configPasses else Some(3)
  }

  /** How many times `passes < actualMaxPasses` can hold: none against `undefined`. */
  function PassBudget(actualMaxPasses: Option<int>): nat {
    match actualMaxPasses
    case None => 0
    case Some(v) => if v < 0 then 0 else v
  }

  /** The override never changes the number of passes; a configured value or,
      without one, 3 if the override is falsy and 0 if it is truthy. */
  lemma {:induction false} OverrideIsIgnored(override1: Option<int>, override2: Option<int>, configPasses: Option<int>)
    requires configPasses.Some? || Truthy(override1) == Truthy(override2)
    ensures PassBudget(MaxPasses(override1, configPasses)) == PassBudget(MaxPasses(override2, configPasses))
    ensures configPasses.Some? ==> MaxPasses(override1, configPasses) == configPasses
    ensures configPasses.None? && Truthy(override1) ==> PassBudget(MaxPasses(override1, configPasses)) == 0
  {
  }

  /** Reversing `order[i+1..k]` does not give a strictly shorter route. */
  ghost predicate SwapNotBetter(order: seq<nat>, m: Matrix, i: nat, k: nat)
    requires i < k < |order|
  {
    !Less(RouteLength(Swap(order, i, k), m), RouteLength(order, m))
  }

  /** No single reversal of `order` gives a strictly shorter route. */
  ghost predicate LocallyOptimal(order: seq<nat>, m: Matrix) {
    forall i, k :: 0 <= i < k < |order| ==> SwapNotBetter(order, m, i, k)
  }

  /** The guards of lines 131-144 under which the passes run. */
  predicate Refines(coordCount: nat, initialOrder: seq<nat>, matrix: Option<Matrix>) {
    && |initialOrder| >= 3
    && matrix.Some? && |matrix.value| > 0
    && |matrix.value| == coordCount && |matrix.value[0]| == coordCount
  }

  /** The inner loop of lines 154-162 for one `i`: every `j > i` is tried
      against the best order so far and adopted on a strict improvement. */
  method ScanRow(order: seq<nat>, m: Matrix, i: nat) returns (best: seq<nat>, improved: bool)
    requires i < |order|
    ensures |best| == |order| && multiset(best) == multiset(order) && best[0] == order[0]
    ensures improved ==> Less(RouteLength(best, m), RouteLength(order, m))
    ensures !improved ==> best == order && forall k :: i < k < |order| ==> SwapNotBetter(order, m, i, k)
  {
    hide Swap;
    best := order;
    var bestLength := RouteLength(best, m);
    improved := false;
    var j := i + 1;
    while j < |best|
      invariant i + 1 <= j && (j <= |best| || j == i + 1)
      invariant |best| == |order| && multiset(best) == multiset(order) && best[0] == order[0]
      invariant bestLength == RouteLength(best, m)
      invariant improved ==> Less(bestLength, RouteLength(order, m))
      invariant !improved ==> best == order
      invariant !improved ==> forall k :: i < k < j && k < |order| ==> SwapNotBetter(order, m, i, k)
    {
      var newOrder := Swap(best, i, j);
      var newLength := RouteLength(newOrder, m);
      if Less(newLength, bestLength) {
        SwapKeepsStart(best, i, j);
        best := newOrder;
        bestLength := newLength;
        improved := true;
      }
      j := j + 1;
    }
  }

  /** A reversal keeps the tour's stops and its first stop. */
  lemma {:induction false} SwapKeepsStart<T>(order: seq<T>, i: nat, k: nat)
    requires i < k < |order|
    ensures multiset(Swap(order, i, k)) == multiset(order)
    ensures Swap(order, i, k)[0] == order[0]
  {
    SwapShape(order, i, k);
    assert Swap(order, i, k)[..i + 1][0] == order[..i + 1][0];
  }

  /** One pass of the nested loops of lines 153-163. */
  method TwoOptPass(order: seq<nat>, m: Matrix) returns (best: seq<nat>, improved: bool)
    requires |order| >= 1
    ensures |best| == |order| && multiset(best) == multiset(order) && best[0] == order[0]
    ensures improved ==> Less(RouteLength(best, m), RouteLength(order, m))
    ensures !improved ==> best == order && LocallyOptimal(order, m)
  {
    best := order;
    improved := false;
    var i := 0;
    while i < |best| - 1
      invariant 0 <= i <= |order|
      invariant |best| == |order| && multiset(best) == multiset(order) && best[0] == order[0]
      invariant improved ==> Less(RouteLength(best, m), RouteLength(order, m))
      invariant !improved ==> best == order
      invariant !improved ==> forall a, k :: 0 <= a < i && a < k < |order| ==> SwapNotBetter(order, m, a, k)
    {
      var rowBest, rowImproved := ScanRow(best, m, i);
      best := rowBest;
      improved := improved || rowImproved;
      i := i + 1;
    }
  }

  /** `solve2Opt(coords, initialOrder, matrix, maxPassesOverride)` of lines 126-167,
      with the configured `TSP_2OPT_PASSES` as `configPasses` and the number of
      passes made as a second result. */
  method Solve2Opt<P>(coords: seq<P>, initialOrder: seq<nat>, matrix: Option<Matrix>,
                      maxPassesOverride: Option<int>, configPasses: Option<int>)
    returns (best: seq<nat>, passes: nat)
    ensures !Refines(|coords|, initialOrder, matrix) ==> best == initialOrder && passes == 0
    ensures |best| == |initialOrder| && multiset(best) == multiset(initialOrder)
    ensures |initialOrder| > 0 ==> best[0] == initialOrder[0]
    ensures passes <= PassBudget(MaxPasses(maxPassesOverride, configPasses))
    ensures Refines(|coords|, initialOrder, matrix) ==>
      best == initialOrder || Less(RouteLength(best, matrix.value), RouteLength(initialOrder, matrix.value))
    ensures Refines(|coords|, initialOrder, matrix) && passes < PassBudget(MaxPasses(maxPassesOverride, configPasses)) ==>
      LocallyOptimal(best, matrix.value)
  {
    var budget := PassBudget(MaxPasses(maxPassesOverride, configPasses));
    best := initialOrder;
    passes := 0;
    if !Refines(|coords|, initialOrder, matrix) {
      return;
    }
    var m := matrix.value;
    var improved := true;
    while improved && passes < budget
      invariant passes <= budget
      invariant |best| == |initialOrder| && multiset(best) == multiset(initialOrder)
      invariant best[0] == initialOrder[0]
      invariant best == initialOrder || Less(RouteLength(best, m), RouteLength(initialOrder, m))
      invariant !improved ==> LocallyOptimal(best, m)
      decreases budget - passes
    {
      var previous := best;
      best, improved := TwoOptPass(best, m);
      passes := passes + 1;
    }
  }
}

=== FILE: solve_tsp_osrm.dfy ===
/** The TSP solvers of public/solveTSP.js: greedy construction, brute force
    over every permutation (closed tour), and 2-opt driven by an edge delta
    with both ends of the route fixed. None of them checks its table; each
    reads it the way JavaScript evaluates `matrix[i][j]`, which `Js` gives. */
module SolveTspOsrm {
  import opened Wrappers
  import opened Seqs
  import opened TspCommon
  import SolveTsp
  import opened Permutations

  // ---------------------------------------------------------------------------
  // The table as JavaScript reads it
  // ---------------------------------------------------------------------------

  /** An OSRM `durations` table, whose `None` entries are JSON `null` (a pair
      the engine cannot route), as `+` and `<` see it: `null` counts as 0,
      and a column past the end of a row reads `undefined`, which is NaN.
      NaN is `None` in the result: it fails every `<` and makes a sum NaN. */
  function Js(m: Matrix): (r: Matrix)
    ensures |r| == |m|
    ensures forall i, j :: 0 <= i < |m| && 0 <= j ==>
              Entry(r, i, j) == if j < |m[i]| then Some(m[i][j].GetOr(0)) else None
  {
    seq(|m|, i requires 0 <= i < |m| => seq(|m[i]|, j requires 0 <= j < |m[i]| => Some(m[i][j].GetOr(0))))
  }

  /** Every row has an entry, a number or `null`, for every position of the
      table: OSRM's answer to a table request. */
  predicate Full(m: Matrix) {
    forall i :: 0 <= i < |m| ==> |m[i]| >= |m|
  }

  /** No stop is the `-1` a failed greedy step pushes. */
  predicate Positions(path: seq<int>) {
    forall t :: 0 <= t < |path| ==> path[t] >= 0
  }

  // ---------------------------------------------------------------------------
  // Greedy construction (lines 80-101)
  // ---------------------------------------------------------------------------

  /** `path` starts at 0 and each later stop is the choice line 91 makes
      after the stops before it: the unvisited position with the least
      number from the last stop, the lowest one among equals. */
  ghost predicate GreedyPrefix(m: Matrix, path: seq<nat>) {
    && |path| > 0 && path[0] == 0
    && forall k :: 1 <= k < |path| ==> SolveTsp.NearestStep(Js(m), |m|, path[..k], path[k])
  }

  /** After `path` line 91 finds no candidate: no unvisited position has a
      number from the last stop. */
  ghost predicate StuckAfter(m: Matrix, path: seq<nat>)
    requires |path| > 0
  {
    SolveTsp.NoCandidate(Js(m), |m|, path)
  }

  /** A greedy prefix that got stuck, then the `-1` line 96 pushes. */
  ghost predicate EndsStuck(m: Matrix, path: seq<int>) {
    && |path| >= 2 && path[|path| - 1] == -1
    && Positions(path[..|path| - 1])
    && GreedyPrefix(m, path[..|path| - 1])
    && StuckAfter(m, path[..|path| - 1])
  }

  /** What a walk of lines 80-101 that does not throw returns: `[0]` for an
      empty table, otherwise a stop per row, every one a greedy choice, or a
      greedy walk stuck at its final step followed by the `-1` it pushes. */
  ghost predicate GreedyResult(m: Matrix, path: seq<int>) {
    if |m| == 0 then path == [0]
    else |path| == |m| && if Positions(path) then GreedyPrefix(m, path) else EndsStuck(m, path)
  }

  /** The walk of lines 80-101 gets stuck with at least two steps left, and
      the next step's `matrix[-1][j]` throws. */
  ghost predicate GreedyThrows(m: Matrix) {
    exists q: seq<nat> :: |q| + 1 < |m| && GreedyPrefix(m, q) && StuckAfter(m, q)
  }

  /** Line 91 has at most one choice: the least number, the lowest position
      among equals. */
  lemma NearestStepUnique(m: Matrix, n: nat, visited: seq<nat>, x: nat, y: nat)
    requires |visited| > 0
    requires SolveTsp.NearestStep(m, n, visited, x) && SolveTsp.NearestStep(m, n, visited, y)
    ensures x == y
  {
  }

  /** A greedy walk cut short is a greedy walk. */
  lemma {:induction false} GreedyPrefixTake(m: Matrix, p: seq<nat>, k: nat)
    requires GreedyPrefix(m, p) && 1 <= k <= |p|
    ensures GreedyPrefix(m, p[..k])
  {
    hide Js, SolveTsp.NearestStep;
    forall i | 1 <= i < k
      ensures SolveTsp.NearestStep(Js(m), |m|, p[..k][..i], p[..k][i])
    {
      assert p[..k][..i] == p[..i];
    }
  }

  /** Two greedy walks over the same table agree as far as both go. */
  lemma {:induction false} GreedyPrefixesAgree(m: Matrix, p: seq<nat>, q: seq<nat>)
    requires GreedyPrefix(m, p) && GreedyPrefix(m, q) && |p| <= |q|
    ensures q[..|p|] == p
    decreases |p|
  {
    hide Js, SolveTsp.NearestStep;
    var k := |p| - 1;
    if k > 0 {
      GreedyPrefixTake(m, p, k);
      GreedyPrefixTake(m, q, k);
      GreedyPrefixesAgree(m, p[..k], q[..k]);
      assert q[..k][..k] == q[..k];
      NearestStepUnique(Js(m), |m|, p[..k], p[k], q[k]);
      assert q[..|p|] == q[..k] + [q[k]];
      assert p == p[..k] + [p[k]];
    } else {
      assert q[..|p|] == [0] == p;
    }
  }

  /** The walk is determined by the table: it cannot both throw and return. */
  lemma {:induction false} ThrowsOrReturns(m: Matrix, path: seq<int>)
    requires GreedyResult(m, path)
    ensures !GreedyThrows(m)
  {
    if GreedyThrows(m) {
      var q: seq<nat> :| |q| + 1 < |m| && GreedyPrefix(m, q) && StuckAfter(m, q);
      var p: seq<nat> := if Positions(path) then path else path[..|path| - 1];
      assert GreedyPrefix(m, p) && |q| < |p|;
      GreedyPrefixesAgree(m, q, p);
      assert false;
    }
  }

  /** A walk that returns is a result of the table and does not throw. */
  lemma {:induction false} Returned(m: Matrix, path: seq<int>)
    requires |m| == 0 ==> path == [0]
    requires |m| > 0 ==> |path| == |m| && (Positions(path) ==> GreedyPrefix(m, path))
                         && (!Positions(path) ==> EndsStuck(m, path))
    ensures GreedyResult(m, path) && !GreedyThrows(m)
  {
    ThrowsOrReturns(m, path);
  }

  /** A stuck walk with two steps left throws. */
  lemma Throws(m: Matrix, q: seq<nat>)
    requires |q| + 1 < |m| && GreedyPrefix(m, q) && StuckAfter(m, q)
    ensures GreedyThrows(m)
  {
  }

  /** A stuck walk over a full table is impossible: a position is still
      unvisited, and it has a number from the last stop. */
  lemma {:induction false} StuckNotFull(m: Matrix, path: seq<nat>)
    requires 0 < |path| < |m| && Distinct(path)
    requires forall t :: 0 <= t < |path| ==> path[t] < |m|
    requires StuckAfter(m, path)
    ensures !Full(m)
  {
    MissingIndexExists(path, |m|);
    var j :| 0 <= j < |m| && j !in path;
    var last := path[|path| - 1];
    assert Entry(Js(m), last, j).None?;
    assert |m[last]| <= j;
  }

  /** `solveGreedyTSP(matrix)` (lines 80-101). When a step finds no
      candidate, line 96 pushes `-1`; at the last step that ends the path,
      and before it the next step reads `matrix[-1][j]` for a still unvisited
      `j` and throws a TypeError, which is `None`. An empty table gives `[0]`.
      Over a full table the walk never gets stuck. */
  method GreedyTour(m: Matrix) returns (r: Option<seq<int>>)
    ensures |m| <= 1 ==> r == Some([0])
    ensures r.Some? ==> |r.value| > 0 && r.value[0] == 0 && Distinct(r.value)
    ensures r.Some? && |m| > 0 ==> |r.value| == |m| && forall t :: 0 <= t < |r.value| ==> -1 <= r.value[t] < |m|
    ensures r.Some? ==> forall t :: 0 <= t < |r.value| - 1 ==> r.value[t] >= 0
    ensures r.Some? && |m| > 0 && Positions(r.value) ==> GreedyPrefix(m, r.value) && IsPermutation(r.value, |m|)
    ensures r.Some? && !Positions(r.value) ==> EndsStuck(m, r.value)
    ensures r.None? ==> exists q :: |q| + 1 < |m| && GreedyPrefix(m, q) && StuckAfter(m, q)
    ensures r.Some? ==> GreedyResult(m, r.value)
    ensures r.None? <==> GreedyThrows(m)
    ensures Full(m) ==> r.Some? && Positions(r.value)
  {
    hide GreedyResult, GreedyThrows;
    var n := |m|;
    var js := Js(m);
    var path: seq<nat> := [0];
    if n == 0 {
      Returned(m, path);
      return Some(path);
    }
    for step := 1 to n
      invariant |path| == step
      invariant GreedyPrefix(m, path)
      invariant Distinct(path)
      invariant forall t :: 0 <= t < |path| ==> path[t] < n
    {
      var next := SolveTsp.NearestUnvisited(js, n, path);
      if next.None? {
        StuckNotFull(m, path);
        if step + 1 < n {
          Throws(m, path);
          return None;
        }
        var minusOne: seq<int> := [-1];
        var stuck := path + minusOne;
        assert stuck[..|stuck| - 1] == path;
        assert -1 !in path;
        assert EndsStuck(m, stuck);
        Returned(m, stuck);
        return Some(stuck);
      }
      SolveTsp.PrefixOfExtension(path, next.value);
      path := path + [next.value];
    }
    assert n == 1 ==> path == [0];
    Returned(m, path);
    return Some(path);
  }

  // ---------------------------------------------------------------------------
  // Brute force (lines 104-136)
  // ---------------------------------------------------------------------------

  /** The closed-tour length of lines 124-128 as JavaScript adds it: every
      leg of `path` and the return leg from its last stop to its first,
      `null` counting 0. `Inf` stands for the NaN a missing entry makes of
      the sum; like `Infinity` it is below nothing. */
  function TourLength(path: seq<nat>, m: Matrix): Length
    requires |path| > 0
  {
    EdgeSum(path + [path[0]], Js(m))
  }

  /** `best` is listed in `paths` with a numeric length, and every earlier
      entry is longer or has none. */
  ghost predicate FirstShortest(paths: seq<seq<nat>>, best: seq<nat>, m: Matrix) {
    exists k :: 0 <= k < |paths| && paths[k] == best && |best| > 0 && TourLength(best, m).Fin? &&
      forall t :: 0 <= t < k && |paths[t]| > 0 ==> Less(TourLength(best, m), TourLength(paths[t], m))
  }

  /** Every enumerated permutation of `0..n-1` has length `n`. */
  lemma {:induction false} EnumeratedLengths(n: nat)
    ensures forall k :: 0 <= k < |Permute(Range(n))| ==> |Permute(Range(n))[k]| == n
  {
    var all := Permute(Range(n));
    PermuteSound(Range(n));
    forall k | 0 <= k < |all|
      ensures |all[k]| == n
    {
      assert |multiset(all[k])| == |multiset(Range(n))|;
    }
  }

  /** The enumeration of lines 105-116 lists exactly the permutations. */
  lemma {:induction false} Enumerated(n: nat, p: seq<nat>)
    requires n > 0
    ensures IsPermutation(p, n) <==> p in Permute(Range(n))
  {
    var all := Permute(Range(n));
    PermuteSound(Range(n));
    assert IsPermutation(Range(n), n);
    if IsPermutation(p, n) {
      PermutationMultiset(p, n);
      PermuteComplete(Range(n), p);
    }
    if p in all {
      assert multiset(p) == multiset(Range(n));
      PermutationOfPermutation(Range(n), p, n);
    }
  }

  /** Over a full table every tour has a numeric length. */
  lemma {:induction false} FullTourFinite(m: Matrix, p: seq<nat>)
    requires Full(m) && |m| > 0 && IsPermutation(p, |m|)
    ensures TourLength(p, m).Fin?
  {
    var q := p + [p[0]];
    forall t | 0 <= t < |q| - 1
      ensures Entry(Js(m), q[t], q[t + 1]).Some?
    {
      assert q[t] < |m| && q[t + 1] < |m|;
    }
    EdgeSumIsLegSum(q, Js(m));
  }

  /** What the enumeration scan found, stated over every permutation: a
      tour no longer than each enumerated one is no longer than any, and
      when no enumerated tour has a numeric length, none does. */
  lemma {:induction false} EnumeratedMinimumIsOptimal(m: Matrix, best: seq<nat>, k: nat)
    requires |m| > 0
    requires k < |Permute(Range(|m|))| && Permute(Range(|m|))[k] == best
    requires forall t :: 0 <= t < |Permute(Range(|m|))| && |Permute(Range(|m|))[t]| > 0 ==>
               |best| > 0 && AtMost(TourLength(best, m), TourLength(Permute(Range(|m|))[t], m))
    ensures IsPermutation(best, |m|)
    ensures forall p :: IsPermutation(p, |m|) ==> AtMost(TourLength(best, m), TourLength(p, m))
  {
    var n := |m|;
    var all := Permute(Range(n));
    Enumerated(n, best);
    forall p | IsPermutation(p, n)
      ensures AtMost(TourLength(best, m), TourLength(p, m))
    {
      Enumerated(n, p);
      var t :| 0 <= t < |all| && all[t] == p;
    }
  }

  lemma {:induction false} EnumeratedAllNaN(m: Matrix)
    requires |m| > 0
    requires forall t :: 0 <= t < |Permute(Range(|m|))| && |Permute(Range(|m|))[t]| > 0 ==>
               TourLength(Permute(Range(|m|))[t], m).Inf?
    ensures forall p :: IsPermutation(p, |m|) ==> TourLength(p, m).Inf?
  {
    var n := |m|;
    var all := Permute(Range(n));
    forall p | IsPermutation(p, n)
      ensures TourLength(p, m).Inf?
    {
      Enumerated(n, p);
      var t :| 0 <= t < |all| && all[t] == p;
    }
  }

  /** `solveBruteForce(matrix)`: the first closed tour met in enumeration
      order whose length is a number no other permutation's length is below;
      `[]` for an empty table or when no tour has a numeric length, which a
      full table rules out. */
  method SolveBruteForce(m: Matrix) returns (bestPath: seq<nat>)
    ensures |m| == 0 ==> bestPath == []
    ensures |m| > 0 ==> (bestPath == [] <==> forall p :: IsPermutation(p, |m|) ==> TourLength(p, m).Inf?)
    ensures bestPath != [] ==> |m| > 0 && IsPermutation(bestPath, |m|) && TourLength(bestPath, m).Fin?
    ensures bestPath != [] ==> forall p :: IsPermutation(p, |m|) ==> AtMost(TourLength(bestPath, m), TourLength(p, m))
    ensures bestPath != [] ==> FirstShortest(Permute(Range(|m|)), bestPath, m)
    ensures |m| > 0 && Full(m) ==> bestPath != []
  {
    hide TourLength, Js;
    var n := |m|;
    var allPaths := Permute(Range(n));
    EnumeratedLengths(n);
    if n > 0 {
      PermuteCount(Range(n));
    }
    var minLength: Length := Inf;
    bestPath := [];
    ghost var bestIndex := 0;
    for k := 0 to |allPaths|
      invariant k > 0 ==> n > 0
      invariant bestPath == [] <==> minLength.Inf?
      invariant bestPath == [] ==> forall t :: 0 <= t < k ==> TourLength(allPaths[t], m).Inf?
      invariant bestPath != [] ==> n > 0 && 0 <= bestIndex < k && allPaths[bestIndex] == bestPath
      invariant bestPath != [] ==> minLength == TourLength(bestPath, m)
      invariant bestPath != [] ==> forall t :: 0 <= t < k ==> AtMost(TourLength(bestPath, m), TourLength(allPaths[t], m))
      invariant bestPath != [] ==> forall t :: 0 <= t < bestIndex ==> Less(TourLength(bestPath, m), TourLength(allPaths[t], m))
    {
      var path := allPaths[k];
      var len := TourLength(path, m);
      if Less(len, minLength) {
        minLength := len;
        bestPath := path;
        bestIndex := k;
      }
    }
    if n > 0 {
      if bestPath != [] {
        EnumeratedMinimumIsOptimal(m, bestPath, bestIndex);
        assert FirstShortest(allPaths, bestPath, m);
      } else {
        EnumeratedAllNaN(m);
      }
      if Full(m) {
        assert IsPermutation(Range(n), n);
        FullTourFinite(m, Range(n));
      }
    }
  }

  // ---------------------------------------------------------------------------
  // Delta 2-opt (lines 138-161)
  // ---------------------------------------------------------------------------

  /** The default `maxPasses` of the delta-based `solve2Opt` (line 138). */
  const DefaultMaxPasses: int := 3

  /** `matrix[x]` is a row; any other stop makes `matrix[x][y]` throw. */
  predicate IsRow(x: int, m: Matrix) {
    0 <= x < |m|
  }

  /** Every stop from position `from` on, the last excepted, is a row. */
  predicate RowsFrom(order: seq<int>, m: Matrix, from: nat) {
    forall t :: from <= t < |order| - 1 ==> IsRow(order[t], m)
  }

  /** Line 150 as JavaScript evaluates it: the change in length when the
      edges a-b and c-d are replaced by a-c and b-d, or `None` (NaN) when one
      of the four entries is not a number. */
  function Delta(m: Matrix, a: int, b: int, c: int, d: int): Option<int> {
    var js := Js(m);
    if Entry(js, a, c).Some? && Entry(js, b, d).Some? && Entry(js, a, b).Some? && Entry(js, c, d).Some?
    then Some(Cost(js, a, c) + Cost(js, b, d) - Cost(js, a, b) - Cost(js, c, d))
    else None
  }

  /** `delta < 0` of line 151: NaN is not below 0. */
  predicate Improves(delta: Option<int>) {
    delta.Some? && delta.value < 0
  }

  /** Reversing `order[i..j]` as the splice of line 152 does. */
  function Reversal(order: seq<int>, i: nat, j: nat): (r: seq<int>)
    requires 1 <= i < j < |order|
  {
    SolveTsp.Swap(order, i - 1, j)
  }

  /** Reversing `order[i..j]` would not make the delta of line 150 negative. */
  ghost predicate ReversalNotBetter(order: seq<int>, m: Matrix, i: nat, j: nat)
    requires 1 <= i < j < |order| - 1
  {
    !Improves(Delta(m, order[i - 1], order[i], order[j], order[j + 1]))
  }

  /** No reversal the scan of lines 146-147 tries has a negative delta. */
  ghost predicate NoImprovingReversal(order: seq<int>, m: Matrix) {
    forall i, j :: 1 <= i < j < |order| - 1 ==> ReversalNotBetter(order, m, i, j)
  }

  /** Over symmetric costs, reversing the middle part of a path trades the two
      legs at its ends for the two crossed ones. */
  lemma {:induction false} ReverseMiddle(p: seq<int>, s: seq<int>, q: seq<int>, m: Matrix)
    requires |p| > 0 && |s| > 0 && |q| > 0
    requires Symmetric(m) && InRange(s, m)
    ensures var a, b, c, d := p[|p| - 1], s[0], s[|s| - 1], q[0];
            (OpenLength(p + Reverse(s) + q, m)
             == OpenLength(p + s + q, m) + Cost(m, a, c) + Cost(m, b, d) - Cost(m, a, b) - Cost(m, c, d))
  {
    OpenLengthReverse(s, m);
    OpenLengthSplit(p, s, q, m);
    OpenLengthSplit(p, Reverse(s), q, m);
  }

  /** Over symmetric costs a reversal with a numeric delta changes the
      open-path length by exactly that delta. */
  lemma {:induction false} ReversalChange(order: seq<int>, m: Matrix, i: nat, j: nat)
    requires 1 <= i < j < |order| - 1
    requires Symmetric(Js(m)) && InRange(order, m)
    requires Delta(m, order[i - 1], order[i], order[j], order[j + 1]).Some?
    ensures OpenLength(Reversal(order, i, j), Js(m))
         == OpenLength(order, Js(m)) + Delta(m, order[i - 1], order[i], order[j], order[j + 1]).value
  {
    var p: seq<int>, s: seq<int>, q: seq<int> := order[..i], order[i..j + 1], order[j + 1..];
    assert order == p + s + q;
    assert Reversal(order, i, j) == p + Reverse(s) + q;
    assert InRange(s, Js(m)) by {
      forall t | 0 <= t < |s|
        ensures 0 <= s[t] < |Js(m)|
      {
        assert s[t] == order[i + t];
      }
    }
    ReverseMiddle(p, s, q, Js(m));
  }

  /** A reversal of `order[i..j]` keeps `order[..i]` and `order[j + 1..]`,
      mirrors the part between, and so rearranges the same stops. */
  lemma {:induction false} ReversalShape(order: seq<int>, i: nat, j: nat)
    requires 1 <= i < j < |order|
    ensures |Reversal(order, i, j)| == |order|
    ensures Reversal(order, i, j)[..i] == order[..i]
    ensures Reversal(order, i, j)[j + 1..] == order[j + 1..]
    ensures forall t :: i <= t <= j ==> Reversal(order, i, j)[t] == order[i + j - t]
    ensures multiset(Reversal(order, i, j)) == multiset(order)
  {
    SolveTsp.SwapShape(order, i - 1, j);
  }

  /** Stops of a rearrangement stay within the matrix. */
  lemma {:induction false} InRangeKept(a: seq<int>, b: seq<int>, m: Matrix)
    requires InRange(a, m) && multiset(a) == multiset(b)
    ensures InRange(b, m)
  {
    forall t | 0 <= t < |b|
      ensures 0 <= b[t] < |m|
    {
      assert b[t] in multiset(a);
      var u :| 0 <= u < |a| && a[u] == b[t];
    }
  }

  /** One step of the inner loop that reverses: the facts about the new
      order the loop carries. */
  lemma {:induction false} ReversalStep(order: seq<int>, start: seq<int>, m: Matrix, i: nat, j: nat)
    requires 1 <= i < j < |order| - 1 && |order| == |start|
    requires order[..i] == start[..i] && order[j..] == start[j..]
    requires forall t :: i - 1 <= t <= j ==> IsRow(order[t], m)
    ensures Reversal(order, i, j)[..i] == start[..i]
    ensures Reversal(order, i, j)[j + 1..] == start[j + 1..]
    ensures Reversal(order, i, j)[|order| - 1] == start[|order| - 1]
    ensures forall t :: i - 1 <= t <= j ==> IsRow(Reversal(order, i, j)[t], m)
  {
    hide SolveTsp.Swap;
    var r := Reversal(order, i, j);
    ReversalShape(order, i, j);
    assert order[j + 1..] == order[j..][1..];
    assert start[j + 1..] == start[j..][1..];
    assert r[|order| - 1] == r[j + 1..][|order| - j - 2];
    assert start[|order| - 1] == start[j + 1..][|order| - j - 2];
    forall t | i - 1 <= t <= j
      ensures IsRow(r[t], m)
    {
      if t == i - 1 {
        assert r[t] == r[..i][t] == order[..i][t];
      }
    }
  }

  /** The inner loop of lines 147-155 for one `i`: every `j` is tried against
      the current order, which is reversed in place on a negative delta.
      Each `j` reads `a`, `b` and `c` as rows; `ok` is false when one is not
      and the loop throws. It reads exactly the stops from `i - 1` on, the
      last excepted, so it throws exactly when one of them is not a row. */
  method ScanReversals(order: seq<int>, m: Matrix, i: nat) returns (next: seq<int>, improved: bool, ok: bool)
    requires 1 <= i && i + 2 < |order|
    ensures ok <==> RowsFrom(order, m, i - 1)
    ensures ok ==> |next| == |order| && multiset(next) == multiset(order)
    ensures ok ==> RowsFrom(next, m, i - 1) && next[..i - 1] == order[..i - 1]
    ensures ok ==> next[0] == order[0] && next[|next| - 1] == order[|order| - 1]
    ensures ok && improved ==> Symmetric(Js(m)) && InRange(order, m) ==> OpenLength(next, Js(m)) < OpenLength(order, Js(m))
    ensures ok && !improved ==> next == order && forall j :: i < j < |order| - 1 ==> ReversalNotBetter(order, m, i, j)
  {
    hide SolveTsp.Swap, Reversal, Delta, Js, OpenLength, Symmetric, InRange;
    next := order;
    improved := false;
    ok := true;
    for j := i + 1 to |order| - 1
      invariant |next| == |order| && multiset(next) == multiset(order)
      invariant next[..i] == order[..i] && next[j..] == order[j..]
      invariant next[|next| - 1] == order[|order| - 1]
      invariant j == i + 1 ==> next == order
      invariant j > i + 1 ==> forall t :: i - 1 <= t < j ==> IsRow(next[t], m) && IsRow(order[t], m)
      invariant improved ==> Symmetric(Js(m)) && InRange(order, m) ==> OpenLength(next, Js(m)) < OpenLength(order, Js(m))
      invariant !improved ==> next == order
      invariant !improved ==> forall k :: i < k < j ==> ReversalNotBetter(order, m, i, k)
    {
      assert next[j] == next[j..][0] == order[j..][0] == order[j];
      assert next[i - 1] == next[..i][i - 1] == order[..i][i - 1] == order[i - 1];
      var a, b, c, d := next[i - 1], next[i], next[j], next[j + 1];
      if !IsRow(a, m) || !IsRow(b, m) || !IsRow(c, m) {
        ok := false;
        return;
      }
      var delta := Delta(m, a, b, c, d);
      if Improves(delta) {
        ReversalStep(next, order, m, i, j);
        ReversalShape(next, i, j);
        if Symmetric(Js(m)) && InRange(order, m) {
          InRangeKept(order, next, m);
          ReversalChange(next, m, i, j);
        }
        next := Reversal(next, i, j);
        improved := true;
      } else if !improved {
        assert ReversalNotBetter(order, m, i, j);
      }
    }
    assert next[..i - 1] == next[..i][..i - 1];
    assert order[..i - 1] == order[..i][..i - 1];
  }

  /** The scan of lines 146-155 throws: it runs at least once over at least
      four stops, and a stop before the last is not a row. */
  predicate ScanThrows(order: seq<int>, m: Matrix, maxPasses: int) {
    maxPasses > 0 && |order| >= 4 && !RowsFrom(order, m, 0)
  }

  /** The rows a scan leaves stay rows before its `i`. */
  lemma {:induction false} RowsJoined(order: seq<int>, next: seq<int>, m: Matrix, i: nat)
    requires 1 <= i < |order| && |next| == |order|
    requires RowsFrom(order, m, 0) && RowsFrom(next, m, i - 1) && next[..i - 1] == order[..i - 1]
    ensures RowsFrom(next, m, 0)
  {
    forall t | 0 <= t < |next| - 1
      ensures IsRow(next[t], m)
    {
      if t < i - 1 {
        assert next[t] == next[..i - 1][t] == order[..i - 1][t] == order[t];
      }
    }
  }

  /** The delta-based `solve2Opt(coords, initialOrder, maxPasses)` of lines
      138-161, with the distance matrix it fetches given as `m`; `None` is
      the TypeError of a stop that is not a row. Lengths are measured over
      `Js(m)`, counting an entry a row lacks as 0; over a full table that is
      the route's length. */
  method SolveDelta2Opt(m: Matrix, initialOrder: seq<int>, maxPasses: int) returns (r: Option<seq<int>>, passes: nat)
    ensures r.None? <==> ScanThrows(initialOrder, m, maxPasses)
    ensures r.Some? ==> |r.value| == |initialOrder| && multiset(r.value) == multiset(initialOrder)
    ensures r.Some? && |initialOrder| > 0 ==>
              r.value[0] == initialOrder[0] && r.value[|initialOrder| - 1] == initialOrder[|initialOrder| - 1]
    ensures passes <= if maxPasses > 0 then maxPasses else 0
    ensures r.Some? && passes < maxPasses ==> NoImprovingReversal(r.value, m)
    ensures r.Some? && Symmetric(Js(m)) && InRange(initialOrder, m) ==>
              r.value == initialOrder || OpenLength(r.value, Js(m)) < OpenLength(initialOrder, Js(m))
  {
    hide SolveTsp.Swap, Reversal, Delta, Js, OpenLength, Symmetric, InRange;
    var order := initialOrder;
    passes := 0;
    var improved := true;
    ghost var scanned := false;
    while improved && passes < maxPasses
      invariant |order| == |initialOrder| && multiset(order) == multiset(initialOrder)
      invariant |order| > 0 ==> order[0] == initialOrder[0] && order[|order| - 1] == initialOrder[|order| - 1]
      invariant passes <= if maxPasses > 0 then maxPasses else 0
      invariant passes == 0 ==> improved
      invariant !improved ==> NoImprovingReversal(order, m)
      invariant Symmetric(Js(m)) && InRange(initialOrder, m) ==>
                  order == initialOrder || OpenLength(order, Js(m)) < OpenLength(initialOrder, Js(m))
      invariant !scanned ==> order == initialOrder && (passes == 0 || |order| < 4)
      invariant scanned ==> RowsFrom(order, m, 0) && RowsFrom(initialOrder, m, 0)
      decreases maxPasses - passes
    {
      improved := false;
      ghost var start := order;
      var i := 1;
      while i < |order| - 2
        invariant 1 <= i
        invariant |order| == |initialOrder| && multiset(order) == multiset(initialOrder)
        invariant |order| > 0 ==> order[0] == initialOrder[0] && order[|order| - 1] == initialOrder[|order| - 1]
        invariant Symmetric(Js(m)) && InRange(initialOrder, m) ==>
                    order == initialOrder || OpenLength(order, Js(m)) < OpenLength(initialOrder, Js(m))
        invariant !scanned ==> order == initialOrder && i == 1
        invariant scanned ==> RowsFrom(order, m, 0) && RowsFrom(initialOrder, m, 0)
        invariant !improved ==> order == start
        invariant !improved ==> forall i', j :: 1 <= i' < i && i' < j < |order| - 1 ==> ReversalNotBetter(order, m, i', j)
      {
        var next, rowImproved, ok := ScanReversals(order, m, i);
        if !ok {
          return None, passes;
        }
        if scanned {
          RowsJoined(order, next, m, i);
        }
        if Symmetric(Js(m)) && InRange(initialOrder, m) {
          InRangeKept(initialOrder, order, m);
        }
        order := next;
        scanned := true;
        improved := improved || rowImproved;
        i := i + 1;
      }
      passes := passes + 1;
    }
    r := Some(order);
  }
}

=== FILE: tsp_common.dfy ===
/** Cost matrices and route lengths shared by every TSP solver
    (public/js/solveTSP.js and public/solveTSP.js). */
module TspCommon {
  import opened Wrappers
  import opened Seqs

  /** A route length: a finite sum, or JavaScript's `Infinity`. */
  datatype Length = Fin(value: int) | Inf

  /** JavaScript's `<` on lengths: nothing is below `Infinity` but finite values. */
  predicate Less(a: Length, b: Length) {
    a.Fin? && (b.Inf? || a.value < b.value)
  }

  predicate AtMost(a: Length, b: Length) {
    !Less(b, a)
  }

  /** A cost matrix as received from the routing engine: one row per origin.
      An entry is `None` when it is missing, not a number, `NaN` or `Infinity`. */
  type Matrix = seq<seq<Option<int>>>

  /** `matrix[i][j]`, or `None` when the row or the entry does not exist. */
  function Entry(m: Matrix, i: int, j: int): Option<int> {
    if 0 <= i < |m| && 0 <= j < |m[i]| then m[i][j] else None
  }

  /** `matrix[i][j]` of a matrix known to be finite (the solvers of public/solveTSP.js add entries unchecked). */
  function Cost(m: Matrix, i: int, j: int): int {
    Entry(m, i, j).GetOr(0)
  }

  predicate IsSquare(m: Matrix, n: nat) {
    |m| == n && forall i :: 0 <= i < n ==> |m[i]| == n
  }

  predicate AllFinite(m: Matrix) {
    forall i, j :: 0 <= i < |m| && 0 <= j < |m[i]| ==> m[i][j].Some?
  }

  /** Costs symmetric in origin and destination. */
  predicate Symmetric(m: Matrix) {
    forall i, j :: 0 <= i < |m| && 0 <= j < |m| ==> Cost(m, i, j) == Cost(m, j, i)
  }

  /** Sum of the consecutive entries of `order`, `Inf` as soon as one is missing. */
  function EdgeSum(order: seq<int>, m: Matrix): Length
    decreases |order|
  {
    if |order| < 2 then Fin(0)
    else match Entry(m, order[0], order[1])
      case None => Inf
      case Some(c) =>
        var rest := EdgeSum(order[1..], m);
        if rest.Inf? then Inf else Fin(c + rest.value)
  }

  /** `calculateRouteLength(order, matrix)`: `Infinity` for fewer than two stops. */
  function RouteLength(order: seq<int>, m: Matrix): Length {
    if |order| < 2 then Inf else EdgeSum(order, m)
  }

  /** Every leg of `order` has a finite entry. */
  ghost predicate AllLegsFinite(order: seq<int>, m: Matrix) {
    forall t :: 0 <= t < |order| - 1 ==> Entry(m, order[t], order[t + 1]).Some?
  }

  /** The open-path length of `order` over a finite matrix: the sum of its legs. */
  function OpenLength(order: seq<int>, m: Matrix): int
    decreases |order|
  {
    if |order| < 2 then 0 else Cost(m, order[0], order[1]) + OpenLength(order[1..], m)
  }

  /** A route length is finite exactly when there are at least two stops and
      every leg has an entry, and then it is the sum of the legs. */
  lemma {:induction false} RouteLengthIsLegSum(order: seq<int>, m: Matrix)
    ensures RouteLength(order, m).Fin? <==> |order| >= 2 && AllLegsFinite(order, m)
    ensures RouteLength(order, m).Fin? ==> RouteLength(order, m).value == OpenLength(order, m)
  {
    if |order| >= 2 {
      EdgeSumIsLegSum(order, m);
    }
  }

  lemma {:induction false} EdgeSumIsLegSum(order: seq<int>, m: Matrix)
    ensures EdgeSum(order, m).Fin? <==> AllLegsFinite(order, m)
    ensures EdgeSum(order, m).Fin? ==> EdgeSum(order, m).value == OpenLength(order, m)
    decreases |order|
  {
    if |order| >= 2 {
      EdgeSumIsLegSum(order[1..], m);
      if AllLegsFinite(order[1..], m) && Entry(m, order[0], order[1]).Some? {
        forall t | 0 <= t < |order| - 1
          ensures Entry(m, order[t], order[t + 1]).Some?
        {
          if t > 0 {
            assert order[1..][t - 1] == order[t];
          }
        }
      }
    }
  }

  /** Every stop of `order` is a row of `m`. */
  predicate InRange(order: seq<int>, m: Matrix) {
    forall t :: 0 <= t < |order| ==> 0 <= order[t] < |m|
  }

  /** Joining two paths adds the leg between them. */
  lemma {:induction false} OpenLengthAppend(a: seq<int>, b: seq<int>, m: Matrix)
    requires |a| > 0 && |b| > 0
    ensures OpenLength(a + b, m) == OpenLength(a, m) + Cost(m, a[|a| - 1], b[0]) + OpenLength(b, m)
    decreases |a|
  {
    if |a| == 1 {
      assert (a + b)[1..] == b;
    } else {
      assert (a + b)[1..] == a[1..] + b;
      OpenLengthAppend(a[1..], b, m);
    }
  }

  /** A path cut in three: the legs of each part and the two legs joining them. */
  lemma {:induction false} OpenLengthSplit(p: seq<int>, s: seq<int>, q: seq<int>, m: Matrix)
    requires |p| > 0 && |s| > 0 && |q| > 0
    ensures OpenLength(p + s + q, m)
         == OpenLength(p, m) + Cost(m, p[|p| - 1], s[0]) + OpenLength(s, m)
          + Cost(m, s[|s| - 1], q[0]) + OpenLength(q, m)
  {
    OpenLengthAppend(p, s, m);
    OpenLengthAppend(p + s, q, m);
    assert (p + s)[|p + s| - 1] == s[|s| - 1];
  }

  /** Over symmetric costs a path is as long backwards as forwards. */
  lemma {:induction false} OpenLengthReverse(s: seq<int>, m: Matrix)
    requires Symmetric(m) && InRange(s, m)
    ensures OpenLength(Reverse(s), m) == OpenLength(s, m)
    decreases |s|
  {
    if |s| >= 2 {
      var rest := Reverse(s[1..]);
      assert Reverse(s) == rest + [s[0]];
      assert InRange(s[1..], m) by {
        forall t | 0 <= t < |s[1..]|
          ensures 0 <= s[1..][t] < |m|
        {
          assert s[1..][t] == s[t + 1];
        }
      }
      OpenLengthReverse(s[1..], m);
      OpenLengthAppend(rest, [s[0]], m);
      assert rest[|rest| - 1] == s[1];
      assert s[1] < |m| && s[0] < |m|;
    }
  }
}

=== FILE: wrappers.dfy ===
/** The optional-value type used wherever the source uses `null`, `undefined`
    or a failed network call as "no value". */
module Wrappers {

  datatype Option<+T> = None | Some(value: T) {

    /** The wrapped value, or `default` when there is none (JavaScript's `x || default`). */
    function GetOr(default: T): T {
      match this
      case Some(v) => v
      case None => default
    }
  }
}
